=== FILE: README.md ===
# ObjectScript class filter for Doxygen, modelled in Dafny

The repository is a Doxygen input filter for InterSystems Caché ObjectScript
class definitions. It reads a `.cls` file line by line and writes
pseudo-C++ with `///` documentation comments, in a form Doxygen can index:

- a `Class` header becomes `class Name : public Base, ...`;
- Parameters become `const` members and Properties become fields;
- methods keep only their signature, their braces and their comments;
- XData blocks are quoted inside a code fence;
- Storage definitions are dropped.

The same filter is written twice:

- `cachefilter.py` runs its line loop at module level;
- `doxyfilter_cache.py` wraps the same loop in `parse()`.

The difference matters. `parse()` assigns `private_method`,
`abstract_method` and `xdata_mimetype` without declaring them `global`, so
those assignments create locals. The handlers therefore keep reading
`False`, `False` and `""`.

The model is one immutable `State` record (module `Handlers`) threaded
through a pure per-line `Step` (module `Filter`). `Step` is parameterised by
a `Scope`:

- `ModuleGlobals` models `cachefilter.py`;
- `FunctionLocals` models `doxyfilter_cache.py`.

Each exception the scripts can raise becomes the single error outcome
`Error` (or `Failed` for a step). The `break` at the class's closing brace
becomes `Done`. Python's string operations are written out over
`seq<char>` (module `PyStr`). These keep Python's exact semantics:

- `split()` with and without a separator;
- `strip()`;
- `in`, which is a substring test;
- `replace`.

The two regular expressions are written as leftmost scanners (module
`CommentPatterns`).

## Modules

- `Results`: `Result` and `Option`.
- `PyStr`: the Python string functions.
- `StrFacts`: lemmas about the Python string functions.
- `CommentPatterns`: `comment_pattern` and `comment_chars_pattern`.
- `Members`: `extract_additional_data`, `check_keyword`,
  `format_method_signature`, `format_xdata_signature`,
  `handle_xdata_mimetype`, `handle_param_type`, and the declaration parse
  of `handle_param_or_property`.
- `Handlers`: the state and the `handle_*` functions.
- `Filter`: the line loop, `Step`, `Run` and `Parse`.
- `Invariants`: what every step preserves.
- `FilterFacts`: whole-input properties.
- `MemberFacts`: round trips and reference definitions for the declaration
  helpers.
- `TokenFacts`: lemmas about token lists joined by a separator and split back.
- `KeywordFacts`: what `check_keyword` finds in a bracketed keyword list.
- `ClassFacts`: the header `handle_class` writes for a class with superclasses.
- `LineFacts`: what the normalisation at the head of the loop does to a line.
- `MethodRun`: a Private ClassMethod read end to end at module level.
- `DataFacts`: the documentation lines `extract_additional_data` writes for
  the common declaration shapes.

## Model

| member | source | states |
|---|---|---|
| CommentPatterns.CommentMatchAt | cachefilter.py:50 | A match of `comment_pattern` starting at `i` is either `//` up to, not including, the next newline, or `/*` through the first `*/` after it; no other position starts a match. |
| CommentPatterns.CommentSearch | cachefilter.py:50 | The span found is the leftmost match: no earlier position starts one, and there is no span exactly when no position matches. |
| CommentPatterns.CommentText | cachefilter.py:341-343 | `group(0)` exists exactly when the search finds a span, and it is then exactly the text of that span, which begins with `//` or `/*`. |
| CommentPatterns.SlashRun | cachefilter.py:52 | No match exactly when the text lacks `//`; otherwise the match is the whole run of slashes at the first `//`, at least two long and not followed by another slash. |
| CommentPatterns.MethodBodyComment | cachefilter.py:421-431 | A method-body line contributes something exactly when it holds a comment, and what it contributes begins with `/// ` (or is a `/* */` comment without `//`). |
| CommentPatterns.MethodLineComment | cachefilter.py:421-431 | Code without a slash followed by `// text`, the text free of slashes and newlines, contributes exactly `/// ` and the stripped text. |
| Members.Bullets | cachefilter.py:88 | One line per list entry, in order: `/// > `, the entry stripped, then the suffix; each a single documentation line when the entries hold no newline. |
| Members.PropertyData | cachefilter.py:79-100 | Raises exactly when the name or the type after `As` is missing; otherwise every line emitted is a `///` line. |
| Members.TypeArgumentData | cachefilter.py:85-88 | The type-argument lines of a Property are documentation lines. |
| Members.MethodData | cachefilter.py:101-111 | Raises exactly when the method name is missing; otherwise every emitted line is a `///` line. |
| Members.IndexData | cachefilter.py:112-126 | Raises exactly when the index name is missing; otherwise every emitted line is a `///` line. |
| Members.XDataData | cachefilter.py:127-132 | The XData keyword lines are documentation lines. |
| Members.AdditionalDataLines | cachefilter.py:72-135 | Raises exactly when the line is empty, its first token is not exactly Property/Parameter and does not contain Method, Index or XData, a Property, Parameter, Method or Index has no name, or a Property/Parameter has `As` with no type after it; every line emitted begins with `///` and holds no newline. |
| MemberFacts.TypedPropertyHasNoData | cachefilter.py:79-85 | A Property or Parameter whose type after `As` has no `(` yields no metadata at all, whatever follows the type. |
| MemberFacts.TypedPropertyLineHasNoData | cachefilter.py:79-85 | The same for the line `Property <n> As <T>` itself, for every name and every type without `(`. |
| DataFacts.TypedArgsData | cachefilter.py:79-96 | For `Property <n> As T(<args>) <post>` (or `Parameter`): a `Member Additional Data:` header, one bullet per `, `-separated argument between the type's `(` and the next `)`, then the keyword lines of the field after that `)`. |
| DataFacts.TypedArgsWithoutKeywords | cachefilter.py:85-91 | When only an optional `;` follows the `)`, the lines are the header and the argument bullets, and nothing else. |
| DataFacts.TypedArgsKeywords | cachefilter.py:85-96 | When `[ k1, k2, ... ]` follows the `)`, the argument lines are followed by `Member Keyword Data:<br>` and one `<br>` bullet per keyword. |
| DataFacts.TypedArgLine | cachefilter.py:79-91 | `Property <n> As <T>(<K> = <V>);` documents exactly one argument, `<K> = <V>`: for example `As %String(MAXLEN = 50)` lists `MAXLEN = 50`. |
| DataFacts.UntypedKeywordData | cachefilter.py:79-100 | `Property <n> [ k1, k2, ... ]` (or `Parameter`), with or without `;` and trailing whitespace, yields `Member Keyword Data:` and one bullet per keyword, without `<br>`. |
| DataFacts.MethodKeywordData | cachefilter.py:101-111 | A Method whose name token holds `(`, followed by `<decl>) <return clause> [ k1, k2, ... ]`, yields `Member Keyword Data:<br>` and one `<br>` bullet per keyword. |
| DataFacts.MethodKeywordDataLost | cachefilter.py:101-111 | As written, `Method <n>() [ k1, k2, ... ]` (or `ClassMethod`, `ClientMethod`) yields no lines at all, although `check_keyword` on the same line finds every listed keyword. |
| Members.MethodDataIntended | cachefilter.py:101-111 | The corrected Method branch raises exactly when the name is missing, and every line it emits is a documentation line. |
| DataFacts.MethodDataIntendedListed | cachefilter.py:101-111 | The corrected Method branch lists the keywords of `<kw> <decl> [ k1, k2, ... ]` for every declaration whose first token holds `(`, `Foo()` included. |
| DataFacts.MethodIntendedAgrees | cachefilter.py:101-111 | The corrected and the as-written Method branch agree whenever the name token holds no `)`. |
| DataFacts.IndexKeywordData | cachefilter.py:112-126 | `Index <n> <text> [ k1, k2, ... ]` yields `Member additional data:<br>`, the text as one bullet, then `Member keyword data:<br>` and one bullet per keyword. |
| DataFacts.IndexWithoutKeywords | cachefilter.py:112-126 | `Index <n> <text>` without `[` yields the additional-data header and the text as one bullet, and no keyword lines. |
| DataFacts.XDataKeywordData | cachefilter.py:127-132 | `XData <n> [ k1, k2, ... ]` yields `Member keyword data:<br>` and one bullet per keyword. |
| Members.PropertyKeywords | cachefilter.py:142-156 | The Property/Parameter branch of `check_keyword` raises exactly when the name is missing or the type after `As` is missing. |
| Members.KeywordList | cachefilter.py:137-168 | Raises exactly when the line is empty, its first token is not Property/Parameter, does not contain `Method` and is not a substring of `Class`, or a Property/Parameter lacks its name or its type. |
| Members.CheckKeyword | doxyfilter_cache.py:215-266 | Raises exactly when the keyword list cannot be read; without a list it answers `False`; with a list it is truthy exactly when some stripped entry equals the keyword, and otherwise it answers `None`. |
| KeywordFacts.PropertyKeywordsListed | cachefilter.py:142-156 | For `Property <n> [ k1, k2, ... ]` (or `Parameter`), with or without a closing `;` and trailing whitespace, `check_keyword` answers `True` for each listed keyword and `None` for every other one. |
| KeywordFacts.ClassKeywordsListed | cachefilter.py:164-166 | For `Class <header> [ k1, k2, ... ]`, any header before the list, with or without a closing `;` and trailing whitespace, `check_keyword` answers `True` exactly for the listed keywords and `None` otherwise. |
| KeywordFacts.MethodKeywordsListed | cachefilter.py:157-163 | For `Method`, `ClassMethod` or `ClientMethod` `<decl>) <return clause> [ k1, k2, ... ]`, with or without a closing `;` and trailing whitespace, `check_keyword` answers `True` exactly for the listed keywords and `None` otherwise. |
| Members.ReturnType | cachefilter.py:182-188 | After the first `)`: `void` when no `As` follows, otherwise a word without spaces; a line without `)` yields the rendering of the one-element list. |
| Members.MethodDeclarator | cachefilter.py:189 | A line starting with its keyword always yields a declarator, and every declarator ends with `)`. |
| Members.MethodPrefixesExclusive | cachefilter.py:181-217 | A line starts with at most one of `ClassMethod`, `Method` and `ClientMethod`, so the branch order does not matter. |
| Members.MethodSignature | cachefilter.py:177-219 | A ClassMethod gets `static `, a Method gets `virtual ` exactly when `check_keyword(line, "Abstract")` is truthy, a ClientMethod gets neither; any other prefix raises, and so does a Method whose keyword check raises. |
| Members.FormatXDataSignature | cachefilter.py:221-233 | As written: raises exactly when the line does not start with `XData `; otherwise `XData <w>;` for a word `w` without spaces. |
| Members.XDataSignature | cachefilter.py:221-233 | The corrected signature: raises exactly when the line does not start with `XData `; otherwise `XData <w>;` for a word `w` without spaces. |
| Members.XDataMimetype | cachefilter.py:235-248 | `application/xml` when the line has no `[`, or when the text after the first `[` lacks `MimeType`; raises exactly when `MimeType` is present but `MimeType = ` is not; otherwise the value is stripped and holds no `]`. |
| Members.ParseMemberDecl | cachefilter.py:291-332 | Raises exactly when there is no name, the first token is neither Parameter nor Property, or an `As` has no type; the name is the second token without `;`; the defaults are `%String` and `""`; after `=` the value is the rest of the line stripped of whitespace and `;`, typed by `handle_param_type`; after `As` the type is the next token up to its first `(`; after anything else the type stays `%String`. |
| MemberFacts.DefaultAfterKeywordsLost | cachefilter.py:317-323 | `Property N As T [ K ] = V` (or `Parameter`) parses with the empty value, neither `V` nor the `""` default: the whole text after `]` is taken as the part holding `=`, and the value is read from what is left after it, which is nothing. |
| MemberFacts.TypedDefaultValue | cachefilter.py:309-325 | For `Property N As T = V ...` with no `(` in `T`, the value is everything after the `=`, stripped of whitespace and `;`. |
| MemberFacts.TypedDefaultLine | cachefilter.py:309-325 | `Property N As T = V;` has the value `V` without the `;`. |
| MemberFacts.UntypedKeywordsValue | cachefilter.py:326-332 | For `Property N [ ...` without a type, the value is read past the `]`, and the type stays `%String`. |
| MemberFacts.UntypedDefaultAfterKeywordsLost | cachefilter.py:326-332 | `Property N [ K ] = V` (or `Parameter`) parses with the empty value and the type `%String`, as after a typed keyword list. |
| MemberFacts.ParamTypeMeaning | cachefilter.py:271-281 | `%Boolean` exactly for `0` and `1`; `%Integer` exactly for any other text `int()` accepts; `%String` exactly for the rest. |
| MemberFacts.MimetypeRoundTrip | cachefilter.py:235-248 | Writing `[ MimeType = m ]` after a header without `[` gives back exactly `m`, for any `m` without spaces or brackets. |
| MemberFacts.NoBracketNoList | cachefilter.py:137-175 | A declaration without `[` has no keyword list: `check_keyword` answers `False` or raises, never `True`. |
| MemberFacts.TypedPropertyHasNoList | cachefilter.py:142-156 | A Property typed `As T` with no `(` in `T` has no keyword list, whatever brackets follow, so `check_keyword` answers `False` for every keyword. |
| MemberFacts.ReturnTypeNamed | cachefilter.py:182-188 | The return type of `... ) As T ...` is `T` itself, for any word `T` without `;`, when nothing else closes a parenthesis or says `As`. |
| MemberFacts.ClassMethodSignatureShape | cachefilter.py:181-190 | `ClassMethod <decl>) As T ...` becomes `static T <decl>)`, the name and parameters taken stripped. |
| MemberFacts.XDataSignatureNamesBlock | cachefilter.py:221-233 | For a block name that does not end in `XData`, both the as-written and the corrected signature are `XData <name>;`. |
| MemberFacts.XDataSignatureCutsName | cachefilter.py:227 | As written, a block name ending in `XData` and followed by a space (as before `[ ... ]`) is cut short: `XData MyXData [ ... ]` gets the signature `XData My;`. |
| MemberFacts.XDataSignatureKeepsName | cachefilter.py:221-233 | The corrected signature keeps such a name whole: `XData MyXData;`. |
| MemberFacts.XDataSignatureRoundTrip | cachefilter.py:221-233 | The corrected signature of `XData <name> ...` names exactly `<name>`, for every name without spaces. |
| Handlers.ClassName | cachefilter.py:254 | The text after the last `.` of the full name, or the whole name when it has no dot; it holds no dot. |
| Handlers.ClassDefinition | cachefilter.py:255-268 | `class <full name>`, stripped; when the line says `Extends`, followed by ` : ` and one `public <base>` per superclass, separated by `, `, with no comma left over. |
| Handlers.HandleClass | cachefilter.py:250-269 | Raises exactly when the line has no space or its keyword check raises; replaces `class_content` with the class definition of the second space-separated field, plus a newline; adds `virtual ~<last segment>() = 0;` to the public section exactly when the class is Abstract; changes nothing else. |
| ClassFacts.ExtendsBases | cachefilter.py:261-264 | The superclasses of `Class <n> Extends (A,B,...)`, the names separated by `,` or `, `, with or without the parentheses, and with or without whitespace and a keyword list after them, are exactly `A`, `B`, ... |
| ClassFacts.ExtendsHeader | cachefilter.py:250-269 | For the same lines, `handle_class` does not raise, and the header it stores is `class <n> : public A, public B, ...`. |
| ClassFacts.ClassLineAccepted | cachefilter.py:250-269 | `handle_class` never raises on a line that starts with `Class `, and it stores that line's class definition followed by a newline. |
| Handlers.HandleParamOrProperty | cachefilter.py:283-363 | Raises exactly on a malformed declaration, on unknown metadata, or when a Property's keyword check raises. A Parameter always lands in the public section. A Property lands in the private section exactly when `check_keyword(line, "Private")` is truthy, which it never is for a typed Property without `(` (see MemberFacts.TypedPropertyHasNoList). The member buffer is empty afterwards and nothing else changes. |
| Handlers.HandleIndex | cachefilter.py:365-385 | Raises exactly when the index name or the `Index` keyword is missing or the metadata raises; otherwise the metadata and `Index <name>;`, indented, reach the public section and `index_content` is left empty. |
| Handlers.CloseMethod | cachefilter.py:398-420 | The collected method goes to the private section exactly when `private_method` is set, with the Abstract note when `abstract_method` is set; both flags, the signature and the body are reset; `static` in the signature closes the ClassMethod block, otherwise the Method block closes; flags only ever drop. |
| Handlers.HandleMethod | cachefilter.py:387-431 | A `{` line is kept, a `}` line closes the method, and any other line contributes at most its comment; a method line never raises a flag. |
| Handlers.Quoted | cachefilter.py:446-447 | A quoted line is `/// `, then the line's own text, then a newline: a line without a newline is kept whole, and a line ending in its only newline is kept without it. |
| Handlers.CloseXData | cachefilter.py:464-470 | The block and content flags drop; the fenced content followed by the signature, indented, reaches the public section and stays in `xdata_content`. |
| Handlers.HandleXData | cachefilter.py:433-474 | Every branch of `handle_xdata`. Only JSON content keeps its inner braces; a `}` ends the block unless it closes CSS or JSON content; the block ends only on a `}`; no flag outside the three XData flags changes. |
| Handlers.HandleStorage | cachefilter.py:476-484 | The Storage block stays open exactly until a line starting with `}`; nothing else changes. |
| Filter.Normalize | cachefilter.py:488 | A normalised line holds no tab. |
| LineFacts.NormalizeUnchanged | cachefilter.py:488 | A line without tabs or `;` is left as it is. |
| LineFacts.HashCommentLine | cachefilter.py:488 | A line opening with `#; ` becomes the same text opened by `/// `. |
| LineFacts.SpaceCommentLine | cachefilter.py:488 | Code, ` ; ` and a comment become the code followed by `/// ` and the comment. |
| Filter.TakeComments | cachefilter.py:511-513 | Non-blank pending comments move onto the buffer and are cleared; blank ones stay where they are. |
| Filter.EnterMethod | cachefilter.py:528-564 | Opening a method raises its block flag and records its signature. At module level the method flags take the keyword checks; in `parse()` they keep their values. Pending comments, any remark and non-blank metadata precede the signature in the body. |
| Filter.OpenClassMethod | cachefilter.py:528-542 | Raises exactly when the Private check, the metadata or the signature raises; otherwise enters a ClassMethod block as described for EnterMethod. |
| Filter.OpenMethod | cachefilter.py:543-564 | Raises exactly when a keyword check, the metadata or the signature raises; a ClientMethod gets the fixed remark before its signature. |
| Filter.OpenXData | cachefilter.py:565-576 | Raises exactly when the mimetype, the signature or the metadata raises; otherwise opens the block with the pending comments moved in and cleared, and records the signature as `format_xdata_signature` writes it. The mimetype is recorded only at module level. |
| Filter.CloseClass | cachefilter.py:580-593 | The public and private sections are added only when they hold more than their headers; then the `}` line; the pending comments and the class text reach the output and the class flag drops. |
| Filter.CommentOrText | cachefilter.py:594-629 | Comments collect into the pending comments; `/*` opens a block comment that only a line holding `*/` closes; other text joins the class header; a blank line flushes the pending comments to the output. |
| Invariants.StepGrows | cachefilter.py:487-631 | A step that does not raise only appends to the output and to the public and private sections. |
| Invariants.RunGrows | cachefilter.py:487-631 | The same over any number of lines. |
| Invariants.RunKeepsHeaders | cachefilter.py:44-45 | From the initial state the public and private sections keep their `public:` and `private:` headers. |
| Invariants.ClassBodyWellNested | cachefilter.py:509-629 | Inside a class with no block open, a member line opens at most one block, still inside the class. |
| Invariants.StepInBlockFlags | cachefilter.py:497-508 | Inside an XData, Storage or method block a step never raises, never opens a block or the class, and never changes the mimetype or raises a method flag. |
| Invariants.StepHeaderFlags | cachefilter.py:489-496 | A `Class` line opens the class and an `Include` line changes no flag; neither touches the blocks. |
| Invariants.StepOutsideFlags | cachefilter.py:630-631 | Before the class, every line other than a header passes without changing any flag. |
| Invariants.StepWellNested | cachefilter.py:487-631 | At most one of the XData, Storage, ClassMethod and Method blocks is open, and only inside a class; every step keeps this. |
| Invariants.RunWellNested | cachefilter.py:487-631 | The same over any number of lines. |
| Invariants.RunLocalsUnset | doxyfilter_cache.py:666-682 | In `parse()` the method flags stay `False` and the mimetype stays `""` for the whole run. |
| FilterFacts.LocalsMethodsArePublic | doxyfilter_cache.py:742-743 | In `parse()` every method, Private and Abstract ones included, closes into the public section without the Abstract note. |
| FilterFacts.EmptyMimetypeIsJson | doxyfilter_cache.py:612 | `"" in "application/json"` holds, so in `parse()` every XData block is quoted as JSON. |
| FilterFacts.RunAppend | cachefilter.py:487 | Reading `a + b` is reading `a` and then `b`, unless the loop stopped or raised inside `a`. |
| FilterFacts.AfterClassIgnored | cachefilter.py:593 | Whatever follows the class's closing brace does not change the output. |
| FilterFacts.PassThrough | cachefilter.py:630-631 | Before any class, lines that are not headers are copied to the output, normalised. |
| FilterFacts.NoClassFile | cachefilter.py:630-631 | A file without `Class` or `Include` lines comes out as its normalised text. |
| FilterFacts.StorageDropped | cachefilter.py:476-484 | Every line inside a Storage definition is dropped without trace until the closing `}`. |
| FilterFacts.BlankLineFlushesComments | cachefilter.py:625-628 | Inside a class, a blank line writes the non-blank pending comments to the output and clears them. |
| FilterFacts.StaticNamedMethodStaysOpen | cachefilter.py:415-418 | A Method whose signature contains `static` is never closed by `}`. |
| MethodRun.PrivateClassMethodRun | cachefilter.py:396-420 | At module level, `ClassMethod <decl>) ... [ ..., Private, ... ]`, with or without `;`, followed by `{` and `}`, each line with or without its newline, appends one entry to the private section: the pending comments, the metadata, the `static` signature and the braces. The public section does not change, and the class stays open with no block pending. |

## Left out

- Command-line handling and the debug switch (cachefilter.py:5-17, doxyfilter_cache.py:830-843) are process plumbing and are not modelled.
- Reading the input file and writing to stdout or a file are not modelled. The input is a sequence of lines, each keeping its newline, and the output is the returned `file_content`.
- The `re` engine is not modelled. The two patterns are hand-written leftmost scanners with the same matches.
- `convert_type` is not modelled, because neither script calls it.
- Exception messages are not modelled. Every exception is the one `Error` outcome.
- The module globals are not reused across runs. Each run starts from the initial state.
- `int()` is approximated as optional surrounding whitespace, an optional sign and ASCII digits with single underscores between them. Non-ASCII digits are left out.
- Members.HandleParamType has no contract of its own. MemberFacts.ParamTypeMeaning states its meaning.
- `append_line` is not a member of its own. Its two forms are string concatenation and `Handlers.Indented`.
- MemberFacts.ClassMethodSignatureShape covers only lines whose text after the first `)` has no other `)` and no other `As`. Other ClassMethod lines are covered only by Members.MethodSignature.
- Filter.Run: no lemma states that a class whose closing brace never comes contributes nothing to the output.
- PyStr.Repr: escapes only the quote, the backslash, the ASCII control characters and DEL. Other characters Python's `repr` escapes, such as U+00A0 or U+2028, are kept as they are, so the type `Members.ReturnType` gives a line without `)` differs for such lines.

## Findings

| source | as written | input that shows it | evidently intended | confidence | as-written member | corrected member |
|---|---|---|---|---|---|---|
| cachefilter.py:101-111 | the name token is popped before the rest is cut at the first `)`, so when the name token closes its own argument list the field after that `)` is never seen | `ClassMethod Foo() [ Private ]` | `Member Keyword Data:<br>` and the bullet `Private`, which `check_keyword` finds on the same line | not executed | DataFacts.MethodKeywordDataLost | DataFacts.MethodDataIntendedListed |
| cachefilter.py:227 | `line.split("XData ")[1]` cuts the line at the second occurrence of `XData ` too, so a block name ending in `XData` and followed by a space (as before `[ ... ]`) loses that suffix | `XData MyXData [ MimeType = application/json ]` | the signature `XData MyXData;`, the block's own name | not executed | MemberFacts.XDataSignatureCutsName | MemberFacts.XDataSignatureKeepsName |

The Method branch appears in doxyfilter_cache.py at lines 179-189, and the
XData line at line 342. In both cases the filter keeps the behaviour as
written: `Members.MethodData` and `Filter.OpenXData`, through
`Members.FormatXDataSignature`. The corrected `Members.MethodDataIntended`
and `Members.XDataSignature` are defined beside them, and the lemmas above
prove both halves.

Three more behaviours look unintended but are modelled as written:

- A Method whose signature contains `static` is never closed by `}`, because
  `handle_method` uses `"static" in method_signature` to tell ClassMethods
  apart. See FilterFacts.StaticNamedMethodStaysOpen.
- A declaration such as `Property X As %String [ Private ]`, with no `(`,
  has no keyword list for `check_keyword`. Its `Private` is therefore not
  seen, and the property is placed in the public section. See
  MemberFacts.TypedPropertyHasNoList.
- A declaration such as `Property X As %String [ Required ] = 5` loses its
  default: the whole text after `]` is taken as the part holding `=`, and
  the value is read from what is left after it, so it comes out empty. The same
  holds without a type, for `Property X [ Required ] = 5`. See
  MemberFacts.DefaultAfterKeywordsLost and
  MemberFacts.UntypedDefaultAfterKeywordsLost.

=== FILE: classfacts.dfy ===
/** What `handle_class` makes of a header `Class <name> Extends (<A>,<B>)`:
    the C++ header `class <name> : public A, public B`, with one `public`
    base per superclass and no comma left over; and that it accepts every
    line the loop hands it. */
module ClassFacts {
  import opened Results
  import opened PyStr
  import opened StrFacts
  import opened TokenFacts
  import opened Members
  import opened Handlers

  /** A superclass name: no whitespace, and none of the characters the
      header uses as delimiters. */
  predicate BaseName(b: string) {
    Token(b) && ',' !in b && '(' !in b && ')' !in b && '[' !in b && !Contains(b, "Extends")
  }

  predicate BaseNames(bs: seq<string>) {
    |bs| > 0 && forall k :: 0 <= k < |bs| ==> BaseName(bs[k])
  }

  /** `t` does not straddle a character it lacks. */
  lemma ConcatLacks(a: string, c: char, b: string, t: string)
    requires !Contains(a, t) && !Contains(b, t) && c !in t
    ensures !Contains(a + [c] + b, t)
  {
    var s := a + [c] + b;
    forall i | 0 <= i
      ensures !MatchAt(s, t, i)
    {
      if i + |t| <= |s| {
        if i + |t| <= |a| {
          assert s[i..i + |t|] == a[i..i + |t|];
          assert !MatchAt(a, t, i);
        } else if i <= |a| {
          assert s[i..i + |t|][|a| - i] == c;
        } else {
          assert s[i..i + |t|] == b[i - |a| - 1..i - |a| - 1 + |t|];
          assert !MatchAt(b, t, i - |a| - 1);
        }
      }
    }
  }

  lemma {:induction false} JoinLacks(ws: seq<string>, c: char, t: string)
    requires |t| > 0 && c !in t && forall k :: 0 <= k < |ws| ==> !Contains(ws[k], t)
    ensures !Contains(Join(ws, [c]), t)
    decreases |ws|
  {
    if |ws| > 1 {
      JoinLacks(ws[1..], c, t);
      ConcatLacks(ws[0], c, Join(ws[1..], [c]), t);
    }
  }

  /** `t` does not straddle the start of a text whose first character it
      lacks. */
  lemma ConcatLacksHead(a: string, b: string, t: string)
    requires |t| > 0 && !Contains(a, t) && !Contains(b, t) && (|b| == 0 || b[0] !in t)
    ensures !Contains(a + b, t)
  {
    var s := a + b;
    forall i | 0 <= i
      ensures !MatchAt(s, t, i)
    {
      if i + |t| <= |s| {
        if i + |t| <= |a| {
          assert s[i..i + |t|] == a[i..i + |t|];
          assert !MatchAt(a, t, i);
        } else if i < |a| {
          assert s[i..i + |t|][|a| - i] == b[0];
        } else {
          assert s[i..i + |t|] == b[i - |a|..i - |a| + |t|];
          assert !MatchAt(b, t, i - |a|);
        }
      }
    }
  }

  /** `t` cannot match at `i` over a space when it has no space itself. */
  lemma SpaceBlocksMatch(s: string, t: string, i: int, k: int)
    requires 0 <= i <= k < i + |t| && k < |s| && s[k] == ' ' && ' ' !in t
    ensures !MatchAt(s, t, i)
  {
    if i + |t| <= |s| {
      assert s[i..i + |t|][k - i] == s[k];
    }
  }

  /** The class's full name is the second space-separated field. */
  lemma SecondField(n: string, rest: string)
    requires Token(n) && |rest| > 0 && rest[0] == ' '
    ensures Contains("Class " + n + rest, " ") && SplitSecond("Class " + n + rest, " ") == n
  {
    var more := rest[1..];
    assert rest == [' '] + more by {
      assert rest[..1] == [' '];
      assert rest == rest[..1] + more;
    }
    assert ' ' !in n;
    SplitAtChar(n, ' ', more);
    var line := "Class " + n + rest;
    assert line == "Class" + [' '] + (n + [' '] + more);
    assert ' ' !in "Class";
    SplitAtChar("Class", ' ', n + [' '] + more);
    ContainsChar(line, ' ');
    assert " " == [' '];
  }

  /** The text after `Extends`, when the name before it lacks the word. */
  lemma AfterExtends(n: string, post: string)
    requires Token(n) && !Contains(n, "Extends") && !Contains(post, "Extends")
    ensures Contains("Class " + n + " Extends" + post, "Extends")
    ensures SplitSecond("Class " + n + " Extends" + post, "Extends") == post
  {
    var pre := "Class " + n + " ";
    var line := "Class " + n + " Extends" + post;
    assert line == pre + "Extends" + post;
    forall j | 0 <= j < |pre|
      ensures !MatchAt(line, "Extends", j)
    {
      if j <= 5 {
        SpaceBlocksMatch(line, "Extends", j, 5);
      } else if j + 7 <= 6 + |n| {
        assert line[j..j + 7] == n[j - 6..j + 1];
        assert !MatchAt(n, "Extends", j - 6);
      } else {
        SpaceBlocksMatch(line, "Extends", j, 6 + |n|);
      }
    }
    SplitAt(pre, "Extends", post);
    SplitWhole(post, "Extends");
    SplitHasSecond(line, "Extends");
  }

  /** Stripping the parentheses around a list whose ends are not parentheses. */
  lemma StripParens(j: string)
    requires |j| > 0 && j[0] !in "()" && j[|j| - 1] !in "()"
    ensures StripChars("(" + j + ")", "()") == j
  {
    var s := "(" + j + ")";
    assert s[0] == '(' && s[1..][0] == j[0];
    assert s[1..][..|j|] == j;
    assert s[1..][|s[1..]| - 1] == ')';
    assert s[1..][..|s[1..]| - 1] == j;
    assert s[1..][..|s[1..]| - 1][|j| - 1] == j[|j| - 1];
  }

  // ---------------------------------------------------------------------------
  // the superclass list
  // ---------------------------------------------------------------------------

  /** How the superclasses are separated: a comma, or a comma and a space. */
  predicate BaseSep(sep: string) {
    sep == "," || sep == ", "
  }

  /** The superclass list as written after `Extends`: the names joined by
      `sep`, in parentheses or not. */
  function BaseList(bs: seq<string>, sep: string, paren: bool): string {
    if paren then "(" + Join(bs, sep) + ")" else Join(bs, sep)
  }

  /** The joined names lack `Extends`. */
  lemma {:induction false} JoinBasesLack(bs: seq<string>, sep: string)
    requires BaseNames(bs) && BaseSep(sep)
    ensures !Contains(Join(bs, sep), "Extends")
    decreases |bs|
  {
    if |bs| > 1 {
      JoinBasesLack(bs[1..], sep);
      var rest := Join(bs[1..], sep);
      var after := if sep == "," then rest else " " + rest;
      assert BaseName(bs[0]);
      assert Join(bs, sep) == bs[0] + [','] + after;
      assert !Contains(after, "Extends") by {
        if sep != "," {
          assert !Contains("", "Extends");
          assert " " + rest == "" + [' '] + rest;
          ConcatLacks("", ' ', rest, "Extends");
        }
      }
      ConcatLacks(bs[0], ',', after, "Extends");
    }
  }

  /** No name or separator holds a `[`, so neither does the list. */
  lemma BaseListLacksBracket(bs: seq<string>, sep: string, paren: bool)
    requires BaseNames(bs) && BaseSep(sep)
    ensures '[' !in BaseList(bs, sep, paren)
  {
    forall k | 0 <= k < |bs|
      ensures '[' !in bs[k]
    {
      assert BaseName(bs[k]);
    }
    CharNotInJoin(bs, sep, '[');
  }

  /** The list's ends are neither whitespace nor, inside the parentheses,
      parentheses. */
  lemma BaseListEnds(bs: seq<string>, sep: string, paren: bool)
    requires BaseNames(bs)
    ensures var j := Join(bs, sep);
      && |j| > 0 && j[0] !in "()" && j[|j| - 1] !in "()"
      && !IsSpace(j[0]) && !IsSpace(j[|j| - 1])
    ensures var core := BaseList(bs, sep, paren);
      |core| > 0 && !IsSpace(core[0]) && !IsSpace(core[|core| - 1])
  {
    JoinEnds(bs, sep);
    var b0 := bs[0];
    var bl := bs[|bs| - 1];
    assert BaseName(b0) && BaseName(bl);
    assert b0[0] in b0 && bl[|bl| - 1] in bl;
  }

  /** The list, stripped of whitespace around it and of its parentheses, is
      the joined names. */
  lemma BaseListCore(bs: seq<string>, sep: string, paren: bool, ws: string)
    requires BaseNames(bs) && BaseSep(sep) && Blank(ws)
    ensures StripChars(Strip(" " + BaseList(bs, sep, paren) + ws), "()") == Join(bs, sep)
  {
    var j := Join(bs, sep);
    var core := BaseList(bs, sep, paren);
    BaseListEnds(bs, sep, paren);
    assert Blank(" ");
    StripPadded(" ", core, ws);
    if paren {
      StripParens(j);
    } else {
      StripCharsIdentity(j, "()");
    }
  }

  /** The names joined by `,` or `, `, split at the commas and stripped. */
  lemma {:induction false} BaseListSplit(pre: string, bs: seq<string>, sep: string)
    requires BaseNames(bs) && BaseSep(sep) && (pre == "" || pre == " ")
    ensures StripEach(Split(pre + Join(bs, sep), ",")) == bs
    decreases |bs|
  {
    var b0 := bs[0];
    assert BaseName(b0);
    if |bs| == 1 {
      BaseListSplitOne(pre, b0);
      assert pre + Join(bs, sep) == pre + b0;
    } else {
      var pad := if sep == "," then "" else " ";
      var rest := Join(bs[1..], sep);
      HeadComma(pre, bs, sep, pad);
      BaseListSplitHead(pre, b0, pad, rest);
      BaseNamesTail(bs);
      BaseListSplit(pad, bs[1..], sep);
      HeadThenTail(bs);
    }
  }

  lemma HeadThenTail<T>(s: seq<T>)
    requires |s| > 0
    ensures s == [s[0]] + s[1..]
  {
  }

  lemma BaseNamesTail(bs: seq<string>)
    requires |bs| > 1 && BaseNames(bs)
    ensures BaseNames(bs[1..])
  {
    forall k | 0 <= k < |bs[1..]|
      ensures BaseName(bs[1..][k])
    {
      assert bs[1..][k] == bs[k + 1];
    }
  }

  /** The first name, its comma, and the padded rest of the list. */
  lemma HeadComma(pre: string, bs: seq<string>, sep: string, pad: string)
    requires |bs| > 1 && sep == [','] + pad
    ensures pre + Join(bs, sep) == (pre + bs[0]) + [','] + (pad + Join(bs[1..], sep))
  {
    assert Join(bs, sep) == bs[0] + sep + Join(bs[1..], sep);
    SepAssoc(pre, bs[0], sep, pad, Join(bs[1..], sep));
  }

  lemma SepAssoc(pre: string, b0: string, sep: string, pad: string, rest: string)
    requires sep == [','] + pad
    ensures pre + (b0 + sep + rest) == (pre + b0) + [','] + (pad + rest)
  {
  }

  /** A single name is one field, which strips back to the name. */
  lemma BaseListSplitOne(pre: string, b0: string)
    requires BaseName(b0) && (pre == "" || pre == " ")
    ensures StripEach(Split(pre + b0, ",")) == [b0]
  {
    assert "," == [','];
    assert ',' !in pre + b0;
    ContainsChar(pre + b0, ',');
    SplitWhole(pre + b0, ",");
    assert pre + b0 == pre + b0 + "";
    assert Blank(pre) && Blank("");
    StripPadded(pre, b0, "");
  }

  /** The first name splits off at its comma and strips back to itself. */
  lemma BaseListSplitHead(pre: string, b0: string, pad: string, rest: string)
    requires BaseName(b0) && (pre == "" || pre == " ")
    ensures StripEach(Split((pre + b0) + [','] + (pad + rest), ","))
              == [b0] + StripEach(Split(pad + rest, ","))
  {
    assert "," == [','];
    assert ',' !in pre + b0;
    SplitAtChar(pre + b0, ',', pad + rest);
    assert pre + b0 == pre + b0 + "";
    assert Blank(pre) && Blank("");
    StripPadded(pre, b0, "");
    StripEachCons(pre + b0, Split(pad + rest, ","));
  }

  // ---------------------------------------------------------------------------
  // Extends
  // ---------------------------------------------------------------------------

  /** What follows the superclass list on a header line: whitespace `ws`
      (the newline, say) and then nothing or a keyword list `[...]`. */
  predicate HeaderEnd(ws: string, rest: string) {
    Blank(ws) && (rest == "" || rest[0] == '[') && !Contains(rest, "Extends")
  }

  /** The text after `Extends` lacks a second `Extends`. */
  lemma PostLacksExtends(bs: seq<string>, sep: string, paren: bool, ws: string, rest: string)
    requires BaseNames(bs) && BaseSep(sep) && HeaderEnd(ws, rest)
    ensures !Contains(" " + BaseList(bs, sep, paren) + ws + rest, "Extends")
  {
    var tail := ws + rest;
    var core := BaseList(bs, sep, paren);
    TailLacksExtends(ws, rest);
    CoreTailLacks(bs, sep, paren, tail);
    assert !Contains("", "Extends");
    assert " " + core + ws + rest == "" + [' '] + (core + tail);
    ConcatLacks("", ' ', core + tail, "Extends");
  }

  lemma CoreTailLacks(bs: seq<string>, sep: string, paren: bool, tail: string)
    requires BaseNames(bs) && BaseSep(sep)
    requires !Contains(tail, "Extends") && (|tail| == 0 || tail[0] !in "Extends")
    ensures !Contains(BaseList(bs, sep, paren) + tail, "Extends")
  {
    var j := Join(bs, sep);
    JoinBasesLack(bs, sep);
    if paren {
      ConcatLacks(j, ')', tail, "Extends");
      assert !Contains("", "Extends");
      assert BaseList(bs, sep, paren) + tail == "" + ['('] + (j + [')'] + tail);
      ConcatLacks("", '(', j + [')'] + tail, "Extends");
    } else {
      ConcatLacksHead(j, tail, "Extends");
    }
  }

  /** The end of the line lacks `Extends` and does not start with one of
      its letters. */
  lemma TailLacksExtends(ws: string, rest: string)
    requires HeaderEnd(ws, rest)
    ensures var tail := ws + rest;
      !Contains(tail, "Extends") && (|tail| == 0 || tail[0] !in "Extends")
  {
    var tail := ws + rest;
    assert !Contains(ws, "Extends") by {
      forall i | 0 <= i
        ensures !MatchAt(ws, "Extends", i)
      {
        if i + 7 <= |ws| {
          assert IsSpace(ws[i]);
          assert ws[i..i + 7][0] == ws[i];
        }
      }
    }
    assert !Contains(tail, "Extends") by {
      if |rest| > 0 {
        assert rest[0] == '[';
      }
      ConcatLacksHead(ws, rest, "Extends");
    }
    assert |tail| == 0 || tail[0] !in "Extends" by {
      if |ws| > 0 {
        assert tail[0] == ws[0] && IsSpace(ws[0]);
      } else if |rest| > 0 {
        assert tail[0] == rest[0];
      }
    }
  }

  /** The text before the keyword list's `[`. */
  lemma BeforeList(bs: seq<string>, sep: string, paren: bool, ws: string, rest: string)
    requires BaseNames(bs) && BaseSep(sep) && HeaderEnd(ws, rest)
    ensures Before(" " + BaseList(bs, sep, paren) + ws + rest, "[") == " " + BaseList(bs, sep, paren) + ws
  {
    var x := " " + BaseList(bs, sep, paren) + ws;
    BaseListLacksBracket(bs, sep, paren);
    forall q | 0 <= q < |ws|
      ensures ws[q] != '['
    {
      assert IsSpace(ws[q]);
    }
    assert '[' !in x;
    assert "[" == ['['];
    if rest == "" {
      assert x + rest == x;
      ContainsChar(x, '[');
      SplitWhole(x, "[");
    } else {
      assert rest == ['['] + rest[1..];
      assert x + rest == x + ['['] + rest[1..];
      SplitAtChar(x, '[', rest[1..]);
    }
  }

  /** The superclasses of `Class <n> Extends <list><ws><rest>`, the list
      being the names `bs` joined by `,` or `, ` with or without
      parentheses, `ws` whitespace and `rest` empty or a keyword list
      `[...]`, are `bs`. */
  lemma ExtendsBases(n: string, bs: seq<string>, sep: string, paren: bool, ws: string, rest: string)
    requires Token(n) && !Contains(n, "Extends") && BaseNames(bs) && BaseSep(sep)
    requires HeaderEnd(ws, rest)
    ensures var line := "Class " + n + " Extends " + BaseList(bs, sep, paren) + ws + rest;
      Contains(line, "Extends") && SuperClasses(line) == bs
  {
    ExtendsSplit(n, bs, sep, paren, ws, rest);
    ExtendsListText(bs, sep, paren, ws, rest);
    assert Join(bs, sep) == "" + Join(bs, sep);
    BaseListSplit("", bs, sep);
  }

  /** The text after `Extends` is the list and what ends the line. */
  lemma ExtendsSplit(n: string, bs: seq<string>, sep: string, paren: bool, ws: string, rest: string)
    requires Token(n) && !Contains(n, "Extends") && BaseNames(bs) && BaseSep(sep)
    requires HeaderEnd(ws, rest)
    ensures var line := "Class " + n + " Extends " + BaseList(bs, sep, paren) + ws + rest;
      Contains(line, "Extends") && SplitSecond(line, "Extends") == " " + BaseList(bs, sep, paren) + ws + rest
  {
    var core := BaseList(bs, sep, paren);
    var post := " " + core + ws + rest;
    assert "Class " + n + " Extends " + core + ws + rest == "Class " + n + " Extends" + post;
    PostLacksExtends(bs, sep, paren, ws, rest);
    AfterExtends(n, post);
  }

  /** Cut at `[`, stripped of whitespace and parentheses, the text after
      `Extends` is the names joined by the separator. */
  lemma ExtendsListText(bs: seq<string>, sep: string, paren: bool, ws: string, rest: string)
    requires BaseNames(bs) && BaseSep(sep) && HeaderEnd(ws, rest)
    ensures StripChars(Strip(Before(" " + BaseList(bs, sep, paren) + ws + rest, "[")), "()") == Join(bs, sep)
  {
    BeforeList(bs, sep, paren, ws, rest);
    BaseListCore(bs, sep, paren, ws);
  }

  // ---------------------------------------------------------------------------
  // handle_class accepts every class header
  // ---------------------------------------------------------------------------

  /** Rewriting ` as ` keeps the leading `Class `: the first match is at or
      after its space, and the rewrite starts with a space too. */
  lemma ReplaceKeepsClass(line: string)
    requires StartsWith(line, "Class ")
    ensures StartsWith(Replace(line, " as ", " As "), "Class ")
  {
    match Find(line, " as ")
    case None =>
    case Some(i) =>
      assert line[i..i + 4][0] == ' ';
      assert line[..6] == "Class ";
      assert line[0] == 'C' && line[1] == 'l' && line[2] == 'a' && line[3] == 's' && line[4] == 's';
      assert i >= 5;
      var r := Replace(line, " as ", " As ");
      assert r == line[..i] + " As " + Replace(line[i + 4..], " as ", " As ");
      assert r[..5] == line[..5];
      assert r[5] == ' ' by {
        if i == 5 {
          assert r[5] == " As "[0];
        } else {
          assert r[5] == line[5];
        }
      }
      assert r[..6] == line[..6];
  }

  /** The first keyword token of a `Class ` line is `Class`. */
  lemma ClassLineFirstToken(line: string)
    requires StartsWith(line, "Class ")
    ensures |KeywordTokens(line)| > 0 && KeywordTokens(line)[0] == "Class"
  {
    var r := Replace(line, " as ", " As ");
    ReplaceKeepsClass(line);
    var t := Strip(r);
    TrimKeepsHead(r, IsSpace, "Class");
    assert r[..5] == r[..6][..5];
    LeadUnique(r, IsSpace, 0);
    assert r[0..] == r;
    var m := |t|;
    assert t == r[..m];
    assert t == "Class" + t[5..];
    if m > 5 {
      assert t[5] == r[5];
    }
    SplitWsHead("Class", t[5..]);
  }

  /** `handle_class` never raises on the lines the loop gives it: every line
      that starts with `Class ` has a second field and a keyword kind that
      `check_keyword` knows. */
  lemma ClassLineAccepted(s: State, line: string)
    requires StartsWith(line, "Class ")
    ensures HandleClass(s, line).Ok?
    ensures HandleClass(s, line).value.classContent == ClassDefinition(line, SplitSecond(line, " ")) + "\n"
  {
    assert line[5] == ' ';
    assert " " == [' '];
    ContainsChar(line, ' ');
    ClassLineFirstToken(line);
    assert Contains("Class", "Class") by {
      assert MatchAt("Class", "Class", 0);
    }
  }

  /** `class <n> : public A, public B` for `Class <n> Extends (A,B)` (or
      `A, B`, with or without parentheses, and whatever ends the line): the
      header `handle_class` stores, one `public` base per superclass and no
      comma left over. */
  lemma ExtendsHeader(s: State, n: string, bs: seq<string>, sep: string, paren: bool, ws: string, rest: string)
    requires Token(n) && !Contains(n, "Extends") && BaseNames(bs) && BaseSep(sep)
    requires HeaderEnd(ws, rest)
    ensures var line := "Class " + n + " Extends " + BaseList(bs, sep, paren) + ws + rest;
      && Contains(line, " ") && SplitSecond(line, " ") == n
      && ClassDefinition(line, n) == "class " + n + " : " + Join(Publicised(bs), ", ")
      && HandleClass(s, line).Ok?
      && HandleClass(s, line).value.classContent == "class " + n + " : " + Join(Publicised(bs), ", ") + "\n"
  {
    var line := "Class " + n + " Extends " + BaseList(bs, sep, paren) + ws + rest;
    assert StartsWith(line, "Class ") by {
      assert line[..6] == "Class ";
    }
    ClassLineAccepted(s, line);
    ExtendsDefinition(n, bs, sep, paren, ws, rest);
  }

  lemma ExtendsDefinition(n: string, bs: seq<string>, sep: string, paren: bool, ws: string, rest: string)
    requires Token(n) && !Contains(n, "Extends") && BaseNames(bs) && BaseSep(sep)
    requires HeaderEnd(ws, rest)
    ensures var line := "Class " + n + " Extends " + BaseList(bs, sep, paren) + ws + rest;
      && Contains(line, " ") && SplitSecond(line, " ") == n
      && ClassDefinition(line, n) == "class " + n + " : " + Join(Publicised(bs), ", ")
  {
    var line := "Class " + n + " Extends " + BaseList(bs, sep, paren) + ws + rest;
    var more := " Extends " + BaseList(bs, sep, paren) + ws + rest;
    assert line == "Class " + n + more;
    SecondField(n, more);
    ExtendsBases(n, bs, sep, paren, ws, rest);
    var c := "class " + n;
    assert c[0] == 'c' && c[|c| - 1] == n[|n| - 1];
    TrimByIdentity(c, IsSpace);
  }
}

=== FILE: datafacts.dfy ===
// What `extract_additional_data` (cachefilter.py:72-135) writes for the
// common declaration shapes: the argument list of a typed Property, the
// bracketed keyword list of every kind, and the free-form part of an Index.

module DataFacts {
  import opened Results
  import opened PyStr
  import opened StrFacts
  import opened TokenFacts
  import opened Members
  import opened KeywordFacts
  import MemberFacts

  // ---------------------------------------------------------------------------
  // Bullets and bracketed lists
  // ---------------------------------------------------------------------------

  /** A token is its own `strip()`. */
  lemma TokenStripped(w: string)
    requires Token(w)
    ensures Strip(w) == w
  {
    assert "" + w + "" == w;
    StripPadded("", w, "");
  }

  /** Bullets strip their items, so items that strip to `ks` give the
      bullets of `ks`. */
  lemma BulletsOfStripped(items: seq<string>, ks: seq<string>, suffix: string)
    requires StripEach(items) == ks && AllTokens(ks) && '\n' !in suffix
    ensures Bullets(items, suffix) == Bullets(ks, suffix)
  {
    forall k | 0 <= k < |ks|
      ensures Bullets(items, suffix)[k] == Bullets(ks, suffix)[k]
    {
      TokenStripped(ks[k]);
    }
  }

  /** The list `", ".join(ks)`, bare or padded with one space each side, has
      the bullets of `ks`. */
  lemma ListBullets(ks: seq<string>, suffix: string)
    requires KeywordEntries(ks) && '\n' !in suffix
    ensures Bullets(Split(Join(ks, ", "), ", "), suffix) == Bullets(ks, suffix)
    ensures Bullets(Split(" " + Join(ks, ", ") + " ", ", "), suffix) == Bullets(ks, suffix)
  {
    var j := Join(ks, ", ");
    assert "" + j + "" == j;
    StripSplitList("", ks, "");
    BulletsOfStripped(Split(j, ", "), ks, suffix);
    StripSplitList(" ", ks, " ");
    BulletsOfStripped(Split(" " + j + " ", ", "), ks, suffix);
  }

  /** `", ".join(ks)` padded with one space each side strips to itself. */
  lemma PaddedJoinStrips(ks: seq<string>)
    requires KeywordEntries(ks)
    ensures Strip(" " + Join(ks, ", ") + " ") == Join(ks, ", ")
  {
    forall k | 0 <= k < |ks|
      ensures |ks[k]| > 0
    {
      assert Token(ks[k]);
    }
    JoinEnds(ks, ", ");
    var j := Join(ks, ", ");
    assert Token(ks[0]) && Token(ks[|ks| - 1]);
    assert !IsSpace(j[0]) && !IsSpace(j[|j| - 1]);
    StripPadded(" ", j, " ");
  }

  /** The text inside the first `[ ... ]` of a line whose list is
      `", ".join(ks)`, read with and without the `strip()`. */
  lemma BracketedList(p0: string, ks: seq<string>, after: string)
    requires '[' !in p0 && '[' !in after && KeywordEntries(ks)
    ensures var text := p0 + ['['] + (" " + Join(ks, ", ") + " ]" + after);
      && Contains(text, "[")
      && ListInside(text, "[", "]", true) == Split(Join(ks, ", "), ", ")
      && ListInside(text, "[", "]", false) == Split(" " + Join(ks, ", ") + " ", ", ")
  {
    var j := Join(ks, ", ");
    var z := " " + j + " ]" + after;
    CharNotInJoin(ks, ", ", '[');
    assert '[' !in z;
    SecondAfterBracket(p0, z);
    UpToBracket(" ", ks, after);
    PaddedJoinStrips(ks);
  }

  /** The tokens of a line that ends in a bracketed list. */
  lemma ListLineTokens(head: seq<string>, ks: seq<string>, semi: string, tail: string)
    requires |head| > 0 && AllTokens(head) && KeywordEntries(ks) && Semi(semi) && Blank(tail)
    ensures Tokens(Join(head, " ") + " [ " + Join(ks, ", ") + " ]" + semi + tail)
              == head + BracketTokens(ks, semi)
  {
    var ws := head + BracketTokens(ks, semi);
    BracketTokensOk(ks, semi);
    assert AllTokens(ws) by {
      forall k | 0 <= k < |ws|
        ensures Token(ws[k])
      {
        if k >= |head| {
          assert ws[k] == BracketTokens(ks, semi)[k - |head|];
        }
      }
    }
    BracketLine(head, ks, semi);
    SplitWsTail(ws, tail);
  }

  /** The tokens of `kw n <more>`. */
  lemma KindHead(kw: string, n: string, hs: seq<string>)
    requires Token(kw) && Token(n) && |hs| > 0 && AllTokens(hs)
    ensures AllTokens([kw, n] + hs)
    ensures Join([kw, n] + hs, " ") == kw + " " + n + " " + Join(hs, " ")
  {
    KindHeadJoin(kw, n, hs);
    var head := [kw, n] + hs;
    forall k | 0 <= k < |head|
      ensures Token(head[k])
    {
      if k >= 2 {
        assert head[k] == hs[k - 2];
      }
    }
  }

  lemma KindHeadJoin(kw: string, n: string, hs: seq<string>)
    requires |hs| > 0
    ensures Join([kw, n] + hs, " ") == kw + " " + n + " " + Join(hs, " ")
  {
    JoinAppend([kw, n], hs, " ");
    JoinPair(kw, n, " ");
  }

  /** The tokens of `kw n <more> [ k1, k2 ]`. */
  lemma NamedLineTokens(kw: string, n: string, hs: seq<string>, ks: seq<string>, semi: string, tail: string)
    requires Token(kw) && Token(n) && |hs| > 0 && AllTokens(hs) && KeywordEntries(ks) && Semi(semi) && Blank(tail)
    ensures Tokens(kw + " " + n + " " + Join(hs, " ") + " [ " + Join(ks, ", ") + " ]" + semi + tail)
              == [kw] + ([n] + (hs + BracketTokens(ks, semi)))
  {
    KindHead(kw, n, hs);
    ListLineTokens([kw, n] + hs, ks, semi, tail);
    ConsShape(kw, n, hs, BracketTokens(ks, semi));
  }

  // ---------------------------------------------------------------------------
  // Property and Parameter without a type: `Property n [ k1, k2 ]`
  // ---------------------------------------------------------------------------

  /** The Property branch on `n [ k1, k2 ]`. */
  lemma UntypedListData(n: string, ks: seq<string>, semi: string)
    requires KeywordEntries(ks) && Semi(semi)
    ensures PropertyData([n] + BracketTokens(ks, semi)) == Ok(["/// Member Keyword Data:"] + Bullets(ks, ""))
  {
    var j := Join(ks, ", ");
    var data := [n] + BracketTokens(ks, semi);
    var c := Commaed(ks);
    var w := "]" + semi;
    assert data[2..] == c + [w];
    assert data[1] == "[";
    assert !Contains("[", "As") by {
      LacksChar("[", "As", 0);
    }
    assert Contains("[", "[") by {
      assert MatchAt("[", "[", 0);
    }
    JoinAppend(c, [w], " ");
    JoinCommaed(ks);
    assert "[" + " " + Join(c + [w], " ") == "" + ['['] + (" " + j + " ]" + semi);
    assert '[' !in semi;
    BracketedList("", ks, semi);
    ListBullets(ks, "");
  }

  /** An untyped Property or Parameter lists its keywords, one bullet each,
      under `Member Keyword Data:` and without `<br>`. */
  lemma UntypedKeywordData(kind: string, n: string, ks: seq<string>, semi: string, tail: string)
    requires kind == "Property" || kind == "Parameter"
    requires Token(n) && KeywordEntries(ks) && Semi(semi) && Blank(tail)
    ensures AdditionalDataLines(kind + " " + n + " [ " + Join(ks, ", ") + " ]" + semi + tail)
              == Ok(["/// Member Keyword Data:"] + Bullets(ks, ""))
  {
    var line := kind + " " + n + " [ " + Join(ks, ", ") + " ]" + semi + tail;
    PairLineTokens(kind, n, ks, semi, tail);
    PropertyLineData(line, kind, [n] + BracketTokens(ks, semi));
    UntypedListData(n, ks, semi);
  }

  /** The tokens of `kind n [ k1, k2 ]`. */
  lemma PairLineTokens(kind: string, n: string, ks: seq<string>, semi: string, tail: string)
    requires Token(kind) && Token(n) && KeywordEntries(ks) && Semi(semi) && Blank(tail)
    ensures Tokens(kind + " " + n + " [ " + Join(ks, ", ") + " ]" + semi + tail)
              == [kind] + ([n] + BracketTokens(ks, semi))
  {
    JoinPair(kind, n, " ");
    ListLineTokens([kind, n], ks, semi, tail);
    PairSplit(kind, n, BracketTokens(ks, semi));
  }

  /** `extract_additional_data` on a Property or Parameter line takes the
      Property branch. */
  lemma PropertyLineData(line: string, kind: string, rest: seq<string>)
    requires kind == "Property" || kind == "Parameter"
    requires Tokens(line) == [kind] + rest
    ensures AdditionalDataLines(line) == PropertyData(rest)
  {
    assert Tokens(line)[1..] == rest;
  }

  // ---------------------------------------------------------------------------
  // Property and Parameter with a type that takes arguments:
  // `Property n As T(a1, a2) [ k1, k2 ]`
  // ---------------------------------------------------------------------------

  /** The text between the type's `(` and the next `)`, split at `, `. */
  lemma ParenArgs(tname: string, a0: string, a1: string, post: string)
    requires '(' !in tname && '(' !in a0 && '(' !in a1 && '(' !in post
    requires ')' !in a0 && ')' !in a1
    ensures var joined := (tname + "(" + a0) + " " + (a1 + ")" + post);
      && Contains(joined, "(")
      && ListInside(joined, "(", ")", true) == Split(Strip(a0 + " " + a1), ", ")
  {
    var inner := a0 + " " + a1;
    var r := inner + [')'] + post;
    var joined := (tname + "(" + a0) + " " + (a1 + ")" + post);
    assert joined == tname + ['('] + r;
    assert "(" == ['('] && ")" == [')'];
    SplitAtChar(tname, '(', r);
    assert '(' !in r;
    ContainsChar(r, '(');
    SplitWhole(r, "(");
    ContainsChar(joined, '(');
    assert ')' !in inner;
    SplitAtChar(inner, ')', post);
  }

  /** The Property branch once `As T(` has been read. */
  lemma TypedArgsBranch(n: string, t0: string, rest: seq<string>)
    requires Token(t0) && ';' !in t0 && Contains(t0, "(")
    ensures PropertyData([n, "As", t0] + rest) == Ok(TypeArgumentData(t0, rest))
  {
    var data := [n, "As", t0] + rest;
    assert data[1] == "As" && data[2] == t0 && data[3..] == rest;
    assert Contains("As", "As") by {
      assert MatchAt("As", "As", 0);
    }
    TokenStripped(t0);
    StripCharsIdentity(t0, ";");
  }

  /** What a typed Property's arguments and keywords give. */
  lemma TypeArgumentsOf(tname: string, a0: string, rest: seq<string>, a1: string, post: string)
    requires '(' !in tname && '(' !in a0 && '(' !in a1 && '(' !in post
    requires ')' !in a0 && ')' !in a1 && ')' !in post
    requires Join(rest, " ") == a1 + ")" + post
    ensures Contains(tname + "(" + a0, "(")
    ensures TypeArgumentData(tname + "(" + a0, rest)
              == ["/// Member Additional Data:<br>"] + Bullets(Split(Strip(a0 + " " + a1), ", "), "<br>")
                 + KeywordsAfterParen([post], "/// Member Keyword Data:<br>", "<br>")
  {
    assert "(" == ['('];
    ContainsChar(tname + "(" + a0, '(');
    ParenArgs(tname, a0, a1, post);
    assert a1 + ")" + post == a1 + [')'] + post;
    AfterFirstParen(a1, post);
  }

  /** A typed Property or Parameter whose type takes arguments lists them
      under `Member Additional Data:`, then the keywords the field after
      the `)` brackets. */
  lemma TypedArgsData(line: string, kind: string, n: string, tname: string, a0: string,
                      rest: seq<string>, a1: string, post: string)
    requires kind == "Property" || kind == "Parameter"
    requires Tokens(line) == [kind, n, "As", tname + "(" + a0] + rest
    requires Join(rest, " ") == a1 + ")" + post
    requires ';' !in tname && ';' !in a0
    requires '(' !in tname && '(' !in a0 && '(' !in a1 && '(' !in post
    requires ')' !in a0 && ')' !in a1 && ')' !in post
    ensures AdditionalDataLines(line)
              == Ok(["/// Member Additional Data:<br>"] + Bullets(Split(Strip(a0 + " " + a1), ", "), "<br>")
                    + KeywordsAfterParen([post], "/// Member Keyword Data:<br>", "<br>"))
  {
    var t0 := tname + "(" + a0;
    assert Token(Tokens(line)[3]);
    assert Tokens(line) == [kind] + ([n, "As", t0] + rest);
    PropertyLineData(line, kind, [n, "As", t0] + rest);
    assert t0[|tname|] == '(';
    assert "(" == ['('];
    ContainsChar(t0, '(');
    TypedArgsBranch(n, t0, rest);
    TypeArgumentsOf(tname, a0, rest, a1, post);
  }

  /** Nothing after the `)` but an optional `;`: only the arguments. */
  lemma TypedArgsWithoutKeywords(line: string, kind: string, n: string, tname: string, a0: string,
                                 rest: seq<string>, a1: string, semi: string)
    requires kind == "Property" || kind == "Parameter"
    requires Tokens(line) == [kind, n, "As", tname + "(" + a0] + rest
    requires Join(rest, " ") == a1 + ")" + semi && Semi(semi)
    requires ';' !in tname && ';' !in a0
    requires '(' !in tname && '(' !in a0 && '(' !in a1
    requires ')' !in a0 && ')' !in a1
    ensures AdditionalDataLines(line)
              == Ok(["/// Member Additional Data:<br>"] + Bullets(Split(Strip(a0 + " " + a1), ", "), "<br>"))
  {
    var lines := ["/// Member Additional Data:<br>"] + Bullets(Split(Strip(a0 + " " + a1), ", "), "<br>");
    TypedArgsData(line, kind, n, tname, a0, rest, a1, semi);
    SemiHasNoKeywords(semi);
    NothingAfter(lines);
  }

  /** A field holding at most a `;` lists no keywords. */
  lemma SemiHasNoKeywords(semi: string)
    requires Semi(semi)
    ensures KeywordsAfterParen([semi], "/// Member Keyword Data:<br>", "<br>") == []
  {
    assert Strip(semi) == semi by {
      if semi == ";" {
        TokenStripped(semi);
      }
    }
    if semi == ";" {
      LacksChar(semi, "[", 0);
    }
  }

  /** Keywords bracketed after the `)`: the arguments, then the keywords. */
  lemma TypedArgsKeywords(line: string, kind: string, n: string, tname: string, a0: string,
                          rest: seq<string>, a1: string, ks: seq<string>, semi: string)
    requires kind == "Property" || kind == "Parameter"
    requires Tokens(line) == [kind, n, "As", tname + "(" + a0] + rest
    requires Join(rest, " ") == a1 + ")" + (" [ " + Join(ks, ", ") + " ]" + semi)
    requires KeywordEntries(ks) && Semi(semi)
    requires forall k :: 0 <= k < |ks| ==> '(' !in ks[k]
    requires ';' !in tname && ';' !in a0
    requires '(' !in tname && '(' !in a0 && '(' !in a1
    requires ')' !in a0 && ')' !in a1
    ensures AdditionalDataLines(line)
              == Ok(["/// Member Additional Data:<br>"] + Bullets(Split(Strip(a0 + " " + a1), ", "), "<br>")
                    + (["/// Member Keyword Data:<br>"] + Bullets(ks, "<br>")))
  {
    var post := " [ " + Join(ks, ", ") + " ]" + semi;
    BracketPost(ks, semi);
    TypedArgsData(line, kind, n, tname, a0, rest, a1, post);
  }

  /** A bracketed keyword list alone, as the field after a `)`. */
  lemma BracketPost(ks: seq<string>, semi: string)
    requires KeywordEntries(ks) && Semi(semi)
    requires forall k :: 0 <= k < |ks| ==> '(' !in ks[k]
    ensures var post := " [ " + Join(ks, ", ") + " ]" + semi;
      && ')' !in post && '(' !in post
      && KeywordsAfterParen([post], "/// Member Keyword Data:<br>", "<br>")
           == ["/// Member Keyword Data:<br>"] + Bullets(ks, "<br>")
  {
    assert "" + " [ " == " [ ";
    ListTailLacks("", ks, semi, ')');
    ListTailLacks("", ks, semi, '(');
    FieldKeywords("", ks, semi);
  }



  /** The argument text `K = V` is already stripped and holds no `, `. */
  lemma ArgumentText(key: string, value: string)
    requires Token(key) && Token(value) && ',' !in key && ',' !in value
    ensures Split(Strip(key + " " + ("= " + value)), ", ") == [key + " = " + value]
  {
    var s := key + " " + ("= " + value);
    assert s == key + " = " + value;
    assert s[0] == key[0] && s[|s| - 1] == value[|value| - 1];
    TrimByIdentity(s, IsSpace);
    assert ',' !in s;
    LacksChar(s, ", ", 0);
    SplitWhole(s, ", ");
  }

  /** The argument `K = V` is one bullet. */
  lemma OneArgument(key: string, value: string)
    requires Token(key) && Token(value) && ',' !in key && ',' !in value
    ensures Bullets(Split(Strip(key + " " + ("= " + value)), ", "), "<br>")
              == ["/// > " + (key + " = " + value) + "<br>"]
  {
    ArgumentText(key, value);
    var b := Bullets([key + " = " + value], "<br>");
    assert |b| == 1 && b[0] == "/// > " + Strip(key + " = " + value) + "<br>";
    TrimByIdentity(key + " = " + value, IsSpace);
  }

  /** `Property n As %String(MAXLEN = 50);`, given as its tokens joined by
      single spaces, documents `MAXLEN = 50`. */
  lemma TypedArgLine(kind: string, n: string, typ: string, key: string, value: string)
    requires kind == "Property" || kind == "Parameter"
    requires Token(n) && Token(typ) && Token(key) && Token(value)
    requires ';' !in typ && ';' !in key
    requires '(' !in typ && '(' !in key && '(' !in value
    requires ')' !in key && ')' !in value && ',' !in key && ',' !in value
    ensures AdditionalDataLines(Join([kind, n, "As", typ + "(" + key, "=", value + ");"], " "))
              == Ok(["/// Member Additional Data:<br>", "/// > " + (key + " = " + value) + "<br>"])
  {
    var ws := [kind, n, "As", typ + "(" + key, "=", value + ");"];
    TypedArgTokens(kind, n, typ, key, value);
    ArgumentTail(value);
    TypedArgsWithoutKeywords(Join(ws, " "), kind, n, typ, key, ["=", value + ");"], "= " + value, ";");
    OneArgument(key, value);
    var hdr := "/// Member Additional Data:<br>";
    var bullet := "/// > " + (key + " = " + value) + "<br>";
    assert AdditionalDataLines(Join(ws, " ")) == Ok([hdr] + [bullet]);
    assert [hdr] + [bullet] == [hdr, bullet];
  }

  lemma TypedArgTokens(kind: string, n: string, typ: string, key: string, value: string)
    requires kind == "Property" || kind == "Parameter"
    requires Token(n) && Token(typ) && Token(key) && Token(value)
    ensures var ws := [kind, n, "As", typ + "(" + key, "=", value + ");"];
      Tokens(Join(ws, " ")) == [kind, n, "As", typ + "(" + key] + ["=", value + ");"]
  {
    var ws := [kind, n, "As", typ + "(" + key, "=", value + ");"];
    assert AllTokens(ws) by {
      assert Token(kind) && Token("As") && Token("=");
      assert Token(typ + "(" + key) && Token(value + ");");
    }
    MemberFacts.TokensOfJoin(ws);
    assert ws == [kind, n, "As", typ + "(" + key] + ["=", value + ");"];
  }

  /** The tokens `=` and `V);` are `= V`, the closing `)` and the `;`. */
  lemma ArgumentTail(value: string)
    requires '(' !in value && ')' !in value
    ensures Join(["=", value + ");"], " ") == "= " + value + ")" + ";"
    ensures '(' !in "= " + value && ')' !in "= " + value
  {
  }

  // ---------------------------------------------------------------------------
  // XData: `XData n [ k1, k2 ]`
  // ---------------------------------------------------------------------------

  lemma XDataKind()
    ensures !Contains("XData", "Method") && !Contains("XData", "Index") && Contains("XData", "XData")
    ensures Token("XData")
  {
    var w := "XData";
    assert w[0] == 'X' && w[1] == 'D' && w[2] == 'a' && w[3] == 't' && w[4] == 'a';
    assert MatchAt("XData", "XData", 0);
    LacksChar("XData", "Method", 0);
    LacksChar("XData", "Index", 0);
  }

  /** `" ".join(head + brackets).strip()`: the head, a space, then the list. */
  lemma HeadListText(head: seq<string>, ks: seq<string>, semi: string)
    requires |head| > 0 && AllTokens(head) && KeywordEntries(ks) && Semi(semi)
    ensures Strip(Join(head + BracketTokens(ks, semi), " "))
              == (Join(head, " ") + " ") + ['['] + (" " + Join(ks, ", ") + " ]" + semi)
  {
    var data := head + BracketTokens(ks, semi);
    BracketLine(head, ks, semi);
    BracketSplit(Join(head, " "), Join(ks, ", "), semi);
    BracketTokensOk(ks, semi);
    assert AllTokens(data) by {
      forall k | |head| <= k < |data|
        ensures Token(data[k])
      {
        assert data[k] == BracketTokens(ks, semi)[k - |head|];
      }
    }
    JoinStripped(data);
  }

  /** The XData branch on `n [ k1, k2 ]`. */
  lemma XDataListData(n: string, ks: seq<string>, semi: string)
    requires Token(n) && '[' !in n && KeywordEntries(ks) && Semi(semi)
    ensures XDataData([n] + BracketTokens(ks, semi)) == ["/// Member keyword data:<br>"] + Bullets(ks, "<br>")
  {
    HeadListText([n], ks, semi);
    assert '[' !in semi && '[' !in n + " ";
    BracketedList(n + " ", ks, semi);
    ListBullets(ks, "<br>");
  }

  /** An XData block lists its keywords under `Member keyword data:`. */
  lemma XDataKeywordData(n: string, ks: seq<string>, semi: string, tail: string)
    requires Token(n) && '[' !in n && KeywordEntries(ks) && Semi(semi) && Blank(tail)
    ensures AdditionalDataLines("XData " + n + " [ " + Join(ks, ", ") + " ]" + semi + tail)
              == Ok(["/// Member keyword data:<br>"] + Bullets(ks, "<br>"))
  {
    XDataLineTokens(n, ks, semi, tail);
    XDataLineData("XData " + n + " [ " + Join(ks, ", ") + " ]" + semi + tail, [n] + BracketTokens(ks, semi));
    XDataListData(n, ks, semi);
  }

  lemma XDataLineData(line: string, rest: seq<string>)
    requires Tokens(line) == ["XData"] + rest
    ensures AdditionalDataLines(line) == Ok(XDataData(rest))
  {
    XDataKind();
    assert Tokens(line)[1..] == rest;
  }

  lemma XDataLineTokens(n: string, ks: seq<string>, semi: string, tail: string)
    requires Token(n) && KeywordEntries(ks) && Semi(semi) && Blank(tail)
    ensures Tokens("XData " + n + " [ " + Join(ks, ", ") + " ]" + semi + tail)
              == ["XData"] + ([n] + BracketTokens(ks, semi))
  {
    JoinPair("XData", n, " ");
    assert Join(["XData", n], " ") == "XData " + n;
    XDataKind();
    ListLineTokens(["XData", n], ks, semi, tail);
    PairSplit("XData", n, BracketTokens(ks, semi));
  }

  // ---------------------------------------------------------------------------
  // Index: `Index n On <fields> [ k1, k2 ]`
  // ---------------------------------------------------------------------------

  lemma IndexKind()
    ensures !Contains("Index", "Method") && Contains("Index", "Index") && Token("Index")
    ensures "Index" + " " == "Index "
  {
    var w := "Index";
    assert w[0] == 'I' && w[1] == 'n' && w[2] == 'd' && w[3] == 'e' && w[4] == 'x';
    assert MatchAt("Index", "Index", 0);
    LacksChar("Index", "Method", 0);
  }

  /** The text before the first `[`, stripped, is the fields the Index is
      on. */
  lemma IndexAdditionalText(hs: seq<string>, z: string)
    requires |hs| > 0 && AllTokens(hs) && '[' !in Join(hs, " ")
    ensures var h := Join(hs, " ");
      IndexAdditional((h + " ") + ['['] + z)
        == ["/// Member additional data:<br>", "/// > " + h + "<br>"]
  {
    var h := Join(hs, " ");
    assert '[' !in h + " ";
    assert "[" == ['['];
    SplitAtChar(h + " ", '[', z);
    TrailingSpaceStrip(hs);
  }

  /** Tokens joined by spaces, with a space after them, strip to the join. */
  lemma TrailingSpaceStrip(hs: seq<string>)
    requires |hs| > 0 && AllTokens(hs)
    ensures Strip(Join(hs, " ") + " ") == Join(hs, " ")
  {
    var h := Join(hs, " ");
    forall k | 0 <= k < |hs|
      ensures |hs[k]| > 0
    {
      assert Token(hs[k]);
    }
    JoinEnds(hs, " ");
    assert Token(hs[0]) && Token(hs[|hs| - 1]);
    assert !IsSpace(h[0]) && !IsSpace(h[|h| - 1]);
    assert "" + h + " " == h + " ";
    StripPadded("", h, " ");
  }

  /** The keyword part of the Index branch. */
  lemma IndexKeywordsText(p0: string, ks: seq<string>, semi: string)
    requires '[' !in p0 && KeywordEntries(ks) && Semi(semi)
    ensures IndexKeywords(p0 + ['['] + (" " + Join(ks, ", ") + " ]" + semi))
              == ["/// Member keyword data:<br>"] + Bullets(ks, "<br>")
  {
    var rest := p0 + ['['] + (" " + Join(ks, ", ") + " ]" + semi);
    assert '[' !in semi;
    BracketedList(p0, ks, semi);
    SplitHasSecond(rest, "[");
    ListBullets(ks, "<br>");
  }

  /** The Index branch on `n <fields> [ k1, k2 ]`. */
  lemma IndexListData(n: string, hs: seq<string>, ks: seq<string>, semi: string)
    requires |hs| > 0 && AllTokens(hs) && '[' !in Join(hs, " ")
    requires KeywordEntries(ks) && Semi(semi)
    ensures IndexData([n] + (hs + BracketTokens(ks, semi)))
              == Ok(["/// Member additional data:<br>", "/// > " + Join(hs, " ") + "<br>",
                     "/// Member keyword data:<br>"] + Bullets(ks, "<br>"))
  {
    var h := Join(hs, " ");
    var z := " " + Join(ks, ", ") + " ]" + semi;
    IndexRestOf(n, hs, ks, semi);
    IndexAdditionalText(hs, z);
    IndexFieldsKeywords(hs, ks, semi);
    PairThen("/// Member additional data:<br>", "/// > " + h + "<br>", "/// Member keyword data:<br>", Bullets(ks, "<br>"));
  }

  lemma IndexRestOf(n: string, hs: seq<string>, ks: seq<string>, semi: string)
    requires |hs| > 0 && AllTokens(hs) && KeywordEntries(ks) && Semi(semi)
    ensures var rest := (Join(hs, " ") + " ") + ['['] + (" " + Join(ks, ", ") + " ]" + semi);
      IndexData([n] + (hs + BracketTokens(ks, semi))) == Ok(IndexAdditional(rest) + IndexKeywords(rest))
  {
    HeadListText(hs, ks, semi);
    IndexDataOf(n, hs + BracketTokens(ks, semi), (Join(hs, " ") + " ") + ['['] + (" " + Join(ks, ", ") + " ]" + semi));
  }

  lemma IndexFieldsKeywords(hs: seq<string>, ks: seq<string>, semi: string)
    requires '[' !in Join(hs, " ") && KeywordEntries(ks) && Semi(semi)
    ensures IndexKeywords((Join(hs, " ") + " ") + ['['] + (" " + Join(ks, ", ") + " ]" + semi))
              == ["/// Member keyword data:<br>"] + Bullets(ks, "<br>")
  {
    assert '[' !in Join(hs, " ") + " ";
    IndexKeywordsText(Join(hs, " ") + " ", ks, semi);
  }

  /** The Index branch reads the tokens after the name, joined and stripped. */
  lemma IndexDataOf(n: string, more: seq<string>, rest: string)
    requires Strip(Join(more, " ")) == rest
    ensures IndexData([n] + more) == Ok(IndexAdditional(rest) + IndexKeywords(rest))
  {
    assert ([n] + more)[1..] == more;
  }

  /** `extract_additional_data` on an Index line takes the Index branch. */
  lemma IndexLineData(line: string, rest: seq<string>)
    requires Tokens(line) == ["Index"] + rest
    ensures AdditionalDataLines(line) == IndexData(rest)
  {
    IndexKind();
    assert Tokens(line)[1..] == rest;
  }

  /** An Index lists what follows its name up to the brackets as additional
      data, then its keywords. */
  lemma IndexKeywordData(n: string, hs: seq<string>, ks: seq<string>, semi: string, tail: string)
    requires Token(n) && |hs| > 0 && AllTokens(hs) && '[' !in Join(hs, " ")
    requires KeywordEntries(ks) && Semi(semi) && Blank(tail)
    ensures AdditionalDataLines("Index " + n + " " + Join(hs, " ") + " [ " + Join(ks, ", ") + " ]" + semi + tail)
              == Ok(["/// Member additional data:<br>", "/// > " + Join(hs, " ") + "<br>",
                     "/// Member keyword data:<br>"] + Bullets(ks, "<br>"))
  {
    var line := "Index " + n + " " + Join(hs, " ") + " [ " + Join(ks, ", ") + " ]" + semi + tail;
    IndexKind();
    NamedLineTokens("Index", n, hs, ks, semi, tail);
    IndexLineData(line, [n] + (hs + BracketTokens(ks, semi)));
    IndexListData(n, hs, ks, semi);
  }

  /** An Index without brackets lists only its additional data. */
  lemma IndexWithoutKeywords(n: string, hs: seq<string>, tail: string)
    requires Token(n) && |hs| > 0 && AllTokens(hs) && '[' !in Join(hs, " ")
    requires Blank(tail)
    ensures AdditionalDataLines("Index " + n + " " + Join(hs, " ") + tail)
              == Ok(["/// Member additional data:<br>", "/// > " + Join(hs, " ") + "<br>"])
  {
    var h := Join(hs, " ");
    var line := "Index " + n + " " + h + tail;
    assert Tokens(line) == ["Index"] + ([n] + hs) by {
      var head := ["Index", n] + hs;
      IndexKind();
      KindHead("Index", n, hs);
      SplitWsTail(head, tail);
      ConsShape("Index", n, hs, []);
      assert head + [] == head;
    }
    IndexLineData(line, [n] + hs);
    assert IndexData([n] + hs) == Ok(IndexAdditional(h) + IndexKeywords(h)) by {
      JoinStripped(hs);
      IndexDataOf(n, hs, h);
    }
    IndexPlainText(hs);
    NothingAfter(IndexAdditional(h));
  }

  /** The Index branch's two parts when no `[` follows the fields. */
  lemma IndexPlainText(hs: seq<string>)
    requires |hs| > 0 && AllTokens(hs) && '[' !in Join(hs, " ")
    ensures var h := Join(hs, " ");
      && IndexAdditional(h) == ["/// Member additional data:<br>", "/// > " + h + "<br>"]
      && IndexKeywords(h) == []
  {
    var h := Join(hs, " ");
    JoinStripped(hs);
    ContainsChar(h, '[');
    assert "[" == ['['];
    SplitWhole(h, "[");
    assert Before(h, "[") == h;
    TokenStrippedJoin(hs);
    SplitHasSecond(h, "[");
  }

  /** A join of tokens is not empty. */
  lemma TokenStrippedJoin(hs: seq<string>)
    requires |hs| > 0 && AllTokens(hs)
    ensures |Join(hs, " ")| > 0
  {
    assert Token(hs[0]);
    JoinEnds(hs, " ");
  }

  lemma PairThen<T>(a: T, b: T, c: T, d: seq<T>)
    ensures [a, b] + ([c] + d) == [a, b, c] + d
  {
  }

  lemma NothingAfter<T>(s: seq<T>)
    ensures s + [] == s
  {
  }

  lemma DropHead<T>(a: T, c: seq<T>, d: seq<T>)
    ensures ([a] + c + d)[1..] == c + d
  {
  }

  /** `[a, b] + c + d` taken apart at its first entry. */
  lemma ConsShape<T>(a: T, b: T, c: seq<T>, d: seq<T>)
    ensures [a, b] + c + d == [a] + ([b] + (c + d))
  {
  }

  // ---------------------------------------------------------------------------
  // Method, ClassMethod, ClientMethod: `kw name(args) <ret> [ k1, k2 ]`
  // ---------------------------------------------------------------------------

  /** Stripping the text after a method's first `)` leaves the return
      clause, then the bracket. */
  lemma StrippedBracketPart(b: string, ks: seq<string>, semi: string) returns (p0: string)
    requires '[' !in b && KeywordEntries(ks) && Semi(semi)
    ensures '[' !in p0
    ensures Strip(b + " [ " + Join(ks, ", ") + " ]" + semi) == p0 + ['['] + (" " + Join(ks, ", ") + " ]" + semi)
  {
    var j := Join(ks, ", ");
    var y := b + " [ " + j + " ]" + semi;
    var z := " " + j + " ]" + semi;
    StripBeforeBracket(b, j, semi);
    var n := Lead(y, IsSpace);
    p0 := (b + " ")[n..];
    BracketSplit(b, j, semi);
    assert y == (b + " ") + ['['] + z;
    assert y[n..] == p0 + ['['] + z;
    CharNotInSlice(b + " ", '[', n, |b| + 1);
  }

  /** The keyword bullets read from one field `b [ k1, k2 ]`. */
  lemma FieldKeywords(b: string, ks: seq<string>, semi: string)
    requires '[' !in b && KeywordEntries(ks) && Semi(semi)
    ensures KeywordsAfterParen([b + " [ " + Join(ks, ", ") + " ]" + semi], "/// Member Keyword Data:<br>", "<br>")
              == ["/// Member Keyword Data:<br>"] + Bullets(ks, "<br>")
  {
    var j := Join(ks, ", ");
    var y := b + " [ " + j + " ]" + semi;
    var z := " " + j + " ]" + semi;
    var p0 := StrippedBracketPart(b, ks, semi);
    var part := Strip(y);
    CharNotInJoin(ks, ", ", '[');
    assert '[' !in z;
    SecondAfterBracket(p0, z);
    assert Contains(part, "[");
    assert [y][1..] == [];
    assert part + " " + Join([], " ") == p0 + ['['] + (" " + j + " ]" + (semi + " "));
    assert '[' !in semi + " ";
    BracketedList(p0, ks, semi + " ");
    ListBullets(ks, "<br>");
  }

  /** A character none of `b`, the keywords and the brackets hold. */
  lemma ListTailLacks(b: string, ks: seq<string>, semi: string, c: char)
    requires c !in b && c != ' ' && c != '[' && c != ']' && c != ',' && Semi(semi) && c != ';'
    requires forall k :: 0 <= k < |ks| ==> c !in ks[k]
    ensures c !in b + " [ " + Join(ks, ", ") + " ]" + semi
  {
    CharNotInJoin(ks, ", ", c);
    var j := Join(ks, ", ");
    assert c !in " [ " by {
      assert " [ " == [' ', '[', ' '];
    }
    assert c !in " ]" by {
      assert " ]" == [' ', ']'];
    }
    assert c !in semi by {
      assert semi == "" || semi == [';'];
    }
    assert c !in b + " [ ";
    assert c !in b + " [ " + j;
    assert c !in b + " [ " + j + " ]";
  }

  /** The keyword bullets read after the first `)` of `" ".join(ds)` when
      a bracketed list follows. */
  lemma ParenFieldsKeywords(ds: seq<string>, a: string, b: string, ks: seq<string>, semi: string)
    requires |ds| > 0 && Join(ds, " ") == a + ")" + b && ')' !in a && ')' !in b && '[' !in b
    requires KeywordEntries(ks) && Semi(semi)
    ensures KeywordsAfterParen(FieldsAfterParen(ds + BracketTokens(ks, semi)), "/// Member Keyword Data:<br>", "<br>")
              == ["/// Member Keyword Data:<br>"] + Bullets(ks, "<br>")
  {
    var y := b + " [ " + Join(ks, ", ") + " ]" + semi;
    MethodLineShape(ds, a, b, ks, semi);
    ListTailLacks(b, ks, semi, ')');
    AfterFirstParen(a, y);
    assert FieldsAfterParen(ds + BracketTokens(ks, semi)) == [y];
    FieldKeywords(b, ks, semi);
  }

  /** `extract_additional_data` on a method line takes the Method branch. */
  lemma MethodLineData(line: string, kw: string, rest: seq<string>)
    requires kw == "Method" || kw == "ClassMethod" || kw == "ClientMethod"
    requires Tokens(line) == [kw] + rest
    ensures AdditionalDataLines(line) == MethodData(rest)
  {
    MethodKindToken(kw);
    assert Tokens(line)[1..] == rest;
  }

  lemma MethodKindToken(kw: string)
    requires kw == "Method" || kw == "ClassMethod" || kw == "ClientMethod"
    ensures Contains(kw, "Method") && Token(kw) && kw != "Property" && kw != "Parameter"
  {
    MethodKinds(kw);
    assert kw[0] != 'P';
  }

  /** A method whose name token opens its argument list and whose `)` comes
      in a later token lists its keywords under `Member Keyword Data:`. */
  lemma MethodKeywordData(kw: string, name: string, ps: seq<string>, a: string, b: string,
                          ks: seq<string>, semi: string, tail: string)
    requires kw == "Method" || kw == "ClassMethod" || kw == "ClientMethod"
    requires Token(name) && Contains(name, "(")
    requires |ps| > 0 && AllTokens(ps) && Join(ps, " ") == a + ")" + b
    requires ')' !in a && ')' !in b && '[' !in b
    requires KeywordEntries(ks) && Semi(semi) && Blank(tail)
    ensures AdditionalDataLines(kw + " " + name + " " + Join(ps, " ") + " [ " + Join(ks, ", ") + " ]" + semi + tail)
              == Ok(["/// Member Keyword Data:<br>"] + Bullets(ks, "<br>"))
  {
    var line := kw + " " + name + " " + Join(ps, " ") + " [ " + Join(ks, ", ") + " ]" + semi + tail;
    MethodKindToken(kw);
    NamedLineTokens(kw, name, ps, ks, semi, tail);
    MethodLineData(line, kw, [name] + (ps + BracketTokens(ks, semi)));
    MethodParenData(name, ps, a, b, ks, semi);
  }

  /** The Method branch on `name(... ) <ret> [ k1, k2 ]`. */
  lemma MethodParenData(name: string, ps: seq<string>, a: string, b: string, ks: seq<string>, semi: string)
    requires Contains(name, "(")
    requires |ps| > 0 && Join(ps, " ") == a + ")" + b && ')' !in a && ')' !in b && '[' !in b
    requires KeywordEntries(ks) && Semi(semi)
    ensures MethodData([name] + (ps + BracketTokens(ks, semi))) == Ok(["/// Member Keyword Data:<br>"] + Bullets(ks, "<br>"))
  {
    assert ([name] + (ps + BracketTokens(ks, semi)))[1..] == ps + BracketTokens(ks, semi);
    ParenFieldsKeywords(ps, a, b, ks, semi);
  }

  // ---- the keyword list a name token's `)` hides ----

  /** `Method n() [ k1, k2 ]`: the name token holds the `)`, and dropping it
      before the cut at `)` leaves no field after the cut, so no keyword
      line is written, although `check_keyword` reads the same list. */
  lemma MethodKeywordDataLost(kw: string, n: string, ks: seq<string>, semi: string, tail: string, keyword: string)
    requires kw == "Method" || kw == "ClassMethod" || kw == "ClientMethod"
    requires Token(n) && ')' !in n
    requires KeywordEntries(ks) && Semi(semi) && Blank(tail)
    ensures AdditionalDataLines(kw + " " + n + "()" + " [ " + Join(ks, ", ") + " ]" + semi + tail) == Ok([])
    ensures CheckKeyword(kw + " " + n + "()" + " [ " + Join(ks, ", ") + " ]" + semi + tail, keyword)
              == Ok(if keyword in ks then Found else Absent)
  {
    MethodEmptyCallData(kw, n, ks, semi, tail);
    EmptyCallKeywords(kw, n, ks, semi, tail, keyword);
  }

  /** `check_keyword` on `kw n() [ k1, k2 ]`. */
  lemma EmptyCallKeywords(kw: string, n: string, ks: seq<string>, semi: string, tail: string, keyword: string)
    requires kw == "Method" || kw == "ClassMethod" || kw == "ClientMethod"
    requires Token(n) && ')' !in n
    requires KeywordEntries(ks) && Semi(semi) && Blank(tail)
    ensures CheckKeyword(kw + " " + n + "()" + " [ " + Join(ks, ", ") + " ]" + semi + tail, keyword)
              == Ok(if keyword in ks then Found else Absent)
  {
    var x := n + "()";
    EmptyCallToken(n);
    assert x == (n + "(") + ")" + "";
    assert Join([x], " ") == x;
    assert kw + " " + x == kw + " " + n + "()";
    MethodKeywordsListed(kw, [x], n + "(", "", ks, semi, tail, keyword);
  }

  lemma EmptyCallToken(n: string)
    requires Token(n)
    ensures Token(n + "()") && Contains(n + "()", "(")
  {
    var x := n + "()";
    assert x[|n|] == '(' && x[|n| + 1] == ')';
    forall i | 0 <= i < |x|
      ensures !IsSpace(x[i])
    {
      if i < |n| {
        assert x[i] == n[i];
      }
    }
    assert MatchAt(x, "(", |n|);
  }

  /** The Method branch on a name token with `(`, followed only by a
      bracketed list. */
  lemma MethodEmptyCallData(kw: string, n: string, ks: seq<string>, semi: string, tail: string)
    requires kw == "Method" || kw == "ClassMethod" || kw == "ClientMethod"
    requires Token(n)
    requires KeywordEntries(ks) && Semi(semi) && Blank(tail)
    ensures AdditionalDataLines(kw + " " + n + "()" + " [ " + Join(ks, ", ") + " ]" + semi + tail) == Ok([])
  {
    var line := kw + " " + n + "()" + " [ " + Join(ks, ", ") + " ]" + semi + tail;
    EmptyCallTokens(kw, n, ks, semi, tail);
    MethodLineData(line, kw, [n + "()"] + BracketTokens(ks, semi));
    EmptyCallToken(n);
    BracketFieldsEmpty(ks, semi);
  }

  lemma EmptyCallTokens(kw: string, n: string, ks: seq<string>, semi: string, tail: string)
    requires kw == "Method" || kw == "ClassMethod" || kw == "ClientMethod"
    requires Token(n) && KeywordEntries(ks) && Semi(semi) && Blank(tail)
    ensures Tokens(kw + " " + n + "()" + " [ " + Join(ks, ", ") + " ]" + semi + tail)
              == [kw] + ([n + "()"] + BracketTokens(ks, semi))
  {
    var x := n + "()";
    EmptyCallToken(n);
    MethodKindToken(kw);
    JoinPair(kw, x, " ");
    assert kw + " " + x == kw + " " + n + "()";
    ListLineTokens([kw, x], ks, semi, tail);
    PairSplit(kw, x, BracketTokens(ks, semi));
  }

  lemma PairSplit<T>(a: T, b: T, d: seq<T>)
    ensures [a, b] + d == [a] + ([b] + d)
  {
  }

  /** No field follows a `)` in the bracket tokens. */
  lemma BracketFieldsEmpty(ks: seq<string>, semi: string)
    requires KeywordEntries(ks) && Semi(semi)
    ensures FieldsAfterParen(BracketTokens(ks, semi)) == []
  {
    var jb := Join(BracketTokens(ks, semi), " ");
    BracketJoinLacksParen(ks, semi);
    assert ")" == [')'];
    ContainsChar(jb, ')');
    SplitWhole(jb, ")");
  }

  /** The bracket tokens, joined, hold no `)`. */
  lemma BracketJoinLacksParen(ks: seq<string>, semi: string)
    requires KeywordEntries(ks) && Semi(semi)
    ensures ')' !in Join(BracketTokens(ks, semi), " ")
  {
    var x := "_";
    var j := Join(ks, ", ");
    var bt := BracketTokens(ks, semi);
    var jb := Join(bt, " ");
    var t := " [ " + j + " ]" + semi;
    assert x + " " + jb == x + t by {
      JoinAppend([x], bt, " ");
      BracketLine([x], ks, semi);
    }
    assert (x + " " + jb)[2..] == jb;
    assert (x + t)[2..] == t[1..];
    assert "" + " [ " + j + " ]" + semi == t;
    ListTailLacks("", ks, semi, ')');
    CharNotInSlice(t, ')', 1, |t|);
  }

  /** With the name token kept, the same line lists its keywords. */
  lemma MethodDataIntendedListed(kw: string, ds: seq<string>, a: string, b: string,
                                 ks: seq<string>, semi: string, tail: string)
    requires kw == "Method" || kw == "ClassMethod" || kw == "ClientMethod"
    requires |ds| > 0 && AllTokens(ds) && Contains(ds[0], "(")
    requires Join(ds, " ") == a + ")" + b && ')' !in a && ')' !in b && '[' !in b
    requires KeywordEntries(ks) && Semi(semi) && Blank(tail)
    ensures MethodDataIntended(Tokens(kw + " " + Join(ds, " ") + " [ " + Join(ks, ", ") + " ]" + semi + tail)[1..])
              == Ok(["/// Member Keyword Data:<br>"] + Bullets(ks, "<br>"))
  {
    MethodLineTokens(kw, ds, ks, semi, tail);
    IntendedParenFields(ds, a, b, ks, semi);
  }

  lemma IntendedParenFields(ds: seq<string>, a: string, b: string, ks: seq<string>, semi: string)
    requires |ds| > 0 && Contains(ds[0], "(")
    requires Join(ds, " ") == a + ")" + b && ')' !in a && ')' !in b && '[' !in b
    requires KeywordEntries(ks) && Semi(semi)
    ensures MethodDataIntended(ds + BracketTokens(ks, semi)) == Ok(["/// Member Keyword Data:<br>"] + Bullets(ks, "<br>"))
  {
    assert (ds + BracketTokens(ks, semi))[0] == ds[0];
    ParenFieldsKeywords(ds, a, b, ks, semi);
  }

  /** The tokens after the keyword of `kw <ds> [ k1, k2 ]`. */
  lemma MethodLineTokens(kw: string, ds: seq<string>, ks: seq<string>, semi: string, tail: string)
    requires kw == "Method" || kw == "ClassMethod" || kw == "ClientMethod"
    requires |ds| > 0 && AllTokens(ds) && KeywordEntries(ks) && Semi(semi) && Blank(tail)
    ensures Tokens(kw + " " + Join(ds, " ") + " [ " + Join(ks, ", ") + " ]" + semi + tail)[1..]
              == ds + BracketTokens(ks, semi)
  {
    MethodKindToken(kw);
    OneHead(kw, ds);
    ListLineTokens([kw] + ds, ks, semi, tail);
    DropHead(kw, ds, BracketTokens(ks, semi));
  }

  /** The tokens of `kw <ds>`. */
  lemma OneHead(kw: string, ds: seq<string>)
    requires Token(kw) && |ds| > 0 && AllTokens(ds)
    ensures AllTokens([kw] + ds) && Join([kw] + ds, " ") == kw + " " + Join(ds, " ")
  {
    var head := [kw] + ds;
    JoinAppend([kw], ds, " ");
    forall k | 1 <= k < |head|
      ensures Token(head[k])
    {
      assert head[k] == ds[k - 1];
    }
  }

  /** The fields after the first `c` do not depend on a prefix without `c`. */
  lemma FieldsAfterPrefix(x: string, s: string, c: char)
    requires c !in x
    ensures Split(x + s, [c])[1..] == Split(s, [c])[1..]
  {
    ContainsChar(s, c);
    if Contains(s, [c]) {
      var p, q := FirstCharSplit(s, c);
      assert Split(s, [c])[1..] == Split(q, [c]) by {
        SplitAtChar(p, c, q);
      }
      PrefixBeforeChar(x, p, c, q);
    } else {
      ContainsChar(x + s, c);
      SplitWhole(s, [c]);
      SplitWhole(x + s, [c]);
    }
  }

  lemma PrefixBeforeChar(x: string, p: string, c: char, q: string)
    requires c !in x && c !in p
    ensures Split(x + (p + [c] + q), [c])[1..] == Split(q, [c])
  {
    assert x + (p + [c] + q) == (x + p) + [c] + q;
    SplitAtChar(x + p, c, q);
  }

  /** A text holding `c` is the text before its first `c`, the `c`, and the rest. */
  lemma FirstCharSplit(s: string, c: char) returns (p: string, q: string)
    requires Contains(s, [c])
    ensures s == p + [c] + q && c !in p
  {
    var i := Find(s, [c]).value;
    assert s[i..i + 1] == [c];
    p := s[..i];
    q := s[i + 1..];
    assert s == p + [c] + q;
    forall k | 0 <= k < |p|
      ensures p[k] != c
    {
      assert !MatchAt(s, [c], k);
      assert s[k..k + 1] == [p[k]];
    }
  }

  /** The correction changes nothing for a name token without `)`. */
  lemma MethodIntendedAgrees(data: seq<string>)
    requires |data| > 0 && ')' !in data[0]
    ensures MethodDataIntended(data) == MethodData(data)
  {
    assert ")" == [')'];
    if |data| == 1 {
      assert Join(data, " ") == data[0];
      ContainsChar(data[0], ')');
      SplitWhole(data[0], ")");
      assert Join(data[1..], " ") == "";
      ContainsChar("", ')');
      SplitWhole("", ")");
    } else {
      assert Join(data, " ") == data[0] + " " + Join(data[1..], " ");
      assert ')' !in data[0] + " ";
      FieldsAfterPrefix(data[0] + " ", Join(data[1..], " "), ')');
    }
  }
}

=== FILE: filter.dfy ===
/** The line loop of the filter (cachefilter.py:486-631, the body of `parse`
    in doxyfilter_cache.py:659-828): each input line is normalised and then
    dispatched, by the first test that matches, to a class header, an
    include, the open XData / Storage / method block, a class member, the
    class's closing brace, a comment, or plain pass-through.

    The two scripts run the same loop with one difference.  cachefilter.py
    runs it at module level, so its assignments to `private_method`,
    `abstract_method` and `xdata_mimetype` update the variables the handlers
    read; in doxyfilter_cache.py the loop sits inside `parse`, which does not
    declare those three names `global`, so the assignments create locals and
    the handlers keep seeing `False`, `False` and `""`.  `Scope` selects
    between the two. */
module Filter {
  import opened Results
  import opened PyStr
  import opened StrFacts
  import opened Members
  import opened CommentPatterns
  import opened Handlers

  /** Where the loop's assignments to `private_method`, `abstract_method` and
      `xdata_mimetype` go: the module globals (cachefilter.py) or locals of
      `parse` (doxyfilter_cache.py). */
  datatype Scope = ModuleGlobals | FunctionLocals

  /** The result of one pass through the loop body: carry on, stop at the
      `break` after the class's closing brace, or an exception. */
  datatype Outcome = Next(state: State) | Done(state: State) | Failed

  /** Tabs become four spaces; ` ; ` and `#; ` comment markers become `/// `. */
  function Normalize(line: string): (r: string)
    ensures '\t' !in r
  {
    var t := Replace(line, "\t", "    ");
    ReplaceRemovesChar(line, '\t', "    ");
    assert "\t" == ['\t'];
    CharNotInReplace(t, " ; ", "/// ", '\t');
    CharNotInReplace(Replace(t, " ; ", "/// "), "#; ", "/// ", '\t');
    Replace(Replace(t, " ; ", "/// "), "#; ", "/// ")
  }

  /** `text.strip() != ""` */
  predicate NonBlank(text: string) {
    Strip(text) != ""
  }

  /** Moves the pending comments onto `buffer` when they are not blank;
      returns the new buffer and the new pending comments. */
  function TakeComments(buffer: string, comments: string): (r: (string, string))
    ensures NonBlank(comments) ==> r == (buffer + comments, "")
    ensures !NonBlank(comments) ==> r == (buffer, comments)
  {
    if NonBlank(comments) then (buffer + comments, "") else (buffer, comments)
  }

  /** `additional_data`, appended only when it is not blank. */
  function WithMetadata(buffer: string, meta: string): string {
    if NonBlank(meta) then buffer + meta else buffer
  }

  const ClientMethodRemark :=
    "///This method is a ClientMethod. Any instance method defined with the keyword ClientMethod\n"
    + "///becomes a client-side instance method of the client page object.\n"
    + "///When called, it executes within the browser.\n"

  /** The state once a method header has been read, given what the header
      yielded: `block` is the flag raised, `attributes` the
      `check_keyword` results assigned to the method's flags (at module
      level only), `remark` the text placed after the pending comments. */
  function EnterMethod(s: State, block: Flag, scope: Scope, attributes: map<Flag, KeywordCheck>,
                       remark: string, meta: string, sig: string): (r: State)
    ensures block in r.flags && r.methodSignature == sig
    ensures forall f :: f in attributes && f != block ==>
              (f in r.flags <==> if scope == ModuleGlobals then attributes[f].Truthy() else f in s.flags)
    ensures SameFlagsBut(s, r, {block} + attributes.Keys)
    // the pending comments, the remark and the metadata come before the signature
    ensures var (mc, cs) := TakeComments(s.methodContent, s.comments);
            && r.methodContent == WithMetadata(mc + remark, meta) + sig + "\n"
            && r.comments == cs
    ensures r == s.(flags := r.flags, methodContent := r.methodContent,
                    comments := r.comments, methodSignature := r.methodSignature)
  {
    var raised := set f | f in attributes && attributes[f].Truthy();
    var flags := if scope == ModuleGlobals then s.flags - attributes.Keys + raised else s.flags;
    var (mc, cs) := TakeComments(s.methodContent, s.comments);
    s.(flags := flags + {block},
       comments := cs,
       methodContent := WithMetadata(mc + remark, meta) + sig + "\n",
       methodSignature := sig)
  }

  /** A `ClassMethod ` line opens a ClassMethod block. */
  function OpenClassMethod(s: State, line: string, scope: Scope): (r: Result<State>)
    ensures r.Error? <==>
              CheckKeyword(line, "Private").Error? || ExtractAdditionalData(line).Error?
              || FormatMethodSignature(line).Error?
    ensures r.Ok? ==>
              r.value == EnterMethod(s, InClassMethod, scope, map[PrivateMethod := CheckKeyword(line, "Private").value],
                                     "", ExtractAdditionalData(line).value, FormatMethodSignature(line).value)
  {
    var isPrivate :- CheckKeyword(line, "Private");
    var meta :- ExtractAdditionalData(line);
    var sig :- FormatMethodSignature(line);
    Ok(EnterMethod(s, InClassMethod, scope, map[PrivateMethod := isPrivate], "", meta, sig))
  }

  /** A `Method ` or `ClientMethod ` line opens a Method block; a
      ClientMethod is announced by a fixed remark. */
  function OpenMethod(s: State, line: string, scope: Scope): (r: Result<State>)
    ensures r.Error? <==>
              CheckKeyword(line, "Abstract").Error? || CheckKeyword(line, "Private").Error?
              || ExtractAdditionalData(line).Error? || FormatMethodSignature(line).Error?
    ensures r.Ok? ==>
              r.value == EnterMethod(s, InMethod, scope,
                                     map[AbstractMethod := CheckKeyword(line, "Abstract").value,
                                         PrivateMethod := CheckKeyword(line, "Private").value],
                                     if StartsWith(line, "ClientMethod ") then ClientMethodRemark else "",
                                     ExtractAdditionalData(line).value, FormatMethodSignature(line).value)
  {
    var isAbstract :- CheckKeyword(line, "Abstract");
    // `check_keyword` raises for a line regardless of the keyword asked for
    var isPrivate := CheckKeyword(line, "Private").value;
    var meta :- ExtractAdditionalData(line);
    var sig :- FormatMethodSignature(line);
    var remark := if StartsWith(line, "ClientMethod ") then ClientMethodRemark else "";
    Ok(EnterMethod(s, InMethod, scope, map[AbstractMethod := isAbstract, PrivateMethod := isPrivate], remark, meta, sig))
  }

  /** An `XData ` line opens an XData block; the pending comments are always
      cleared, and kept only when they are not blank. */
  function OpenXData(s: State, line: string, scope: Scope): (r: Result<State>)
    ensures r.Error? <==>
              XDataMimetype(line).Error? || FormatXDataSignature(line).Error? || ExtractAdditionalData(line).Error?
    ensures r.Ok? ==> r.value.inXData && r.value.comments == ""
    ensures r.Ok? ==> r.value.xdataSignature == FormatXDataSignature(line).value
    ensures r.Ok? ==>
              r.value.xdataMimetype == (if scope == ModuleGlobals then XDataMimetype(line).value else s.xdataMimetype)
    ensures r.Ok? ==>
              r.value.xdataContent ==
                WithMetadata(if NonBlank(s.comments) then s.xdataContent + s.comments else s.xdataContent,
                             ExtractAdditionalData(line).value)
    ensures r.Ok? ==>
              r.value == s.(flags := s.flags + {InXData}, xdataMimetype := r.value.xdataMimetype,
                            xdataSignature := r.value.xdataSignature,
                            xdataContent := r.value.xdataContent, comments := "")
  {
    var mimetype :- XDataMimetype(line);
    var sig :- FormatXDataSignature(line);
    var xc := if NonBlank(s.comments) then s.xdataContent + s.comments else s.xdataContent;
    var meta :- ExtractAdditionalData(line);
    Ok(s.(flags := s.flags + {InXData},
          xdataMimetype := if scope == ModuleGlobals then mimetype else s.xdataMimetype,
          xdataSignature := sig,
          comments := "",
          xdataContent := WithMetadata(xc, meta)))
  }

  /** `text + "\n"` when `text` is not blank, otherwise nothing. */
  function SectionPart(section: string, header: string): string {
    if Strip(section) != Strip(header) then section + "\n" else ""
  }

  /** The class's closing `}`: the class text, the non-empty public and
      private sections and the brace itself are written out after any
      pending comments. */
  function CloseClass(s: State, line: string): (r: State)
    ensures !r.inClass
    ensures r.classContent ==
              s.classContent + SectionPart(s.publicContent, PublicHeader) + SectionPart(s.privateContent, PrivateHeader) + line
    ensures r.fileContent == s.fileContent + (if NonBlank(s.comments) then s.comments + "\n" else "") + r.classContent
    ensures r == s.(flags := s.flags - {InClass}, classContent := r.classContent, fileContent := r.fileContent)
  {
    var cc := s.classContent + SectionPart(s.publicContent, PublicHeader) + SectionPart(s.privateContent, PrivateHeader) + line;
    var pending := if NonBlank(s.comments) then s.comments + "\n" else "";
    s.(flags := s.flags - {InClass}, classContent := cc, fileContent := s.fileContent + pending + cc)
  }

  /** A line of the class body that is not a member: a comment is collected
      into the pending comments, other text goes to the class header, and a
      blank line flushes the pending comments to the output. */
  function CommentOrText(s: State, line: string): (r: State)
    ensures CommentText(line).Some? ==> r == s.(comments := s.comments + CommentText(line).value + "\n")
    ensures CommentText(line).None? && StartsWith(line, "/*") ==>
              r == s.(flags := s.flags + {InCommentBlock}, comments := s.comments + Replace(Strip(line), "/*", "///") + "\n")
    ensures CommentText(line).None? && !StartsWith(line, "/*") && !s.inCommentBlock && !NonBlank(line) ==>
              if NonBlank(s.comments) then r == s.(fileContent := s.fileContent + s.comments, comments := "")
              else r == s
    ensures CommentText(line).None? && !StartsWith(line, "/*") && !s.inCommentBlock && NonBlank(line) ==>
              r == s.(classContent := s.classContent + Strip(line) + "\n")
    // only a blank line outside a block comment writes to the output
    ensures r.fileContent != s.fileContent ==>
              CommentText(line).None? && !StartsWith(line, "/*") && !s.inCommentBlock && !NonBlank(line)
    // the block comment is the only thing that reads `inside_comment_block`
    ensures r.inCommentBlock != s.inCommentBlock ==>
              (StartsWith(line, "/*") && r.inCommentBlock) || (s.inCommentBlock && Contains(line, "*/"))
    // only the comment state, the class text and the output change
    ensures SameFlagsBut(s, r, {InCommentBlock})
    ensures r == s.(flags := r.flags, comments := r.comments, classContent := r.classContent, fileContent := r.fileContent)
  {
    match CommentText(line)
    case Some(c) => s.(comments := s.comments + c + "\n")
    case None =>
      if StartsWith(line, "/*") then
        s.(flags := s.flags + {InCommentBlock}, comments := s.comments + Replace(Strip(line), "/*", "///") + "\n")
      else if s.inCommentBlock then
        var c := StripChars(Strip(line), "\n");
        if c == "" then s
        else if Contains(c, "*/") then
          assert Contains(line, "*/") by {
            TrimContained(Strip(line), c => c in "\n", "*/");
            TrimContained(line, IsSpace, "*/");
          }
          s.(flags := s.flags - {InCommentBlock}, comments := s.comments + Replace(c, "*/", "///"))
        else if StartsWith(c, "*") then s.(comments := s.comments + Replace(c, "*", "///") + "\n")
        else s.(comments := s.comments + "/// " + c + "\n")
      else
        var t := Strip(line);
        if t != "" then s.(classContent := s.classContent + t + "\n")
        else if NonBlank(s.comments) then s.(fileContent := s.fileContent + s.comments, comments := "")
        else s
  }

  function Lift(r: Result<State>): Outcome {
    match r
    case Ok(s) => Next(s)
    case Error => Failed
  }

  /** The class body, when no block is open. */
  function ClassBody(s: State, line: string, scope: Scope): Outcome {
    if StartsWith(line, "Property ") then
      var (pc, cs) := TakeComments(s.propertyContent, s.comments);
      Lift(HandleParamOrProperty(s.(propertyContent := pc, comments := cs), line))
    else if StartsWith(line, "Parameter ") then
      var (pc, cs) := TakeComments(s.parameterContent, s.comments);
      Lift(HandleParamOrProperty(s.(parameterContent := pc, comments := cs), line))
    else if StartsWith(line, "Index ") then
      // the pending comments of an index go to the method buffer
      var (mc, cs) := TakeComments(s.methodContent, s.comments);
      Lift(HandleIndex(s.(methodContent := mc, comments := cs), line))
    else if StartsWith(line, "ClassMethod ") then Lift(OpenClassMethod(s, line, scope))
    else if StartsWith(line, "Method ") || StartsWith(line, "ClientMethod ") then Lift(OpenMethod(s, line, scope))
    else if StartsWith(line, "XData ") then Lift(OpenXData(s, line, scope))
    else if StartsWith(line, "Storage ") then Next(s.(flags := s.flags + {InStorage}))
    else if StartsWith(line, "}") then Done(CloseClass(s, line))
    else Next(CommentOrText(s, line))
  }

  /** One pass of the loop body over the raw input line `raw`. */
  function Step(s: State, raw: string, scope: Scope): Outcome {
    var line := Normalize(raw);
    if StartsWith(line, "Class ") then Lift(HandleClass(s.(flags := s.flags + {InClass}), line))
    else if StartsWith(line, "Include ") then Next(s.(fileContent := s.fileContent + "/// " + Strip(line) + "\n"))
    else if s.inXData then Next(HandleXData(s, line))
    else if s.inStorage then Next(HandleStorage(s, line))
    else if s.inClassMethod then Next(HandleMethod(s, line))
    else if s.inMethod then Next(HandleMethod(s, line))
    else if s.inClass then ClassBody(s, line, scope)
    else Next(s.(fileContent := s.fileContent + line))
  }

  /** The loop over `lines` from state `s`: `Next` when every line was read,
      `Done` at the `break`, `Failed` at the first exception. */
  function Run(s: State, lines: seq<string>, scope: Scope): Outcome
    decreases |lines|
  {
    if |lines| == 0 then Next(s)
    else
      match Step(s, lines[0], scope)
      case Next(t) => Run(t, lines[1..], scope)
      case Done(t) => Done(t)
      case Failed => Failed
  }

  /** The text the filter writes for the input `lines`, or `Error` when it raises. */
  function Parse(lines: seq<string>, scope: Scope): Result<string> {
    match Run(Initial, lines, scope)
    case Failed => Error
    case Next(s) => Ok(s.fileContent)
    case Done(s) => Ok(s.fileContent)
  }
}

=== FILE: filterfacts.dfy ===
/** Properties of the line loop: what every step preserves, how runs
    compose, and what whole inputs of a given shape produce. */
module FilterFacts {
  import opened Results
  import opened PyStr
  import opened StrFacts
  import opened CommentPatterns
  import opened Members
  import opened Handlers
  import opened Filter
  import opened Invariants

  /** In doxyfilter_cache.py every method, Private and Abstract ones included,
      ends up in the public section without the Abstract note. */
  lemma LocalsMethodsArePublic(s: State, raw: string)
    requires LocalsUnset(s)
    requires (s.inClassMethod || s.inMethod) && !s.inXData && !s.inStorage
    requires var line := Normalize(raw);
      StartsWith(line, "}") && !StartsWith(line, "Class ") && !StartsWith(line, "Include ")
    ensures Step(s, raw, FunctionLocals).Next?
    ensures var t := Step(s, raw, FunctionLocals).state;
      && t.publicContent == s.publicContent + MethodEntry(false, s.methodContent + Normalize(raw))
      && t.privateContent == s.privateContent
  {
    assert !StartsWith(Normalize(raw), "{") by {
      assert Normalize(raw)[0] == '}';
    }
  }

  /** In doxyfilter_cache.py the mimetype is always `""`, which `in
      "application/json"` accepts: every XData block is quoted like JSON. */
  lemma EmptyMimetypeIsJson()
    ensures TreatedAsJson("")
  {
    assert MatchAt("application/json", "", 0);
    StrFacts.ContainsWitness("application/json", "", 0);
  }

  // ---------------------------------------------------------------------------
  // runs compose; nothing after the closing brace of the class is read
  // ---------------------------------------------------------------------------

  /** Running over `a + b` is running over `a`, then over `b` if the loop
      neither stopped nor raised. */
  lemma {:induction false} RunAppend(s: State, a: seq<string>, b: seq<string>, scope: Scope)
    ensures Run(s, a + b, scope) ==
              match Run(s, a, scope)
              case Next(t) => Run(t, b, scope)
              case Done(t) => Done(t)
              case Failed => Failed
    decreases |a|
  {
    if |a| == 0 {
      assert a + b == b;
    } else {
      assert (a + b)[0] == a[0];
      assert (a + b)[1..] == a[1..] + b;
      match Step(s, a[0], scope)
      case Next(t) => RunAppend(t, a[1..], b, scope);
      case Done(t) =>
      case Failed =>
    }
  }

  /** The lines after the class's closing `}` do not change the result. */
  lemma AfterClassIgnored(a: seq<string>, b: seq<string>, scope: Scope)
    requires Run(Initial, a, scope).Done?
    ensures Parse(a + b, scope) == Parse(a, scope)
  {
    RunAppend(Initial, a, b, scope);
  }

  // ---------------------------------------------------------------------------
  // inputs of a given shape
  // ---------------------------------------------------------------------------

  /** The normalised lines, concatenated. */
  function NormalizedText(lines: seq<string>): string {
    if |lines| == 0 then "" else Normalize(lines[0]) + NormalizedText(lines[1..])
  }

  /** A line that the loop handles as neither a class header nor an include. */
  predicate Plain(raw: string) {
    var line := Normalize(raw);
    !StartsWith(line, "Class ") && !StartsWith(line, "Include ")
  }

  /** No class and no block is open. */
  predicate Outside(s: State) {
    !s.inClass && !s.inXData && !s.inStorage && !s.inClassMethod && !s.inMethod
  }

  /** Outside a class, a plain line is copied to the output, normalised. */
  lemma StepPlainOutside(s: State, raw: string, scope: Scope)
    requires Outside(s) && Plain(raw)
    ensures Step(s, raw, scope) == Next(s.(fileContent := s.fileContent + Normalize(raw)))
  {
  }

  /** Outside a class, plain lines are copied to the output, normalised. */
  lemma {:induction false} PassThrough(s: State, lines: seq<string>, scope: Scope)
    requires Outside(s)
    requires forall k :: 0 <= k < |lines| ==> Plain(lines[k])
    ensures Run(s, lines, scope) == Next(s.(fileContent := s.fileContent + NormalizedText(lines)))
    decreases |lines|
  {
    if |lines| == 0 {
      assert s.fileContent + "" == s.fileContent;
    } else {
      var x := Normalize(lines[0]);
      var rest := NormalizedText(lines[1..]);
      var t := s.(fileContent := s.fileContent + x);
      StepPlainOutside(s, lines[0], scope);
      RunCons(s, t, lines, scope);
      assert t.flags == s.flags;
      PassThrough(t, lines[1..], scope);
      assert NormalizedText(lines) == x + rest;
      ConcatAssoc(s.fileContent, x, rest);
    }
  }

  /** A step that continues hands the rest of the lines to the loop. */
  lemma RunCons(s: State, t: State, lines: seq<string>, scope: Scope)
    requires |lines| > 0 && Step(s, lines[0], scope) == Next(t)
    ensures Run(s, lines, scope) == Run(t, lines[1..], scope)
  {
  }

  lemma ConcatAssoc(a: string, b: string, c: string)
    ensures a + b + c == a + (b + c)
  {
  }

  /** A file without a class or an include comes out as its normalised text. */
  lemma NoClassFile(lines: seq<string>, scope: Scope)
    requires forall k :: 0 <= k < |lines| ==> Plain(lines[k])
    ensures Parse(lines, scope) == Ok(NormalizedText(lines))
  {
    NoClassRun(lines, scope);
    ParseOfNext(lines, scope, Initial.(fileContent := NormalizedText(lines)));
  }

  lemma NoClassRun(lines: seq<string>, scope: Scope)
    requires forall k :: 0 <= k < |lines| ==> Plain(lines[k])
    ensures Run(Initial, lines, scope) == Next(Initial.(fileContent := NormalizedText(lines)))
  {
    PassThrough(Initial, lines, scope);
    assert Initial.fileContent + NormalizedText(lines) == NormalizedText(lines);
  }

  /** A run that reads every line yields the output it has built. */
  lemma ParseOfNext(lines: seq<string>, scope: Scope, t: State)
    requires Run(Initial, lines, scope) == Next(t)
    ensures Parse(lines, scope) == Ok(t.fileContent)
  {
  }

  /** A line that stays inside a Storage definition. */
  predicate StorageBodyLine(raw: string) {
    Plain(raw) && !StartsWith(Normalize(raw), "}")
  }

  /** Everything inside a Storage definition is dropped. */
  lemma {:induction false} StorageDropped(s: State, lines: seq<string>, scope: Scope)
    requires s.inStorage && !s.inXData
    requires forall k :: 0 <= k < |lines| ==> StorageBodyLine(lines[k])
    ensures Run(s, lines, scope) == Next(s)
    decreases |lines|
  {
    if |lines| > 0 {
      assert Step(s, lines[0], scope) == Next(s);
      StorageDropped(s, lines[1..], scope);
    }
  }

  /** A line with a visible character is not blank. */
  lemma VisibleIsNonBlank(line: string, j: nat)
    requires j < |line| && !IsSpace(line[j])
    ensures NonBlank(line)
  {
    var n := Lead(line, IsSpace);
    var t := line[n..];
    assert j >= n;
    assert t[j - n] == line[j];
    assert Trail(t, IsSpace) < |t|;
    assert |Strip(line)| == |t| - Trail(t, IsSpace);
  }

  /** A line holding a comment is not blank. */
  lemma CommentIsNonBlank(line: string)
    ensures CommentText(line).Some? ==> NonBlank(line)
  {
    if CommentSearch(line).Some? {
      var i := CommentSearch(line).value.0;
      assert i < |line| && line[i] == '/' by {
        assert MatchAt(line, "//", i) || MatchAt(line, "/*", i);
        assert line[i] == line[i..i + 2][0];
      }
      VisibleIsNonBlank(line, i);
    }
  }

  /** A blank line starts with no visible character. */
  lemma BlankStartsWithSpace(line: string)
    ensures !NonBlank(line) ==> |line| == 0 || IsSpace(line[0])
  {
    if |line| > 0 && !IsSpace(line[0]) {
      VisibleIsNonBlank(line, 0);
    }
  }

  /** Inside a class, with no block open, a line that is neither a header nor
      a member is read by `CommentOrText`. */
  lemma StepInClassText(s: State, raw: string, scope: Scope)
    requires s.inClass && !s.inXData && !s.inStorage && !s.inClassMethod && !s.inMethod
    requires var line := Normalize(raw);
      && !StartsWith(line, "Class ") && !StartsWith(line, "Include ") && !MemberLine(line) && !MethodLine(line)
      && !StartsWith(line, "XData ") && !StartsWith(line, "Storage ") && !StartsWith(line, "}")
    ensures Step(s, raw, scope) == Next(CommentOrText(s, Normalize(raw)))
  {
    assert Step(s, raw, scope) == ClassBody(s, Normalize(raw), scope);
  }

  /** Inside a class, a blank line writes the pending comments to the output. */
  lemma BlankLineFlushesComments(s: State, raw: string, scope: Scope)
    requires s.inClass && !s.inXData && !s.inStorage && !s.inClassMethod && !s.inMethod && !s.inCommentBlock
    requires !NonBlank(Normalize(raw))
    ensures Step(s, raw, scope) ==
              if NonBlank(s.comments) then Next(s.(fileContent := s.fileContent + s.comments, comments := ""))
              else Next(s)
  {
    var line := Normalize(raw);
    BlankLineIsText(line);
    StepInClassText(s, raw, scope);
  }

  /** A blank line matches none of the line prefixes the loop tests. */
  lemma BlankLineIsText(line: string)
    requires !NonBlank(line)
    ensures CommentText(line).None?
    ensures && !StartsWith(line, "Class ") && !StartsWith(line, "Include ") && !MemberLine(line) && !MethodLine(line)
            && !StartsWith(line, "XData ") && !StartsWith(line, "Storage ") && !StartsWith(line, "}")
            && !StartsWith(line, "/*")
  {
    CommentIsNonBlank(line);
    BlankStartsWithSpace(line);
  }

  // ---------------------------------------------------------------------------
  // a Method whose signature mentions `static`
  // ---------------------------------------------------------------------------

  /** The closing brace decides which block it ends by looking for `static`
      anywhere in the signature, so a Method whose name or return type holds
      that text (for example `Method staticData()`) is never closed: every
      later line, the class's own `}` included, is read as part of its body. */
  lemma StaticNamedMethodStaysOpen(s: State, raw: string, scope: Scope)
    requires s.inMethod && !s.inClassMethod && !s.inXData && !s.inStorage
    requires Contains(s.methodSignature, "static")
    requires var line := Normalize(raw);
      StartsWith(line, "}") && !StartsWith(line, "Class ") && !StartsWith(line, "Include ")
    ensures Step(s, raw, scope).Next? && Step(s, raw, scope).state.inMethod
  {
    assert !StartsWith(Normalize(raw), "{") by {
      assert Normalize(raw)[0] == '}';
    }
  }
}

=== FILE: handlers.dfy ===
/** The filter's mutable state and the `handle_*` functions that update it
    (cachefilter.py:19-46 and 250-484, doxyfilter_cache.py:377-657).

    The Python scripts keep this state in module-level variables; here it is
    one immutable record and every handler returns the updated record. */
module Handlers {
  import opened Results
  import opened PyStr
  import opened StrFacts
  import opened TokenFacts
  import opened CommentPatterns
  import opened Members

  /** The boolean module-level variables of the filter.  `PrivateMethod` and
      `AbstractMethod` keep only the truthiness of the `check_keyword` result
      stored in them, which is all `handle_method` reads. */
  datatype Flag =
    | InClass | InClassMethod | InMethod | InXData | InStorage
    | InCommentBlock | InXDataContent | InXDataCss
    | PrivateMethod | AbstractMethod

  /** The module-level variables of the filter: the boolean ones as the set
      of flags that hold `True`, the string ones as fields. */
  datatype State = State(
    flags: set<Flag>,
    // output and pending buffers
    fileContent: string,
    classContent: string,
    methodContent: string,
    methodSignature: string,
    xdataSignature: string,
    parameterContent: string,
    propertyContent: string,
    xdataContent: string,
    indexContent: string,
    comments: string,
    publicContent: string,
    privateContent: string,
    // the current XData block's mimetype
    xdataMimetype: string)
  {
    const inClass := InClass in flags
    const inClassMethod := InClassMethod in flags
    const inMethod := InMethod in flags
    const inXData := InXData in flags
    const inStorage := InStorage in flags
    const inCommentBlock := InCommentBlock in flags
    const inXDataContent := InXDataContent in flags
    const inXDataCss := InXDataCss in flags
    const privateMethod := PrivateMethod in flags
    const abstractMethod := AbstractMethod in flags

  }

  /** `r` holds the same flags as `s`, apart from those in `changed`. */
  predicate SameFlagsBut(s: State, r: State, changed: set<Flag>) {
    r.flags - changed == s.flags - changed
  }

  const PublicHeader := "public:\n\n"
  const PrivateHeader := "private:\n\n"

  /** The state before the first line is read. */
  const Initial := State({}, "", "", "", "", "", "", "", "", "", "", PublicHeader, PrivateHeader, "")

  /** `append_line(target, line)` with the default `indent = True`. */
  function Indented(line: string): string {
    Indentation + line
  }

  /** `after` is `before` with `block` and a blank line appended: how every
      finished member reaches the public or private section. */
  predicate Emits(before: string, after: string, block: string) {
    after == before + block + "\n\n"
  }

  // ---------------------------------------------------------------------------
  // handle_class (cachefilter.py:250-269, doxyfilter_cache.py:377-403)
  // ---------------------------------------------------------------------------

  /** `full.split(".")[-1]`: the class name without its package. */
  function ClassName(full: string): (r: string)
    // the text after the last `.`, or the whole name when it has none
    ensures '.' !in r && |r| <= |full| && full[|full| - |r|..] == r
    ensures |r| == |full| || full[|full| - |r| - 1] == '.'
  {
    var parts := Split(full, ".");
    SplitPartsLackSep(full, ".");
    ContainsChar(parts[|parts| - 1], '.');
    assert "." == ['.'];
    SplitLastSuffix(full, ".");
    var r := parts[|parts| - 1];
    assert |r| < |full| ==> full[|full| - |r| - 1] == full[|full| - |r| - 1..|full| - |r|][0];
    r
  }

  /** The superclasses after `Extends`, up to the first `[`, with the
      surrounding parentheses and whitespace removed. */
  function SuperClasses(line: string): seq<string>
    requires Contains(line, "Extends")
  {
    StripEach(Split(StripChars(Strip(Before(SplitSecond(line, "Extends"), "[")), "()"), ","))
  }

  /** `" public A, public B,"` for the superclasses `[A, B]`. */
  function InheritanceList(bases: seq<string>): string {
    if |bases| == 0 then "" else " public " + bases[0] + "," + InheritanceList(bases[1..])
  }

  /** `public <base>` for each superclass. */
  function Publicised(bases: seq<string>): seq<string> {
    seq(|bases|, k requires 0 <= k < |bases| => "public " + bases[k])
  }

  /** No superclass holds a comma: they are the fields of a split on `,`. */
  lemma SuperClassesLackComma(line: string)
    requires Contains(line, "Extends")
    ensures |SuperClasses(line)| > 0
    ensures forall k :: 0 <= k < |SuperClasses(line)| ==> ',' !in SuperClasses(line)[k]
  {
    var x := StripChars(Strip(Before(SplitSecond(line, "Extends"), "[")), "()");
    var parts := Split(x, ",");
    SplitPartsLackSep(x, ",");
    assert "," == [','];
    forall k | 0 <= k < |parts|
      ensures ',' !in Strip(parts[k])
    {
      ContainsChar(parts[k], ',');
      CharNotInTrim(parts[k], IsSpace, ',');
    }
  }

  /** The appended ` public <base>,` pieces, as a join. */
  lemma {:induction false} InheritanceJoin(bases: seq<string>)
    requires |bases| > 0
    ensures InheritanceList(bases) == " " + Join(Publicised(bases), ", ") + ","
    decreases |bases|
  {
    if |bases| > 1 {
      InheritanceJoin(bases[1..]);
      assert Publicised(bases)[1..] == Publicised(bases[1..]);
      assert Publicised(bases)[0] == "public " + bases[0];
    } else {
      assert Publicised(bases) == ["public " + bases[0]];
      assert InheritanceList(bases[1..]) == "";
    }
  }

  /** `strip(",")` removes exactly the final comma of a text that neither
      starts nor otherwise ends with one. */
  lemma StripFinalComma(x: string)
    requires |x| > 0 && x[0] != ',' && x[|x| - 1] != ','
    ensures StripChars(x + ",", ",") == x
  {
    var s := x + ",";
    assert s[0] == x[0];
    assert s[|s| - 1] == ',';
    assert s[..|s| - 1] == x;
    assert s[|s| - 2] == x[|x| - 1];
  }

  /** A join of `public <base>` entries does not end in a comma. */
  lemma PublicisedEnd(bases: seq<string>)
    requires |bases| > 0
    requires forall k :: 0 <= k < |bases| ==> ',' !in bases[k]
    ensures var j := Join(Publicised(bases), ", "); |j| > 0 && j[|j| - 1] != ','
  {
    var ps := Publicised(bases);
    JoinEnds(ps, ", ");
    var b := bases[|bases| - 1];
    var last := ps[|ps| - 1];
    assert last == "public " + b;
    if |b| > 0 {
      assert last[|last| - 1] == b[|b| - 1];
    }
  }

  lemma HeaderShape(def: string, il: string, j: string)
    requires il == " " + j + ","
    ensures def + (" :" + il) == def + " : " + j + ","
  {
  }

  /** The header with the inheritance list appended and the comma stripped. */
  lemma ClassHeaderJoin(def: string, bases: seq<string>)
    requires StartsWith(def, "class") && |bases| > 0
    requires forall k :: 0 <= k < |bases| ==> ',' !in bases[k]
    ensures StripChars(def + (" :" + InheritanceList(bases)), ",") == def + " : " + Join(Publicised(bases), ", ")
  {
    InheritanceJoin(bases);
    var j := Join(Publicised(bases), ", ");
    HeaderShape(def, InheritanceList(bases), j);
    PublicisedEnd(bases);
    var x := def + " : " + j;
    assert x[|x| - 1] == j[|j| - 1];
    assert x[0] == def[..5][0];
    StripFinalComma(x);
  }

  /** The class header line: `class <full name>`, followed, when the class
      extends others, by ` : public A, public B` (the trailing comma stripped). */
  function ClassDefinition(line: string, full: string): (r: string)
    ensures StartsWith(r, "class")
    ensures !Contains(line, "Extends") ==> r == Strip("class " + full)
    // one `public` base per superclass, separated by commas, none left over
    ensures Contains(line, "Extends") ==>
              r == Strip("class " + full) + " : " + Join(Publicised(SuperClasses(line)), ", ")
  {
    var def := Strip("class " + full);
    TrimKeepsHead("class " + full, IsSpace, "class");
    if Contains(line, "Extends") then
      var more := " :" + InheritanceList(SuperClasses(line));
      var d := def + more;
      HeaderKeepsClass(def, more);
      SuperClassesLackComma(line);
      ClassHeaderJoin(def, SuperClasses(line));
      StripChars(d, ",")
    else def
  }

  /** Appending to a header and stripping commas keeps its leading `class`. */
  lemma HeaderKeepsClass(def: string, more: string)
    requires StartsWith(def, "class")
    ensures StartsWith(StripChars(def + more, ","), "class")
  {
    assert (def + more)[..5] == def[..5];
    TrimKeepsHead(def + more, c => c in ",", "class");
  }

  /** `handle_class(line)` */
  function HandleClass(s: State, line: string): (r: Result<State>)
    ensures r.Ok? <==> Contains(line, " ") && CheckKeyword(line, "Abstract").Ok?
    // the class header replaces whatever `class_content` held
    ensures r.Ok? ==> StartsWith(r.value.classContent, "class") && r.value.classContent[|r.value.classContent| - 1] == '\n'
    ensures r.Ok? ==> r.value.classContent == ClassDefinition(line, SplitSecond(line, " ")) + "\n"
    // an Abstract class gets a pure virtual destructor in the public section
    ensures r.Ok? ==>
              r.value.publicContent ==
                s.publicContent + (if CheckKeyword(line, "Abstract").value.Truthy()
                                   then Indented("virtual ~" + ClassName(SplitSecond(line, " ")) + "() = 0;\n\n")
                                   else "")
    // nothing else changes
    ensures r.Ok? ==> r.value.(classContent := s.classContent, publicContent := s.publicContent) == s
  {
    SplitHasSecond(line, " ");
    if !Contains(line, " ") then Error
    else
      var full := SplitSecond(line, " ");
      var isAbstract :- CheckKeyword(line, "Abstract");
      var public :=
        if isAbstract.Truthy() then s.publicContent + Indented("virtual ~" + ClassName(full) + "() = 0;\n\n")
        else s.publicContent;
      var def := ClassDefinition(line, full);
      HeaderLine(def);
      Ok(s.(publicContent := public, classContent := def + "\n"))
  }

  /** The class header, terminated by a newline. */
  lemma HeaderLine(def: string)
    requires StartsWith(def, "class")
    ensures StartsWith(def + "\n", "class") && (def + "\n")[|def + "\n"| - 1] == '\n'
  {
    assert (def + "\n")[..5] == def[..5];
  }

  // ---------------------------------------------------------------------------
  // handle_param_or_property (cachefilter.py:283-363, doxyfilter_cache.py:426-512)
  // ---------------------------------------------------------------------------

  /** `comment_pattern.search(line).group(0)`, or `""` when nothing matches. */
  function CommentOf(line: string): string {
    match CommentText(line)
    case None => ""
    case Some(c) => c
  }

  /** The pseudo-C++ declaration of a Parameter (a constant) or a Property. */
  function MemberDeclaration(d: MemberDecl, comment: string): string {
    if d.kind == "Parameter" then "const " + d.typ + " " + d.name + " = " + d.value + "; " + comment + "\n"
    else d.typ + " " + d.name + "; " + comment + "\n"
  }

  /** The block a Parameter or Property contributes: its pending comments,
      its metadata lines and its declaration, re-indented. */
  function MemberBlock(pending: string, line: string, d: MemberDecl, meta: string): string {
    IndentBlock(pending + meta + MemberDeclaration(d, CommentOf(line)))
  }

  /** `handle_param_or_property(line)` */
  function HandleParamOrProperty(s: State, line: string): (r: Result<State>)
    ensures r.Error? <==>
              || ParseMemberDecl(line).Error?
              || ExtractAdditionalData(line).Error?
              || (ParseMemberDecl(line).value.kind == "Property" && CheckKeyword(line, "Private").Error?)
    // a Parameter always lands in the public section
    ensures r.Ok? && ParseMemberDecl(line).value.kind == "Parameter" ==>
              && Emits(s.publicContent, r.value.publicContent,
                       MemberBlock(s.parameterContent, line, ParseMemberDecl(line).value, ExtractAdditionalData(line).value))
              && r.value == s.(parameterContent := "", publicContent := r.value.publicContent)
    // a Property lands in the private section exactly when it carries the Private keyword
    ensures r.Ok? && ParseMemberDecl(line).value.kind == "Property" ==>
              var block := MemberBlock(s.propertyContent, line, ParseMemberDecl(line).value, ExtractAdditionalData(line).value);
              if CheckKeyword(line, "Private").value.Truthy() then
                Emits(s.privateContent, r.value.privateContent, block)
                && r.value == s.(propertyContent := "", privateContent := r.value.privateContent)
              else
                Emits(s.publicContent, r.value.publicContent, block)
                && r.value == s.(propertyContent := "", publicContent := r.value.publicContent)
    ensures r.Ok? ==>
              r.value == s.(parameterContent := r.value.parameterContent, propertyContent := r.value.propertyContent,
                            publicContent := r.value.publicContent, privateContent := r.value.privateContent)
  {
    var d :- ParseMemberDecl(line);
    var meta :- ExtractAdditionalData(line);
    if d.kind == "Parameter" then
      var block := MemberBlock(s.parameterContent, line, d, meta);
      Ok(s.(parameterContent := "", publicContent := s.publicContent + block + "\n\n"))
    else
      var block := MemberBlock(s.propertyContent, line, d, meta);
      var isPrivate :- CheckKeyword(line, "Private");
      if isPrivate.Truthy() then
        Ok(s.(propertyContent := "", privateContent := s.privateContent + block + "\n\n"))
      else
        Ok(s.(propertyContent := "", publicContent := s.publicContent + block + "\n\n"))
  }

  // ---------------------------------------------------------------------------
  // handle_index (cachefilter.py:365-385, doxyfilter_cache.py:514-540)
  // ---------------------------------------------------------------------------

  /** The index name: the second token, stripped of `;`. */
  function IndexName(line: string): string
    requires |Tokens(line)| >= 2
  {
    StripChars(Strip(Tokens(line)[1]), ";")
  }

  /** `handle_index(line)` */
  function HandleIndex(s: State, line: string): (r: Result<State>)
    ensures r.Error? <==>
              |Tokens(line)| < 2 || Tokens(line)[0] != "Index" || ExtractAdditionalData(line).Error?
    // the index goes to the public section, with its metadata before it
    ensures r.Ok? ==>
              && Emits(s.publicContent, r.value.publicContent,
                       IndentBlock(s.indexContent + ExtractAdditionalData(line).value + "Index " + IndexName(line) + ";"))
              && r.value == s.(indexContent := "", publicContent := r.value.publicContent)
  {
    var data := Tokens(line);
    if |data| == 0 || data[0] != "Index" || |data| == 1 then Error
    else
      var meta :- ExtractAdditionalData(line);
      var block := IndentBlock(s.indexContent + meta + "Index " + IndexName(line) + ";");
      Ok(s.(indexContent := "", publicContent := s.publicContent + block + "\n\n"))
  }

  // ---------------------------------------------------------------------------
  // handle_method (cachefilter.py:387-431, doxyfilter_cache.py:542-592)
  // ---------------------------------------------------------------------------

  const AbstractNote := "/// Note: this is an Abstract method\n"

  /** What a finished method adds to its section: the Abstract note, when
      flagged, then the re-indented method block and a blank line. */
  function MethodEntry(abstractMethod: bool, body: string): string {
    (if abstractMethod then Indented(AbstractNote) else "") + IndentBlock(body) + "\n\n"
  }

  /** The closing `}` of a method: the collected block is emitted to the
      section `privateMethod` selects, and the method state is reset. */
  function CloseMethod(s: State, line: string): (r: State)
    ensures s.privateMethod ==>
              r.privateContent == s.privateContent + MethodEntry(s.abstractMethod, s.methodContent + line)
              && r.publicContent == s.publicContent
    ensures !s.privateMethod ==>
              r.publicContent == s.publicContent + MethodEntry(s.abstractMethod, s.methodContent + line)
              && r.privateContent == s.privateContent
    ensures !r.privateMethod && !r.abstractMethod && r.methodContent == "" && r.methodSignature == ""
    // a signature mentioning `static` closes the ClassMethod block, any other the Method block
    ensures Contains(s.methodSignature, "static") ==> !r.inClassMethod && r.inMethod == s.inMethod
    ensures !Contains(s.methodSignature, "static") ==> !r.inMethod && r.inClassMethod == s.inClassMethod
    ensures r.flags <= s.flags && SameFlagsBut(s, r, {PrivateMethod, AbstractMethod, InClassMethod, InMethod})
    ensures r == s.(flags := r.flags, privateContent := r.privateContent, publicContent := r.publicContent,
                    methodContent := "", methodSignature := "")
  {
    var entry := MethodEntry(s.abstractMethod, s.methodContent + line);
    var closed := if Contains(s.methodSignature, "static") then InClassMethod else InMethod;
    s.(flags := s.flags - {PrivateMethod, AbstractMethod, closed},
       privateContent := if s.privateMethod then s.privateContent + entry else s.privateContent,
       publicContent := if s.privateMethod then s.publicContent else s.publicContent + entry,
       methodContent := "", methodSignature := "")
  }

  /** `handle_method(line)`: the body of a method is reduced to its braces
      and its comments. */
  function HandleMethod(s: State, line: string): (r: State)
    ensures StartsWith(line, "{") ==> r == s.(methodContent := s.methodContent + line)
    ensures !StartsWith(line, "{") && StartsWith(line, "}") ==> r == CloseMethod(s, line)
    // any other line contributes at most its first comment, as a `///` line
    ensures !StartsWith(line, "{") && !StartsWith(line, "}") ==>
              match MethodBodyComment(line)
              case None => r == s
              case Some(c) => r == s.(methodContent := s.methodContent + Indented(c + "\n"))
    // a line of the body only ever lowers flags
    ensures r.flags <= s.flags && SameFlagsBut(s, r, {PrivateMethod, AbstractMethod, InClassMethod, InMethod})
    ensures r == s.(flags := r.flags, methodContent := r.methodContent, privateContent := r.privateContent,
                    publicContent := r.publicContent, methodSignature := r.methodSignature)
  {
    if StartsWith(line, "{") then s.(methodContent := s.methodContent + line)
    else if StartsWith(line, "}") then CloseMethod(s, line)
    else
      match MethodBodyComment(line)
      case None => s
      case Some(c) => s.(methodContent := s.methodContent + Indented(c + "\n"))
  }

  // ---------------------------------------------------------------------------
  // handle_xdata (cachefilter.py:433-474, doxyfilter_cache.py:594-641)
  // ---------------------------------------------------------------------------

  /** `xdata_mimetype in "application/json"`: a substring test, so the empty
      mimetype counts as JSON. */
  predicate TreatedAsJson(mimetype: string) {
    Contains("application/json", mimetype)
  }

  /** A line of XData content, quoted as a `///` line: the line's own text
      is kept, only its newline moves to the end of the quote. */
  function Quoted(line: string): (r: string)
    ensures StartsWith(r, "/// ") && r[|r| - 1] == '\n'
    ensures '\n' !in line ==> r == "/// " + line + "\n"
    ensures |line| > 0 && line[|line| - 1] == '\n' && '\n' !in line[..|line| - 1] ==>
              r == "/// " + line[..|line| - 1] + "\n"
  {
    StripNewline(line);
    "/// " + StripChars(line, "\n") + "\n"
  }

  /** The closing `}` of the XData block: the fence and the signature close
      the quoted content, which is re-indented into the public section. */
  function CloseXData(s: State): (r: State)
    ensures !r.inXData && !r.inXDataContent
    ensures Emits(s.publicContent, r.publicContent, IndentBlock(s.xdataContent + "/// ```\n" + s.xdataSignature))
    ensures r.xdataContent == IndentBlock(s.xdataContent + "/// ```\n" + s.xdataSignature)
    ensures SameFlagsBut(s, r, {InXData, InXDataContent})
    ensures r == s.(flags := r.flags, xdataContent := r.xdataContent, publicContent := r.publicContent)
  {
    var content := IndentBlock(s.xdataContent + "/// ```\n" + s.xdataSignature);
    s.(flags := s.flags - {InXData, InXDataContent}, xdataContent := content,
       publicContent := s.publicContent + content + "\n\n")
  }

  /** `handle_xdata(line)` */
  function HandleXData(s: State, line: string): (r: State)
    // the first `{` opens the quoted content with a code fence
    ensures StartsWith(line, "{") && !s.inXDataContent ==>
              r == s.(flags := s.flags + {InXDataContent}, xdataContent := s.xdataContent + "/// XData content:\n/// ```\n")
    // only JSON content keeps its inner braces
    ensures StartsWith(line, "{") && s.inXDataContent ==>
              r == (if TreatedAsJson(s.xdataMimetype) then s.(xdataContent := s.xdataContent + Quoted(line)) else s)
    ensures !StartsWith(line, "{") && StartsWith(line, "<style") ==>
              r == s.(flags := s.flags + {InXDataCss}, xdataContent := s.xdataContent + Quoted(line))
    ensures !StartsWith(line, "{") && !StartsWith(line, "<style") && StartsWith(line, "</style>") ==>
              r == s.(flags := s.flags - {InXDataCss}, xdataContent := s.xdataContent + Quoted(line))
    // a `}` ends the block unless it closes CSS or a JSON object
    ensures !StartsWith(line, "{") && !StartsWith(line, "<style") && !StartsWith(line, "</style>") && StartsWith(line, "}") ==>
              if s.inXDataCss then r == s.(xdataContent := s.xdataContent + Quoted(line))
              else if s.inXDataContent && TreatedAsJson(s.xdataMimetype) then
                r == s.(flags := s.flags - {InXDataContent}, xdataContent := s.xdataContent + Quoted(line))
              else r == CloseXData(s)
    // every other line is quoted verbatim
    ensures !StartsWith(line, "{") && !StartsWith(line, "<style") && !StartsWith(line, "</style>") && !StartsWith(line, "}") ==>
              r == s.(xdataContent := s.xdataContent + Quoted(line))
    // the block ends only on a `}`
    ensures s.inXData && !r.inXData ==> StartsWith(line, "}")
    ensures r.inXData ==> s.inXData
    ensures SameFlagsBut(s, r, {InXData, InXDataContent, InXDataCss})
    ensures r == s.(flags := r.flags, xdataContent := r.xdataContent, publicContent := r.publicContent)
  {
    if StartsWith(line, "{") then
      if !s.inXDataContent then
        s.(flags := s.flags + {InXDataContent}, xdataContent := s.xdataContent + "/// XData content:\n/// ```\n")
      else if TreatedAsJson(s.xdataMimetype) then s.(xdataContent := s.xdataContent + Quoted(line))
      else s
    else if StartsWith(line, "<style") then
      s.(flags := s.flags + {InXDataCss}, xdataContent := s.xdataContent + Quoted(line))
    else if StartsWith(line, "</style>") then
      s.(flags := s.flags - {InXDataCss}, xdataContent := s.xdataContent + Quoted(line))
    else if StartsWith(line, "}") then
      if s.inXDataCss then s.(xdataContent := s.xdataContent + Quoted(line))
      else if s.inXDataContent && TreatedAsJson(s.xdataMimetype) then
        s.(flags := s.flags - {InXDataContent}, xdataContent := s.xdataContent + Quoted(line))
      else CloseXData(s)
    else s.(xdataContent := s.xdataContent + Quoted(line))
  }

  // ---------------------------------------------------------------------------
  // handle_storage (cachefilter.py:476-484, doxyfilter_cache.py:643-657)
  // ---------------------------------------------------------------------------

  /** `handle_storage(line)`: the storage definition is dropped; a line
      starting with `}` ends it. */
  function HandleStorage(s: State, line: string): (r: State)
    ensures r.inStorage <==> s.inStorage && !StartsWith(line, "}")
    ensures SameFlagsBut(s, r, {InStorage})
    ensures r == s.(flags := r.flags)
  {
    if StartsWith(line, "{") then s
    else if StartsWith(line, "}") then s.(flags := s.flags - {InStorage})
    else s
  }
}

=== FILE: invariants.dfy ===
/** What every pass of the line loop preserves: the output and the two
    access sections are only ever appended to, at most one block is open and
    only inside a class, and in doxyfilter_cache.py the three variables
    `parse` shadows keep their initial values.  Each property is shown for
    every handler, then for one pass of the loop, then for a whole run. */
module Invariants {
  import opened Results
  import opened PyStr
  import opened Members
  import opened Handlers
  import opened Filter

  lemma AppendExtends(a: string, b: string)
    ensures StartsWith(a + b, a)
  {
    assert (a + b)[..|a|] == a;
  }

  lemma StartsWithTrans(a: string, b: string, c: string)
    requires StartsWith(b, a) && StartsWith(c, b)
    ensures StartsWith(c, a)
  {
    assert c[..|a|] == c[..|b|][..|a|];
  }

  // ---------------------------------------------------------------------------
  // the output and the two sections only grow
  // ---------------------------------------------------------------------------

  /** `t` extends `s`: the output text and both access sections of `t` begin
      with those of `s`. */
  predicate Grows(s: State, t: State) {
    && StartsWith(t.fileContent, s.fileContent)
    && StartsWith(t.publicContent, s.publicContent)
    && StartsWith(t.privateContent, s.privateContent)
  }

  lemma GrowsRefl(s: State)
    ensures Grows(s, s)
  {
    AppendExtends(s.fileContent, "");
    AppendExtends(s.publicContent, "");
    AppendExtends(s.privateContent, "");
    assert s.fileContent + "" == s.fileContent;
    assert s.publicContent + "" == s.publicContent;
    assert s.privateContent + "" == s.privateContent;
  }

  lemma GrowsTrans(s: State, t: State, u: State)
    requires Grows(s, t) && Grows(t, u)
    ensures Grows(s, u)
  {
    StartsWithTrans(s.fileContent, t.fileContent, u.fileContent);
    StartsWithTrans(s.publicContent, t.publicContent, u.publicContent);
    StartsWithTrans(s.privateContent, t.privateContent, u.privateContent);
  }

  /** Appending to the output and to one section keeps `Grows`. */
  lemma GrowsByAppend(s: State, t: State, f: string, pub: string, priv: string)
    requires t.fileContent == s.fileContent + f
    requires t.publicContent == s.publicContent + pub
    requires t.privateContent == s.privateContent + priv
    ensures Grows(s, t)
  {
    AppendExtends(s.fileContent, f);
    AppendExtends(s.publicContent, pub);
    AppendExtends(s.privateContent, priv);
  }

  /** A state that leaves the output and both sections as they are. */
  lemma GrowsBySame(s: State, t: State)
    requires t.fileContent == s.fileContent && t.publicContent == s.publicContent
    requires t.privateContent == s.privateContent
    ensures Grows(s, t)
  {
    GrowsRefl(s);
  }

  /** A section that `Emits` a block keeps its old text as a prefix. */
  lemma EmitsExtends(before: string, after: string)
    requires exists block :: Emits(before, after, block)
    ensures StartsWith(after, before)
  {
    var block :| Emits(before, after, block);
    AppendExtends(before, block);
    AppendExtends(before + block, "\n\n");
    StartsWithTrans(before, before + block, after);
  }

  lemma ClassHeaderGrows(s: State, line: string)
    ensures HandleClass(s, line).Error? || Grows(s, HandleClass(s, line).value)
  {
    var r := HandleClass(s, line);
    if r.Ok? {
      AppendExtends(s.publicContent, r.value.publicContent[|s.publicContent|..]);
      assert s.publicContent + r.value.publicContent[|s.publicContent|..] == r.value.publicContent;
      GrowsRefl(s);
    }
  }

  lemma ParamOrPropertyGrows(s: State, line: string)
    ensures HandleParamOrProperty(s, line).Error? || Grows(s, HandleParamOrProperty(s, line).value)
  {
    var r := HandleParamOrProperty(s, line);
    if r.Ok? {
      var t := r.value;
      GrowsRefl(s);
      if t.publicContent == s.publicContent {
        EmitsExtends(s.privateContent, t.privateContent);
      } else {
        EmitsExtends(s.publicContent, t.publicContent);
      }
    }
  }

  lemma IndexGrows(s: State, line: string)
    ensures HandleIndex(s, line).Error? || Grows(s, HandleIndex(s, line).value)
  {
    var r := HandleIndex(s, line);
    if r.Ok? {
      GrowsRefl(s);
      EmitsExtends(s.publicContent, r.value.publicContent);
    }
  }

  lemma CloseClassGrows(s: State, line: string)
    ensures Grows(s, CloseClass(s, line))
  {
    var t := CloseClass(s, line);
    var pending := if NonBlank(s.comments) then s.comments + "\n" else "";
    AppendExtends(s.fileContent, pending);
    AppendExtends(s.fileContent + pending, t.classContent);
    StartsWithTrans(s.fileContent, s.fileContent + pending, t.fileContent);
    GrowsRefl(s);
  }

  lemma CommentOrTextGrows(s: State, line: string)
    ensures Grows(s, CommentOrText(s, line))
  {
    var t := CommentOrText(s, line);
    if t.fileContent == s.fileContent {
      GrowsBySame(s, t);
    } else {
      GrowsByAppend(s, t, s.comments, "", "");
    }
  }

  lemma XDataGrows(s: State, line: string)
    ensures Grows(s, HandleXData(s, line))
  {
    var t := HandleXData(s, line);
    GrowsRefl(s);
    if t.publicContent != s.publicContent {
      EmitsExtends(s.publicContent, t.publicContent);
    }
  }

  lemma MethodBodyGrows(s: State, line: string)
    ensures Grows(s, HandleMethod(s, line))
  {
    var t := HandleMethod(s, line);
    if !StartsWith(line, "{") && StartsWith(line, "}") {
      var entry := MethodEntry(s.abstractMethod, s.methodContent + line);
      if s.privateMethod {
        GrowsByAppend(s, t, "", "", entry);
      } else {
        GrowsByAppend(s, t, "", entry, "");
      }
    } else {
      GrowsBySame(s, t);
    }
  }

  lemma ClassBodyGrows(s: State, line: string, scope: Scope)
    ensures ClassBody(s, line, scope).Failed? || Grows(s, ClassBody(s, line, scope).state)
  {
    if StartsWith(line, "Property ") {
      var (pc, cs) := TakeComments(s.propertyContent, s.comments);
      ParamOrPropertyGrows(s.(propertyContent := pc, comments := cs), line);
    } else if StartsWith(line, "Parameter ") {
      var (pc, cs) := TakeComments(s.parameterContent, s.comments);
      ParamOrPropertyGrows(s.(parameterContent := pc, comments := cs), line);
    } else if StartsWith(line, "Index ") {
      var (mc, cs) := TakeComments(s.methodContent, s.comments);
      IndexGrows(s.(methodContent := mc, comments := cs), line);
    } else if StartsWith(line, "ClassMethod ") || StartsWith(line, "Method ") || StartsWith(line, "ClientMethod ")
              || StartsWith(line, "XData ") || StartsWith(line, "Storage ") {
      GrowsRefl(s);
    } else if StartsWith(line, "}") {
      CloseClassGrows(s, line);
    } else {
      CommentOrTextGrows(s, line);
    }
  }

  /** One pass of the loop only appends to the output and to the sections. */
  lemma StepGrows(s: State, raw: string, scope: Scope)
    ensures Step(s, raw, scope).Failed? || Grows(s, Step(s, raw, scope).state)
  {
    var line := Normalize(raw);
    if StartsWith(line, "Class ") {
      var c := s.(flags := s.flags + {InClass});
      assert Step(s, raw, scope) == Lift(HandleClass(c, line));
      ClassHeaderGrows(c, line);
    } else if StartsWith(line, "Include ") {
      var t := s.(fileContent := s.fileContent + "/// " + Strip(line) + "\n");
      assert Step(s, raw, scope) == Next(t);
      GrowsByAppend(s, t, "/// " + Strip(line) + "\n", "", "");
    } else {
      StepBodyGrows(s, raw, scope);
    }
  }

  /** The same for a line that is neither a class header nor an include. */
  lemma StepBodyGrows(s: State, raw: string, scope: Scope)
    requires var line := Normalize(raw); !StartsWith(line, "Class ") && !StartsWith(line, "Include ")
    ensures Step(s, raw, scope).Failed? || Grows(s, Step(s, raw, scope).state)
  {
    var line := Normalize(raw);
    if s.inXData {
      assert Step(s, raw, scope) == Next(HandleXData(s, line));
      XDataGrows(s, line);
    } else if s.inStorage {
      assert Step(s, raw, scope) == Next(HandleStorage(s, line));
      GrowsBySame(s, HandleStorage(s, line));
    } else if s.inClassMethod || s.inMethod {
      assert Step(s, raw, scope) == Next(HandleMethod(s, line));
      MethodBodyGrows(s, line);
    } else if s.inClass {
      assert Step(s, raw, scope) == ClassBody(s, line, scope);
      ClassBodyGrows(s, line, scope);
    } else {
      var t := s.(fileContent := s.fileContent + line);
      assert Step(s, raw, scope) == Next(t);
      GrowsByAppend(s, t, line, "", "");
    }
  }

  /** A run only appends to the output and to the sections. */
  lemma {:induction false} RunGrows(s: State, lines: seq<string>, scope: Scope)
    ensures Run(s, lines, scope).Failed? || Grows(s, Run(s, lines, scope).state)
    decreases |lines|
  {
    if |lines| == 0 {
      GrowsRefl(s);
    } else {
      StepGrows(s, lines[0], scope);
      match Step(s, lines[0], scope)
      case Next(t) =>
        RunGrows(t, lines[1..], scope);
        if !Run(t, lines[1..], scope).Failed? {
          GrowsTrans(s, t, Run(t, lines[1..], scope).state);
        }
      case Done(t) =>
      case Failed =>
    }
  }

  /** Both sections keep their `public:` / `private:` headers throughout, so
      the class-closing test `public_content.strip() != "public:"` compares
      against the header alone. */
  lemma RunKeepsHeaders(lines: seq<string>, scope: Scope)
    ensures Run(Initial, lines, scope).Failed? ||
              (StartsWith(Run(Initial, lines, scope).state.publicContent, PublicHeader)
               && StartsWith(Run(Initial, lines, scope).state.privateContent, PrivateHeader))
  {
    RunGrows(Initial, lines, scope);
  }

  // ---------------------------------------------------------------------------
  // at most one block is open, and only inside a class
  // ---------------------------------------------------------------------------

  /** The number of blocks open: an XData, a Storage, a ClassMethod or a
      Method block. */
  function OpenBlocks(s: State): nat {
    (if s.inXData then 1 else 0) + (if s.inStorage then 1 else 0)
    + (if s.inClassMethod then 1 else 0) + (if s.inMethod then 1 else 0)
  }

  predicate WellNested(s: State) {
    OpenBlocks(s) <= 1 && (OpenBlocks(s) > 0 ==> s.inClass)
  }

  /** A flag outside `changed` is unchanged. */
  lemma FlagKept(s: State, t: State, changed: set<Flag>, f: Flag)
    requires SameFlagsBut(s, t, changed) && f !in changed
    ensures f in t.flags <==> f in s.flags
  {
    assert f in t.flags - changed <==> f in s.flags - changed;
  }

  /** What a method header leaves of the blocks and attributes: its own block
      is open, the others and the class are as they were, and at function level
      the attributes are untouched. */
  predicate EntersMethod(s: State, t: State, block: Flag, scope: Scope) {
    && block in t.flags
    && t.inClass == s.inClass && t.inXData == s.inXData && t.inStorage == s.inStorage
    && (block != InMethod ==> t.inMethod == s.inMethod)
    && (block != InClassMethod ==> t.inClassMethod == s.inClassMethod)
    && t.xdataMimetype == s.xdataMimetype
    && (scope == FunctionLocals ==> t.privateMethod == s.privateMethod && t.abstractMethod == s.abstractMethod)
  }

  /** The flags a method header touches: it opens its block and, at module
      level only, assigns the method's attributes. */
  lemma EnterMethodFlags(s: State, block: Flag, scope: Scope, attributes: map<Flag, KeywordCheck>,
                         remark: string, meta: string, sig: string)
    requires attributes.Keys <= {PrivateMethod, AbstractMethod}
    requires block == InClassMethod || block == InMethod
    ensures EntersMethod(s, EnterMethod(s, block, scope, attributes, remark, meta, sig), block, scope)
  {
    var t := EnterMethod(s, block, scope, attributes, remark, meta, sig);
    var changed := {block} + attributes.Keys;
    FlagKept(s, t, changed, InClass);
    FlagKept(s, t, changed, InXData);
    FlagKept(s, t, changed, InStorage);
    if block != InMethod {
      FlagKept(s, t, changed, InMethod);
    }
    if block != InClassMethod {
      FlagKept(s, t, changed, InClassMethod);
    }
    if scope == FunctionLocals {
      if PrivateMethod !in attributes {
        FlagKept(s, t, changed, PrivateMethod);
      }
      if AbstractMethod !in attributes {
        FlagKept(s, t, changed, AbstractMethod);
      }
    }
  }

  /** `t` has the same blocks open as `s`. */
  predicate KeepsBlocks(s: State, t: State) {
    && t.inClass == s.inClass && t.inXData == s.inXData && t.inStorage == s.inStorage
    && t.inClassMethod == s.inClassMethod && t.inMethod == s.inMethod
  }

  /** `t` has the same method attributes and mimetype as `s`. */
  predicate KeepsLocals(s: State, t: State) {
    t.privateMethod == s.privateMethod && t.abstractMethod == s.abstractMethod && t.xdataMimetype == s.xdataMimetype
  }

  /** The condition under which `ClassBody` handles a member declaration. */
  predicate MemberLine(line: string) {
    StartsWith(line, "Property ") || StartsWith(line, "Parameter ") || StartsWith(line, "Index ")
  }

  /** The condition under which `ClassBody` opens a method. */
  predicate MethodLine(line: string) {
    StartsWith(line, "ClassMethod ") || StartsWith(line, "Method ") || StartsWith(line, "ClientMethod ")
  }

  /** Equal flags and mimetype keep every block and attribute. */
  lemma SameFlagsKeep(s: State, t: State)
    requires t.flags == s.flags && t.xdataMimetype == s.xdataMimetype
    ensures KeepsBlocks(s, t) && KeepsLocals(s, t)
  {
  }

  /** Removing or adding one flag leaves the others as they were. */
  lemma FlagsAround(flags: set<Flag>, g: Flag)
    ensures forall f :: f != g ==> (f in flags - {g} <==> f in flags)
    ensures forall f :: f != g ==> (f in flags + {g} <==> f in flags)
  {
  }

  /** Parameters, properties and indices open no block and set no attribute. */
  lemma ClassBodyMemberFlags(s: State, line: string, scope: Scope)
    requires MemberLine(line)
    ensures ClassBody(s, line, scope).Failed? ||
            (ClassBody(s, line, scope).Next? && KeepsBlocks(s, ClassBody(s, line, scope).state)
             && KeepsLocals(s, ClassBody(s, line, scope).state))
  {
    var o := ClassBody(s, line, scope);
    if StartsWith(line, "Property ") {
      var (pc, cs) := TakeComments(s.propertyContent, s.comments);
      var r := HandleParamOrProperty(s.(propertyContent := pc, comments := cs), line);
      assert o == Lift(r);
      if r.Ok? {
        assert r.value.flags == s.flags && r.value.xdataMimetype == s.xdataMimetype;
        SameFlagsKeep(s, r.value);
      }
    } else if StartsWith(line, "Parameter ") {
      var (pc, cs) := TakeComments(s.parameterContent, s.comments);
      var r := HandleParamOrProperty(s.(parameterContent := pc, comments := cs), line);
      assert o == Lift(r);
      if r.Ok? {
        assert r.value.flags == s.flags && r.value.xdataMimetype == s.xdataMimetype;
        SameFlagsKeep(s, r.value);
      }
    } else {
      var (mc, cs) := TakeComments(s.methodContent, s.comments);
      var r := HandleIndex(s.(methodContent := mc, comments := cs), line);
      assert o == Lift(r);
      if r.Ok? {
        assert r.value.flags == s.flags && r.value.xdataMimetype == s.xdataMimetype;
        SameFlagsKeep(s, r.value);
      }
    }
  }

  /** What a method header leaves of the blocks and attributes. */
  lemma OpenClassMethodFlags(s: State, line: string, scope: Scope)
    ensures OpenClassMethod(s, line, scope).Error? || EntersMethod(s, OpenClassMethod(s, line, scope).value, InClassMethod, scope)
  {
    if OpenClassMethod(s, line, scope).Ok? {
      EnterMethodFlags(s, InClassMethod, scope, map[PrivateMethod := CheckKeyword(line, "Private").value],
                       "", ExtractAdditionalData(line).value, FormatMethodSignature(line).value);
    }
  }

  /** A method header with both attributes in play. */
  lemma EnterMethodBothFlags(s: State, scope: Scope, isAbstract: KeywordCheck, isPrivate: KeywordCheck,
                             remark: string, meta: string, sig: string)
    ensures EntersMethod(s, EnterMethod(s, InMethod, scope, map[AbstractMethod := isAbstract, PrivateMethod := isPrivate],
                                        remark, meta, sig), InMethod, scope)
  {
    var attributes := map[AbstractMethod := isAbstract, PrivateMethod := isPrivate];
    assert attributes.Keys == {AbstractMethod, PrivateMethod};
    EnterMethodFlags(s, InMethod, scope, attributes, remark, meta, sig);
  }

  lemma OpenMethodFlags(s: State, line: string, scope: Scope)
    ensures OpenMethod(s, line, scope).Error? || EntersMethod(s, OpenMethod(s, line, scope).value, InMethod, scope)
  {
    if OpenMethod(s, line, scope).Ok? {
      EnterMethodBothFlags(s, scope, CheckKeyword(line, "Abstract").value, CheckKeyword(line, "Private").value,
                           if StartsWith(line, "ClientMethod ") then ClientMethodRemark else "",
                           ExtractAdditionalData(line).value, FormatMethodSignature(line).value);
    }
  }

  /** A `ClassMethod` header opens the class-method block. */
  lemma ClassBodyClassMethodFlags(s: State, line: string, scope: Scope)
    requires !MemberLine(line) && StartsWith(line, "ClassMethod ")
    ensures ClassBody(s, line, scope).Failed? ||
            (ClassBody(s, line, scope).Next? && EntersMethod(s, ClassBody(s, line, scope).state, InClassMethod, scope))
  {
    assert ClassBody(s, line, scope) == Lift(OpenClassMethod(s, line, scope));
    OpenClassMethodFlags(s, line, scope);
  }

  /** A `Method` or `ClientMethod` header opens the method block. */
  lemma ClassBodyPlainMethodFlags(s: State, line: string, scope: Scope)
    requires !MemberLine(line) && !StartsWith(line, "ClassMethod ") && MethodLine(line)
    ensures ClassBody(s, line, scope).Failed? ||
            (ClassBody(s, line, scope).Next? && EntersMethod(s, ClassBody(s, line, scope).state, InMethod, scope))
  {
    assert ClassBody(s, line, scope) == Lift(OpenMethod(s, line, scope));
    OpenMethodFlags(s, line, scope);
  }

  /** An XData or Storage header opens exactly its own block; at function
      level it sets no attribute. */
  lemma ClassBodyDataFlags(s: State, line: string, scope: Scope)
    requires !MemberLine(line) && !MethodLine(line)
    requires StartsWith(line, "XData ") || StartsWith(line, "Storage ")
    ensures var o := ClassBody(s, line, scope);
      o.Failed? ||
      (&& o.Next?
       && (o.state.inXData || o.state.inStorage)
       && o.state.inClass == s.inClass && o.state.inClassMethod == s.inClassMethod && o.state.inMethod == s.inMethod
       && (o.state.inXData && !s.inXData ==> o.state.inStorage == s.inStorage)
       && (o.state.inStorage && !s.inStorage ==> o.state.inXData == s.inXData)
       && o.state.privateMethod == s.privateMethod && o.state.abstractMethod == s.abstractMethod
       && (scope == FunctionLocals ==> o.state.xdataMimetype == s.xdataMimetype))
  {
    if StartsWith(line, "XData ") {
      FlagsAround(s.flags, InXData);
    } else {
      FlagsAround(s.flags, InStorage);
    }
  }

  /** The closing brace leaves the class and nothing else. */
  lemma ClassBodyCloseFlags(s: State, line: string, scope: Scope)
    requires !MemberLine(line) && !MethodLine(line) && !StartsWith(line, "XData ") && !StartsWith(line, "Storage ")
    requires StartsWith(line, "}")
    ensures var o := ClassBody(s, line, scope);
      && o.Done? && !o.state.inClass && o.state.inXData == s.inXData && o.state.inStorage == s.inStorage
      && o.state.inClassMethod == s.inClassMethod && o.state.inMethod == s.inMethod && KeepsLocals(s, o.state)
  {
    var t := CloseClass(s, line);
    assert ClassBody(s, line, scope) == Done(t);
    assert t.flags == s.flags - {InClass};
    assert t.xdataMimetype == s.xdataMimetype;
    FlagsAround(s.flags, InClass);
  }

  /** Comments and other lines open no block and set no attribute. */
  lemma ClassBodyTextFlags(s: State, line: string, scope: Scope)
    requires !MemberLine(line) && !MethodLine(line) && !StartsWith(line, "XData ") && !StartsWith(line, "Storage ")
    requires !StartsWith(line, "}")
    ensures var o := ClassBody(s, line, scope);
      o.Next? && KeepsBlocks(s, o.state) && KeepsLocals(s, o.state)
  {
    var t := CommentOrText(s, line);
    assert ClassBody(s, line, scope) == Next(t);
    FlagKept(s, t, {InCommentBlock}, InXData);
    FlagKept(s, t, {InCommentBlock}, InStorage);
    FlagKept(s, t, {InCommentBlock}, InClassMethod);
    FlagKept(s, t, {InCommentBlock}, InMethod);
    FlagKept(s, t, {InCommentBlock}, InClass);
    FlagKept(s, t, {InCommentBlock}, PrivateMethod);
    FlagKept(s, t, {InCommentBlock}, AbstractMethod);
  }

  /** The members of the class body open at most one block, and only from a
      state where none is open. */
  lemma ClassBodyWellNested(s: State, line: string, scope: Scope)
    requires s.inClass && OpenBlocks(s) == 0
    ensures ClassBody(s, line, scope).Failed? || WellNested(ClassBody(s, line, scope).state)
  {
    if MemberLine(line) {
      ClassBodyMemberFlags(s, line, scope);
    } else if StartsWith(line, "ClassMethod ") {
      ClassBodyClassMethodFlags(s, line, scope);
    } else if MethodLine(line) {
      ClassBodyPlainMethodFlags(s, line, scope);
    } else if StartsWith(line, "XData ") || StartsWith(line, "Storage ") {
      ClassBodyDataFlags(s, line, scope);
    } else if StartsWith(line, "}") {
      ClassBodyCloseFlags(s, line, scope);
    } else {
      ClassBodyTextFlags(s, line, scope);
    }
  }

  /** No block opens and no attribute is raised; the class stays as it was. */
  predicate Shrinks(s: State, t: State) {
    && t.inClass == s.inClass
    && (t.inXData ==> s.inXData) && (t.inStorage ==> s.inStorage)
    && (t.inClassMethod ==> s.inClassMethod) && (t.inMethod ==> s.inMethod)
    && (t.privateMethod ==> s.privateMethod) && (t.abstractMethod ==> s.abstractMethod)
    && t.xdataMimetype == s.xdataMimetype
  }

  /** Inside an XData, Storage or method block, a line only ever closes things. */
  lemma StepInBlockFlags(s: State, raw: string, scope: Scope)
    requires var line := Normalize(raw); !StartsWith(line, "Class ") && !StartsWith(line, "Include ")
    requires s.inXData || s.inStorage || s.inClassMethod || s.inMethod
    ensures Step(s, raw, scope).Next? && Shrinks(s, Step(s, raw, scope).state)
  {
    var line := Normalize(raw);
    if s.inXData {
      var t := HandleXData(s, line);
      assert Step(s, raw, scope) == Next(t);
      FlagKept(s, t, {InXData, InXDataContent, InXDataCss}, InClass);
      FlagKept(s, t, {InXData, InXDataContent, InXDataCss}, InStorage);
      FlagKept(s, t, {InXData, InXDataContent, InXDataCss}, InClassMethod);
      FlagKept(s, t, {InXData, InXDataContent, InXDataCss}, InMethod);
      FlagKept(s, t, {InXData, InXDataContent, InXDataCss}, PrivateMethod);
      FlagKept(s, t, {InXData, InXDataContent, InXDataCss}, AbstractMethod);
    } else if s.inStorage {
      var t := HandleStorage(s, line);
      assert Step(s, raw, scope) == Next(t);
      FlagKept(s, t, {InStorage}, InClass);
      FlagKept(s, t, {InStorage}, InXData);
      FlagKept(s, t, {InStorage}, InClassMethod);
      FlagKept(s, t, {InStorage}, InMethod);
      FlagKept(s, t, {InStorage}, PrivateMethod);
      FlagKept(s, t, {InStorage}, AbstractMethod);
    } else {
      var t := HandleMethod(s, line);
      assert Step(s, raw, scope) == Next(t);
      assert t.flags <= s.flags && t.xdataMimetype == s.xdataMimetype;
      FlagKept(s, t, {PrivateMethod, AbstractMethod, InClassMethod, InMethod}, InClass);
    }
  }

  /** A `Class` line enters the class; an `Include` line changes no flag. */
  lemma StepHeaderFlags(s: State, raw: string, scope: Scope)
    requires var line := Normalize(raw); StartsWith(line, "Class ") || StartsWith(line, "Include ")
    ensures var o := Step(s, raw, scope);
      o.Failed? ||
      (&& o.Next? && KeepsLocals(s, o.state)
       && o.state.inClass == (s.inClass || StartsWith(Normalize(raw), "Class "))
       && o.state.inXData == s.inXData && o.state.inStorage == s.inStorage
       && o.state.inClassMethod == s.inClassMethod && o.state.inMethod == s.inMethod)
  {
    var line := Normalize(raw);
    if StartsWith(line, "Class ") {
      var r := HandleClass(s.(flags := s.flags + {InClass}), line);
      assert Step(s, raw, scope) == Lift(r);
      ClassHeaderFlags(s, line);
    } else {
      var t := s.(fileContent := s.fileContent + "/// " + Strip(line) + "\n");
      assert Step(s, raw, scope) == Next(t);
      SameFlagsKeep(s, t);
    }
  }

  /** `handle_class` after `inside_class_block = True`: only the class flag differs. */
  lemma ClassHeaderFlags(s: State, line: string)
    ensures var r := HandleClass(s.(flags := s.flags + {InClass}), line);
      r.Error? ||
      (&& KeepsLocals(s, r.value) && r.value.inClass
       && r.value.inXData == s.inXData && r.value.inStorage == s.inStorage
       && r.value.inClassMethod == s.inClassMethod && r.value.inMethod == s.inMethod)
  {
    var c := s.(flags := s.flags + {InClass});
    HandleClassFlags(c, line);
    var r := HandleClass(c, line);
    if r.Ok? {
      AddClassFlag(s, r.value);
    }
  }

  /** `handle_class` changes no flag and not the mimetype. */
  lemma HandleClassFlags(s: State, line: string)
    ensures HandleClass(s, line).Error? ||
            (HandleClass(s, line).value.flags == s.flags && HandleClass(s, line).value.xdataMimetype == s.xdataMimetype)
  {
  }

  /** Raising the class flag leaves every other flag as it was. */
  lemma AddClassFlag(s: State, t: State)
    requires t.flags == s.flags + {InClass} && t.xdataMimetype == s.xdataMimetype
    ensures && KeepsLocals(s, t) && t.inClass
            && t.inXData == s.inXData && t.inStorage == s.inStorage
            && t.inClassMethod == s.inClassMethod && t.inMethod == s.inMethod
  {
    FlagsAround(s.flags, InClass);
  }

  /** Outside any class, a plain line changes no flag. */
  lemma StepOutsideFlags(s: State, raw: string, scope: Scope)
    requires var line := Normalize(raw); !StartsWith(line, "Class ") && !StartsWith(line, "Include ")
    requires !s.inXData && !s.inStorage && !s.inClassMethod && !s.inMethod && !s.inClass
    ensures Step(s, raw, scope).Next? && KeepsBlocks(s, Step(s, raw, scope).state)
            && KeepsLocals(s, Step(s, raw, scope).state)
  {
    var t := s.(fileContent := s.fileContent + Normalize(raw));
    assert Step(s, raw, scope) == Next(t);
    SameFlagsKeep(s, t);
  }

  lemma StepWellNested(s: State, raw: string, scope: Scope)
    requires WellNested(s)
    ensures Step(s, raw, scope).Failed? || WellNested(Step(s, raw, scope).state)
  {
    var line := Normalize(raw);
    if StartsWith(line, "Class ") || StartsWith(line, "Include ") {
      StepHeaderFlags(s, raw, scope);
    } else if s.inXData || s.inStorage || s.inClassMethod || s.inMethod {
      StepInBlockFlags(s, raw, scope);
    } else if s.inClass {
      assert Step(s, raw, scope) == ClassBody(s, line, scope);
      ClassBodyWellNested(s, line, scope);
    } else {
      StepOutsideFlags(s, raw, scope);
    }
  }

  lemma {:induction false} RunWellNested(s: State, lines: seq<string>, scope: Scope)
    requires WellNested(s)
    ensures Run(s, lines, scope).Failed? || WellNested(Run(s, lines, scope).state)
    decreases |lines|
  {
    if |lines| > 0 {
      StepWellNested(s, lines[0], scope);
      match Step(s, lines[0], scope)
      case Next(t) => RunWellNested(t, lines[1..], scope);
      case Done(t) =>
      case Failed =>
    }
  }

  // ---------------------------------------------------------------------------
  // doxyfilter_cache.py: the three locals of `parse`
  // ---------------------------------------------------------------------------

  /** The globals `parse` never assigns keep their initial values. */
  predicate LocalsUnset(s: State) {
    !s.privateMethod && !s.abstractMethod && s.xdataMimetype == ""
  }

  lemma ClassBodyLocalsUnset(s: State, line: string)
    requires LocalsUnset(s)
    ensures ClassBody(s, line, FunctionLocals).Failed? || LocalsUnset(ClassBody(s, line, FunctionLocals).state)
  {
    if MemberLine(line) {
      ClassBodyMemberFlags(s, line, FunctionLocals);
    } else if StartsWith(line, "ClassMethod ") {
      ClassBodyClassMethodFlags(s, line, FunctionLocals);
    } else if MethodLine(line) {
      ClassBodyPlainMethodFlags(s, line, FunctionLocals);
    } else if StartsWith(line, "XData ") || StartsWith(line, "Storage ") {
      ClassBodyDataFlags(s, line, FunctionLocals);
    } else if StartsWith(line, "}") {
      ClassBodyCloseFlags(s, line, FunctionLocals);
    } else {
      ClassBodyTextFlags(s, line, FunctionLocals);
    }
  }

  lemma StepLocalsUnset(s: State, raw: string)
    requires LocalsUnset(s)
    ensures Step(s, raw, FunctionLocals).Failed? || LocalsUnset(Step(s, raw, FunctionLocals).state)
  {
    var line := Normalize(raw);
    if StartsWith(line, "Class ") || StartsWith(line, "Include ") {
      StepHeaderFlags(s, raw, FunctionLocals);
    } else if s.inXData || s.inStorage || s.inClassMethod || s.inMethod {
      StepInBlockFlags(s, raw, FunctionLocals);
    } else if s.inClass {
      assert Step(s, raw, FunctionLocals) == ClassBody(s, line, FunctionLocals);
      ClassBodyLocalsUnset(s, line);
    } else {
      StepOutsideFlags(s, raw, FunctionLocals);
    }
  }

  lemma {:induction false} RunLocalsUnset(s: State, lines: seq<string>)
    requires LocalsUnset(s)
    ensures Run(s, lines, FunctionLocals).Failed? || LocalsUnset(Run(s, lines, FunctionLocals).state)
    decreases |lines|
  {
    if |lines| > 0 {
      StepLocalsUnset(s, lines[0]);
      match Step(s, lines[0], FunctionLocals)
      case Next(t) => RunLocalsUnset(t, lines[1..]);
      case Done(t) =>
      case Failed =>
    }
  }
}

=== FILE: keywordfacts.dfy ===
/** What `check_keyword` finds in a bracketed keyword list: for a Property
    or Parameter without a type, a Class header, and a method header, a
    keyword is `True` exactly when it is one of the entries between `[` and
    `]`, and `None` otherwise. */
module KeywordFacts {
  import opened Results
  import opened PyStr
  import opened StrFacts
  import opened TokenFacts
  import opened Members

  /** A keyword list the filter reads back entry for entry: non-empty
      entries without whitespace, commas, brackets or `)`, none of them the
      word `as` (which `check_keyword` rewrites to `As`). */
  predicate KeywordEntries(ks: seq<string>) {
    && |ks| > 0 && "as" !in ks && AllTokens(ks)
    && forall k :: 0 <= k < |ks| ==> ',' !in ks[k] && '[' !in ks[k] && ']' !in ks[k] && ')' !in ks[k]
  }

  /** The tokens of `[ k1, k2, ... ]` with `semi` (nothing or `;`) after
      the closing bracket. */
  function BracketTokens(ks: seq<string>, semi: string): seq<string> {
    ["["] + Commaed(ks) + ["]" + semi]
  }

  lemma BracketTokensOk(ks: seq<string>, semi: string)
    requires KeywordEntries(ks) && Semi(semi)
    ensures AllTokens(BracketTokens(ks, semi)) && "as" !in BracketTokens(ks, semi)
    ensures EndsClear(BracketTokens(ks, semi))
  {
    CommaedTokens(ks);
    CommaedLacksAs(ks);
    var t := BracketTokens(ks, semi);
    var w := "]" + semi;
    assert t[|t| - 1] == w;
    assert w[0] == ']' && w[|w| - 1] in "];";
    forall k | 0 <= k < |t|
      ensures Token(t[k]) && t[k] != "as"
    {
      if 0 < k < |t| - 1 {
        assert t[k] == Commaed(ks)[k - 1];
      } else if k == |t| - 1 {
        assert Token(w) by {
          if semi == "" { assert w == "]"; } else { assert w == "];"; }
        }
      }
    }
  }

  /** `" ".join(head + ["[", "k1,", ..., "]" + semi])` */
  lemma BracketLine(head: seq<string>, ks: seq<string>, semi: string)
    requires |head| > 0 && |ks| > 0
    ensures Join(head + BracketTokens(ks, semi), " ") == Join(head, " ") + " [ " + Join(ks, ", ") + " ]" + semi
  {
    var c := Commaed(ks);
    var w := "]" + semi;
    var j := Join(ks, ", ");
    var h := Join(head, " ");
    assert Join(c + [w], " ") == j + " " + w by {
      JoinAppend(c, [w], " ");
      JoinCommaed(ks);
      assert Join([w], " ") == w;
    }
    assert Join(["["] + (c + [w]), " ") == "[" + " " + (j + " " + w) by {
      JoinAppend(["["], c + [w], " ");
      assert Join(["["], " ") == "[";
    }
    assert BracketTokens(ks, semi) == ["["] + (c + [w]);
    JoinAppend(head, BracketTokens(ks, semi), " ");
    BracketText(h, j, semi);
  }

  lemma BracketText(h: string, j: string, semi: string)
    ensures h + " " + ("[" + " " + (j + " " + ("]" + semi))) == h + " [ " + j + " ]" + semi
  {
    assert " [ " == " " + "[" + " ";
    assert " ]" == " " + "]";
  }

  /** The keyword tokens of a line of tokens, followed by whitespace such as
      its newline, are its tokens. */
  lemma KeywordTokensOfJoin(ws: seq<string>, tail: string)
    requires AllTokens(ws) && "as" !in ws && EndsClear(ws) && Blank(tail)
    ensures KeywordTokens(Join(ws, " ") + tail) == ws
  {
    JoinTailLacksAs(ws, tail);
    ReplaceAbsent(Join(ws, " ") + tail, " as ", " As ");
    SplitWsTail(ws, tail);
  }

  /** The tokens of a header followed by a keyword list. */
  lemma HeaderTokens(head: seq<string>, ks: seq<string>, semi: string, tail: string)
    requires |head| > 0 && AllTokens(head) && "as" !in head && KeywordEntries(ks)
    requires Semi(semi) && Blank(tail)
    ensures KeywordTokens(Join(head, " ") + " [ " + Join(ks, ", ") + " ]" + semi + tail)
              == head + BracketTokens(ks, semi)
  {
    var ws := head + BracketTokens(ks, semi);
    BracketTokensOk(ks, semi);
    BracketLine(head, ks, semi);
    assert ws[|ws| - 1] == BracketTokens(ks, semi)[|BracketTokens(ks, semi)| - 1];
    KeywordTokensOfJoin(ws, tail);
  }

  /** The tokens of `<kw> <hs> [ k1, k2, ... ]`. */
  lemma KindLineTokens(kw: string, hs: seq<string>, ks: seq<string>, semi: string, tail: string)
    requires Token(kw) && kw != "as"
    requires |hs| > 0 && AllTokens(hs) && "as" !in hs && KeywordEntries(ks)
    requires Semi(semi) && Blank(tail)
    ensures KeywordTokens(kw + " " + Join(hs, " ") + " [ " + Join(ks, ", ") + " ]" + semi + tail)
              == [kw] + (hs + BracketTokens(ks, semi))
  {
    var head := [kw] + hs;
    JoinAppend([kw], hs, " ");
    assert AllTokens(head);
    HeaderTokens(head, ks, semi, tail);
    ConsAssoc(kw, hs, BracketTokens(ks, semi));
  }

  lemma ConsAssoc(x: string, a: seq<string>, b: seq<string>)
    ensures [x] + a + b == [x] + (a + b)
  {
  }

  /** Once the list has been read, `check_keyword` answers `True` for its
      entries and `None` for every other keyword. */
  lemma CheckReadList(line: string, keyword: string, list: seq<string>, ks: seq<string>)
    requires KeywordList(line) == Ok(Some(list)) && StripEach(list) == ks
    ensures CheckKeyword(line, keyword) == Ok(if keyword in ks then Found else Absent)
  {
  }

  lemma JoinPair(a: string, b: string, sep: string)
    ensures Join([a, b], sep) == a + sep + b
  {
    assert [a, b][1..] == [b];
  }

  lemma BracketSplit(h: string, j: string, semi: string)
    ensures h + " [ " + j + " ]" + semi == (h + " ") + ['['] + (" " + j + " ]" + semi)
  {
    assert " [ " == " " + ['['] + " ";
  }

  lemma ParenSplit(a: string, b: string, c: string)
    ensures a + ")" + b + c == a + [')'] + (b + c)
  {
    assert ")" == [')'];
  }

  /** `", ".join(ks) + " ]" + semi` read up to the bracket. */
  lemma UpToBracket(pre: string, ks: seq<string>, semi: string)
    requires KeywordEntries(ks) && ']' !in pre
    ensures Before(pre + Join(ks, ", ") + " ]" + semi, "]") == pre + Join(ks, ", ") + " "
  {
    var j := Join(ks, ", ");
    CharNotInJoin(ks, ", ", ']');
    assert pre + j + " ]" + semi == (pre + j + " ") + [']'] + semi;
    assert "]" == [']'];
    SplitAtChar(pre + j + " ", ']', semi);
  }

  // ---------------------------------------------------------------------------
  // Property and Parameter declarations without a type
  // ---------------------------------------------------------------------------

  lemma PropertyListValue(n: string, ks: seq<string>, semi: string)
    requires KeywordEntries(ks)
    ensures PropertyKeywords([n] + BracketTokens(ks, semi)) == Ok(Some(Split(Join(ks, ", ") + " ", ", ")))
  {
    var c := Commaed(ks);
    var w := "]" + semi;
    var data := [n] + BracketTokens(ks, semi);
    assert data[1..] == ["["] + (c + [w]);
    assert data[1..][1..] == c + [w];
    assert !Contains("[", "As");
    assert Contains("[", "[") by {
      assert MatchAt("[", "[", 0);
    }
    JoinAppend(c, [w], " ");
    JoinCommaed(ks);
    assert Join(c + [w], " ") == "" + Join(ks, ", ") + " ]" + semi;
    UpToBracket("", ks, semi);
    assert "" + Join(ks, ", ") + " " == Join(ks, ", ") + " ";
  }

  /** `Property <n> [ k1, k2, ... ]` (or `Parameter ...`), with or without a
      closing `;` and any trailing whitespace: `check_keyword` is truthy
      exactly for the listed keywords. */
  lemma PropertyKeywordsListed(kind: string, n: string, ks: seq<string>, semi: string, tail: string, keyword: string)
    requires kind == "Property" || kind == "Parameter"
    requires Token(n) && n != "as" && KeywordEntries(ks)
    requires Semi(semi) && Blank(tail)
    ensures CheckKeyword(kind + " " + n + " [ " + Join(ks, ", ") + " ]" + semi + tail, keyword)
              == Ok(if keyword in ks then Found else Absent)
  {
    var line := kind + " " + n + " [ " + Join(ks, ", ") + " ]" + semi + tail;
    PropertyLineTokens(kind, n, ks, semi, tail);
    PropertyListValue(n, ks, semi);
    PaddedListStrips(ks);
    CheckReadList(line, keyword, Split(Join(ks, ", ") + " ", ", "), ks);
  }

  lemma PropertyLineTokens(kind: string, n: string, ks: seq<string>, semi: string, tail: string)
    requires kind == "Property" || kind == "Parameter"
    requires Token(n) && n != "as" && KeywordEntries(ks)
    requires Semi(semi) && Blank(tail)
    ensures KeywordTokens(kind + " " + n + " [ " + Join(ks, ", ") + " ]" + semi + tail)
              == [kind] + ([n] + BracketTokens(ks, semi))
  {
    var head := [kind, n];
    assert AllTokens(head);
    HeaderTokens(head, ks, semi, tail);
    JoinPair(kind, n, " ");
    assert head == [kind] + [n];
    ConsAssoc(kind, [n], BracketTokens(ks, semi));
  }

  lemma PaddedListStrips(ks: seq<string>)
    requires KeywordEntries(ks)
    ensures StripEach(Split(Join(ks, ", ") + " ", ", ")) == ks
  {
    assert "" + Join(ks, ", ") + " " == Join(ks, ", ") + " ";
    StripSplitList("", ks, " ");
  }

  // ---------------------------------------------------------------------------
  // Class headers
  // ---------------------------------------------------------------------------

  lemma ClassKind()
    ensures !Contains("Class", "Method") && Contains("Class", "Class")
  {
    assert MatchAt("Class", "Class", 0);
  }

  /** The list inside the brackets of `<hs> [ k1, k2, ... ]`. */
  lemma ClassListValue(hs: seq<string>, ks: seq<string>, semi: string)
    requires |hs| > 0 && AllTokens(hs) && KeywordEntries(ks) && Semi(semi)
    requires forall k :: 0 <= k < |hs| ==> '[' !in hs[k]
    ensures ClassKeywords(hs + BracketTokens(ks, semi)) == Some(Split(Join(ks, ", "), ", "))
  {
    var data := hs + BracketTokens(ks, semi);
    assert data[|hs|] == "[";
    var j := Join(ks, ", ");
    var line := Join(data, " ");
    var x := Join(hs, " ") + " ";
    var z := " " + j + " ]" + semi;
    BracketLine(hs, ks, semi);
    BracketSplit(Join(hs, " "), j, semi);
    assert line == x + ['['] + z;
    CharNotInJoin(hs, " ", '[');
    CharNotInJoin(ks, ", ", '[');
    assert '[' !in z;
    SecondAfterBracket(x, z);
    UpToBracket(" ", ks, semi);
    JoinEnds(ks, ", ");
    assert Token(ks[0]) && Token(ks[|ks| - 1]);
    StripPadded(" ", j, " ");
  }

  lemma ClassDispatch(line: string, rest: seq<string>)
    requires KeywordTokens(line) == ["Class"] + rest
    ensures KeywordList(line) == Ok(ClassKeywords(rest))
  {
    ClassKind();
    assert KeywordTokens(line)[1..] == rest;
  }

  /** The list `check_keyword` reads from a Class header. */
  lemma ClassKeywordList(hs: seq<string>, ks: seq<string>, semi: string, tail: string)
    requires |hs| > 0 && AllTokens(hs) && "as" !in hs
    requires forall k :: 0 <= k < |hs| ==> '[' !in hs[k]
    requires KeywordEntries(ks) && Semi(semi) && Blank(tail)
    ensures KeywordList("Class " + Join(hs, " ") + " [ " + Join(ks, ", ") + " ]" + semi + tail)
              == Ok(Some(Split(Join(ks, ", "), ", ")))
  {
    KindLineTokens("Class", hs, ks, semi, tail);
    assert "Class" + " " == "Class ";
    var line := "Class " + Join(hs, " ") + " [ " + Join(ks, ", ") + " ]" + semi + tail;
    ClassDispatch(line, hs + BracketTokens(ks, semi));
    ClassListValue(hs, ks, semi);
  }

  /** `Class <hs> [ k1, k2, ... ]`, for any header tokens `hs` before the
      list (the name, `Extends` and the superclasses), with or without a
      `;` and any trailing whitespace: `check_keyword` is truthy exactly for
      the listed keywords. */
  lemma ClassKeywordsListed(hs: seq<string>, ks: seq<string>, semi: string, tail: string, keyword: string)
    requires |hs| > 0 && AllTokens(hs) && "as" !in hs
    requires forall k :: 0 <= k < |hs| ==> '[' !in hs[k]
    requires KeywordEntries(ks) && Semi(semi) && Blank(tail)
    ensures CheckKeyword("Class " + Join(hs, " ") + " [ " + Join(ks, ", ") + " ]" + semi + tail, keyword)
              == Ok(if keyword in ks then Found else Absent)
  {
    var line := "Class " + Join(hs, " ") + " [ " + Join(ks, ", ") + " ]" + semi + tail;
    ClassKeywordList(hs, ks, semi, tail);
    assert "" + Join(ks, ", ") + "" == Join(ks, ", ");
    StripSplitList("", ks, "");
    CheckReadList(line, keyword, Split(Join(ks, ", "), ", "), ks);
  }

  // ---------------------------------------------------------------------------
  // method headers
  // ---------------------------------------------------------------------------

  lemma MethodKinds(kw: string)
    requires kw == "Method" || kw == "ClassMethod" || kw == "ClientMethod"
    ensures Contains(kw, "Method") && Token(kw) && kw != "as"
  {
    if kw == "Method" {
      assert MatchAt(kw, "Method", 0);
    } else if kw == "ClassMethod" {
      assert MatchAt(kw, "Method", 5);
    } else {
      assert MatchAt(kw, "Method", 6);
    }
  }

  /** The text after the first `)` of a method header, stripped, is the
      return clause and then the keyword list. */
  lemma AfterParenStripped(b: string, ks: seq<string>, semi: string)
    requires '[' !in b && KeywordEntries(ks) && Semi(semi)
    ensures var part := Strip(b + " [ " + Join(ks, ", ") + " ]" + semi);
      && Contains(part, "[") && Strip(part) == part
      && SplitSecond(part, "[") == " " + Join(ks, ", ") + " ]" + semi
  {
    var j := Join(ks, ", ");
    var y := b + " [ " + j + " ]" + semi;
    var z := " " + j + " ]" + semi;
    StripBeforeBracket(b, j, semi);
    var n := Lead(y, IsSpace);
    var p0 := (b + " ")[n..];
    BracketSplit(b, j, semi);
    assert y == (b + " ") + ['['] + z;
    assert y[n..] == p0 + ['['] + z;
    CharNotInSlice(b + " ", '[', n, |b| + 1);
    CharNotInJoin(ks, ", ", '[');
    assert '[' !in z;
    SecondAfterBracket(p0, z);
    StripIdempotent(y);
  }

  /** Stripping `b [ ...]` removes no more than the whitespace of `b `. */
  lemma StripBeforeBracket(b: string, j: string, semi: string)
    requires Semi(semi)
    ensures var y := b + " [ " + j + " ]" + semi;
      Lead(y, IsSpace) <= |b| + 1 && Strip(y) == y[Lead(y, IsSpace)..]
  {
    var y := b + " [ " + j + " ]" + semi;
    assert y[|y| - 1] in "];";
    StripVisibleEnd(y);
    assert y[|b| + 1] == '[';
    LeadBelow(y, IsSpace, |b| + 1);
  }

  /** The text after the only `[`. */
  lemma SecondAfterBracket(p0: string, z: string)
    requires '[' !in p0 && '[' !in z
    ensures Contains(p0 + ['['] + z, "[") && SplitSecond(p0 + ['['] + z, "[") == z
  {
    assert "[" == ['['];
    SplitAtChar(p0, '[', z);
    ContainsChar(z, '[');
    SplitWhole(z, "[");
    ContainsChar(p0 + ['['] + z, '[');
  }

  /** The list a method header's keyword brackets hold. */
  lemma MethodListValue(ds: seq<string>, a: string, b: string, ks: seq<string>, semi: string)
    requires |ds| > 0 && Join(ds, " ") == a + ")" + b && ')' !in a && ')' !in b && '[' !in b
    requires KeywordEntries(ks) && Semi(semi)
    ensures MethodKeywords(ds + BracketTokens(ks, semi)) == Some(Split(" " + Join(ks, ", ") + " ", ", "))
  {
    var j := Join(ks, ", ");
    var y := b + " [ " + j + " ]" + semi;
    assert Split(Join(ds + BracketTokens(ks, semi), " "), ")")[1..] == [y] by {
      MethodLineShape(ds, a, b, ks, semi);
      assert ')' !in y by {
        CharNotInJoin(ks, ", ", ')');
      }
      AfterFirstParen(a, y);
    }
    AfterParenStripped(b, ks, semi);
    UpToBracket(" ", ks, semi);
  }

  lemma MethodLineShape(ds: seq<string>, a: string, b: string, ks: seq<string>, semi: string)
    requires |ds| > 0 && |ks| > 0 && Join(ds, " ") == a + ")" + b
    ensures Join(ds + BracketTokens(ks, semi), " ") == a + [')'] + (b + " [ " + Join(ks, ", ") + " ]" + semi)
  {
    var j := Join(ks, ", ");
    var x := Join(ds, " ");
    var c := " [ " + j + " ]" + semi;
    var line := Join(ds + BracketTokens(ks, semi), " ");
    assert line == x + c by {
      BracketLine(ds, ks, semi);
      AppendAssoc(x, " [ ", j, " ]", semi);
    }
    assert line == a + [')'] + (b + c) by {
      ParenSplit(a, b, c);
    }
    assert b + c == b + " [ " + j + " ]" + semi by {
      AppendAssoc(b, " [ ", j, " ]", semi);
    }
  }

  lemma AppendAssoc(x: string, p: string, q: string, r: string, t: string)
    ensures x + p + q + r + t == x + (p + q + r + t)
  {
  }

  /** The fields after the first `)` when there is only one. */
  lemma AfterFirstParen(a: string, y: string)
    requires ')' !in a && ')' !in y
    ensures Split(a + [')'] + y, ")")[1..] == [y]
  {
    assert ")" == [')'];
    SplitAtChar(a, ')', y);
    ContainsChar(y, ')');
    SplitWhole(y, ")");
  }

  lemma MethodDispatch(line: string, kw: string, rest: seq<string>)
    requires kw == "Method" || kw == "ClassMethod" || kw == "ClientMethod"
    requires KeywordTokens(line) == [kw] + rest
    ensures KeywordList(line) == Ok(MethodKeywords(rest))
  {
    MethodKinds(kw);
    assert KeywordTokens(line)[1..] == rest;
  }

  /** The list `check_keyword` reads from a method header. */
  lemma MethodKeywordList(kw: string, ds: seq<string>, a: string, b: string, ks: seq<string>, semi: string, tail: string)
    requires kw == "Method" || kw == "ClassMethod" || kw == "ClientMethod"
    requires |ds| > 0 && AllTokens(ds) && "as" !in ds
    requires Join(ds, " ") == a + ")" + b && ')' !in a && ')' !in b && '[' !in b
    requires KeywordEntries(ks) && Semi(semi) && Blank(tail)
    ensures KeywordList(kw + " " + Join(ds, " ") + " [ " + Join(ks, ", ") + " ]" + semi + tail)
              == Ok(Some(Split(" " + Join(ks, ", ") + " ", ", ")))
  {
    MethodKinds(kw);
    KindLineTokens(kw, ds, ks, semi, tail);
    var line := kw + " " + Join(ds, " ") + " [ " + Join(ks, ", ") + " ]" + semi + tail;
    MethodDispatch(line, kw, ds + BracketTokens(ks, semi));
    MethodListValue(ds, a, b, ks, semi);
  }

  /** `Method <decl>) [ k1, k2, ... ]`, and likewise for `ClassMethod` and
      `ClientMethod`, with any return clause `b` between the `)` and the
      list, with or without a `;` and any trailing whitespace: `check_keyword`
      is truthy exactly for the listed keywords.  The header `decl)b` is
      given as its tokens `ds`. */
  lemma MethodKeywordsListed(kw: string, ds: seq<string>, a: string, b: string, ks: seq<string>, semi: string, tail: string, keyword: string)
    requires kw == "Method" || kw == "ClassMethod" || kw == "ClientMethod"
    requires |ds| > 0 && AllTokens(ds) && "as" !in ds
    requires Join(ds, " ") == a + ")" + b && ')' !in a && ')' !in b && '[' !in b
    requires KeywordEntries(ks) && Semi(semi) && Blank(tail)
    ensures CheckKeyword(kw + " " + Join(ds, " ") + " [ " + Join(ks, ", ") + " ]" + semi + tail, keyword)
              == Ok(if keyword in ks then Found else Absent)
  {
    var line := kw + " " + Join(ds, " ") + " [ " + Join(ks, ", ") + " ]" + semi + tail;
    MethodKeywordList(kw, ds, a, b, ks, semi, tail);
    StripSplitList(" ", ks, " ");
    CheckReadList(line, keyword, Split(" " + Join(ks, ", ") + " ", ", "), ks);
  }
}

=== FILE: linefacts.dfy ===
/** What the normalisation at the head of the loop does to a line: tabs are
    widened and the `#; ` and ` ; ` comment markers of ObjectScript become
    the `/// ` of a Doxygen comment, the rest of the line left as it is. */
module LineFacts {
  import opened PyStr
  import opened StrFacts
  import opened Filter

  /** `replace` rewrites the first occurrence and carries on after it. */
  lemma ReplaceAfter(a: string, pat: string, rep: string, b: string)
    requires |pat| > 0
    requires forall i :: 0 <= i < |a| ==> !MatchAt(a + pat + b, pat, i)
    ensures Replace(a + pat + b, pat, rep) == a + rep + Replace(b, pat, rep)
  {
    var s := a + pat + b;
    assert s[|a|..|a| + |pat|] == pat;
    assert MatchAt(s, pat, |a|);
    assert s[..|a|] == a;
    assert s[|a| + |pat|..] == b;
  }

  /** A line without tabs or `;` is not changed. */
  lemma NormalizeUnchanged(x: string)
    requires '\t' !in x && ';' !in x
    ensures Normalize(x) == x
  {
    LacksChar(x, "\t", 0);
    ReplaceAbsent(x, "\t", "    ");
    LacksChar(x, " ; ", 1);
    ReplaceAbsent(x, " ; ", "/// ");
    LacksChar(x, "#; ", 1);
    ReplaceAbsent(x, "#; ", "/// ");
  }

  /** A `;` right after a closing `]` is neither marker, so a declaration
      ending in `];` is not changed. */
  lemma NormalizeClosedSemi(y: string, semi: string, nl: string)
    requires |y| > 0 && y[|y| - 1] == ']' && '\t' !in y && ';' !in y
    requires semi == "" || semi == ";"
    requires '\t' !in nl && ';' !in nl
    ensures Normalize(y + semi + nl) == y + semi + nl
  {
    var x := y + semi + nl;
    assert '\t' !in x;
    LacksChar(x, "\t", 0);
    ReplaceAbsent(x, "\t", "    ");
    forall i | 0 <= i
      ensures !MatchAt(x, " ; ", i) && !MatchAt(x, "#; ", i)
    {
      if i + 3 <= |x| {
        if x[i + 1] == ';' {
          assert i + 1 == |y|;
          assert x[i] == ']';
          assert x[i..i + 3][0] == x[i];
        } else {
          assert x[i..i + 3][1] == x[i + 1];
        }
      }
    }
    ReplaceAbsent(x, " ; ", "/// ");
    ReplaceAbsent(x, "#; ", "/// ");
  }

  /** A line opening with the `#; ` marker becomes a `/// ` line. */
  lemma HashCommentLine(x: string)
    requires '\t' !in x && ';' !in x
    ensures Normalize("#; " + x) == "/// " + x
  {
    var s := "#; " + x;
    assert '\t' !in s;
    LacksChar(s, "\t", 0);
    ReplaceAbsent(s, "\t", "    ");
    forall i | 0 <= i
      ensures !MatchAt(s, " ; ", i)
    {
      if i + 3 <= |s| {
        if i == 0 {
          assert s[i..i + 3][0] == '#';
        } else if i == 1 {
          assert s[i..i + 3][1] == ' ';
        } else {
          assert s[i..i + 3][1] == x[i - 2];
        }
      }
    }
    ReplaceAbsent(s, " ; ", "/// ");
    assert s == "" + "#; " + x;
    ReplaceAfter("", "#; ", "/// ", x);
    LacksChar(x, "#; ", 1);
    ReplaceAbsent(x, "#; ", "/// ");
  }

  /** Code followed by the ` ; ` marker: the marker becomes `/// `, so the
      comment after it becomes a Doxygen comment after the code. */
  lemma SpaceCommentLine(code: string, x: string)
    requires '\t' !in code && ';' !in code && '#' !in code
    requires '\t' !in x && ';' !in x && '#' !in x
    ensures Normalize(code + " ; " + x) == code + "/// " + x
  {
    var s := code + " ; " + x;
    assert '\t' !in s;
    LacksChar(s, "\t", 0);
    ReplaceAbsent(s, "\t", "    ");
    forall i | 0 <= i < |code|
      ensures !MatchAt(s, " ; ", i)
    {
      if i + 3 <= |s| {
        if i + 1 < |code| {
          assert s[i..i + 3][1] == code[i + 1];
        } else {
          assert s[i..i + 3][1] == ' ';
        }
      }
    }
    ReplaceAfter(code, " ; ", "/// ", x);
    LacksChar(x, " ; ", 1);
    ReplaceAbsent(x, " ; ", "/// ");
    var t := code + "/// " + x;
    assert '#' !in t;
    LacksChar(t, "#; ", 0);
    ReplaceAbsent(t, "#; ", "/// ");
  }
}

=== FILE: memberfacts.dfy ===
/** Properties of the declaration helpers that relate them to what a
    declaration line says: the XData name, the mimetype, the placeholder type
    of a Parameter and the keyword list. */
module MemberFacts {
  import opened Results
  import opened PyStr
  import opened StrFacts
  import opened TokenFacts
  import opened Members

  /** A text without whitespace. */
  predicate Word(w: string) {
    forall j :: 0 <= j < |w| ==> !IsSpace(w[j])
  }

  /** `w.endswith(t)` */
  predicate EndsWith(w: string, t: string) {
    |t| <= |w| && w[|w| - |t|..] == t
  }

  lemma WordLacksSpace(w: string)
    requires Word(w)
    ensures ' ' !in w && !Contains(w, " ")
  {
    ContainsChar(w, ' ');
    assert " " == [' '];
  }

  lemma StripWord(w: string)
    requires Word(w)
    ensures Strip(w) == w
  {
    TrimByIdentity(w, IsSpace);
  }

  /** The first space-separated field of `a + " " + b` is `a`. */
  lemma BeforeSpace(a: string, b: string)
    requires ' ' !in a
    ensures Before(a + " " + b, " ") == a
  {
    assert " " == [' '];
    SplitAtChar(a, ' ', b);
  }

  /** `line.split("XData ")[1]` for a line that starts with `XData `. */
  lemma XDataSecond(u: string)
    ensures Contains("XData " + u, "XData ")
    ensures SplitSecond("XData " + u, "XData ") == Split(u, "XData ")[0]
  {
    assert "XData " + u == "" + "XData " + u;
    PrefixContained("XData " + u, "XData ");
    SplitAt("", "XData ", u);
  }

  /** `XData ` cannot start inside a word unless the word ends in `XData`. */
  lemma NoXDataInWord(name: string, rest: string, j: nat)
    requires Word(name) && !EndsWith(name, "XData")
    requires rest == "" || rest[0] == ' '
    requires j <= |name|
    ensures !MatchAt(name + rest, "XData ", j)
  {
    var u := name + rest;
    if j + 6 <= |u| {
      if j + 5 < |name| {
        assert u[j..j + 6][5] == name[j + 5];
      } else if j + 5 == |name| {
        assert name[|name| - 5..] != "XData";
        assert u[j..j + 5] == name[|name| - 5..];
        assert u[j..j + 6][..5] == u[j..j + 5];
      } else {
        var k := |name| - j;
        assert 0 <= k < 5;
        assert u[|name|] == ' ';
        assert u[j..j + 6][k] == u[|name|];
        assert "XData "[k] != ' ';
      }
    }
  }

  // ---------------------------------------------------------------------------
  // format_xdata_signature: the name is cut at an inner `XData `
  // ---------------------------------------------------------------------------

  /** For a block whose name does not end in `XData`, the line as written and
      the corrected reading agree: the signature is `XData <name>;`. */
  lemma XDataSignatureNamesBlock(name: string, rest: string)
    requires Word(name) && !EndsWith(name, "XData")
    requires rest == "" || rest[0] == ' '
    ensures FormatXDataSignature("XData " + name + rest) == Ok("XData " + name + ";")
    ensures XDataSignature("XData " + name + rest) == Ok("XData " + name + ";")
  {
    var u := name + rest;
    var line := "XData " + name + rest;
    FirstWordAfterXData(name, rest);
    assert line == "XData " + u;
    assert StartsWith(line, "XData ") by {
      assert line[..6] == "XData ";
    }
    assert SplitSecond(line, "XData ") == Split(u, "XData ")[0] by {
      XDataSecond(u);
    }
    assert line[|"XData "|..] == u;
    StripWord(name);
  }

  /** The first word after `XData `, read either way, is the name. */
  lemma FirstWordAfterXData(name: string, rest: string)
    requires Word(name) && !EndsWith(name, "XData")
    requires rest == "" || rest[0] == ' '
    ensures Before(Split(name + rest, "XData ")[0], " ") == name && Before(name + rest, " ") == name
  {
    if rest == "" {
      assert name + rest == name;
      XDataNameAlone(name);
    } else {
      assert name + rest == name + " " + rest[1..];
      XDataNameThenSpace(name, rest[1..]);
    }
  }


  /** `XData <name>`: the field and the word are the name. */
  lemma XDataNameAlone(name: string)
    requires Word(name) && !EndsWith(name, "XData")
    ensures Split(name, "XData ")[0] == name && Before(name, " ") == name
  {
    if Contains(name, "XData ") {
      var i := Find(name, "XData ").value;
      assert name == name + "";
      NoXDataInWord(name, "", i);
    }
    WordLacksSpace(name);
    SplitWhole(name, " ");
  }

  /** `XData <name> <tail>`: the first word of the field is the name. */
  lemma XDataNameThenSpace(name: string, tail: string)
    requires Word(name) && !EndsWith(name, "XData")
    ensures var u := name + " " + tail;
      Before(Split(u, "XData ")[0], " ") == name && Before(u, " ") == name
  {
    var u := name + " " + tail;
    WordLacksSpace(name);
    BeforeSpace(name, tail);
    match Find(u, "XData ")
    case None =>
    case Some(i) =>
      assert u == name + (" " + tail);
      if i <= |name| {
        NoXDataInWord(name, " " + tail, i);
      }
      assert Split(u, "XData ")[0] == u[..i];
      assert u[..i] == name + " " + tail[..i - |name| - 1];
      BeforeSpace(name, tail[..i - |name| - 1]);
  }


  /** A word cannot hold `XData ` anywhere: that needs a space. */
  lemma NoXDataSpaceInWord(w: string, j: nat)
    requires Word(w)
    ensures !MatchAt(w + "XData ", "XData ", j) || j == |w|
  {
    var u := w + "XData ";
    if j + 6 <= |u| && j != |w| {
      if j + 5 < |w| {
        assert u[j..j + 6][5] == w[j + 5];
      } else {
        assert j < |w|;
        assert u[j..j + 6][5] == "XData "[j + 5 - |w|];
      }
    }
  }

  /** As written, a block named `<stem>XData` is documented as `<stem>`:
      `line.split("XData ")[1]` stops at the second `XData `, the one that
      ends the name.  For instance `XData MyXData [ MimeType = application/json ]`
      gives `XData My;`. */
  lemma XDataSignatureCutsName(stem: string, rest: string)
    requires Word(stem)
    ensures FormatXDataSignature("XData " + stem + "XData " + rest) == Ok("XData " + stem + ";")
  {
    var u := stem + "XData " + rest;
    assert "XData " + stem + "XData " + rest == "XData " + u;
    XDataSecond(u);
    forall j | 0 <= j < |stem|
      ensures !MatchAt(u, "XData ", j)
    {
      NoXDataSpaceInWord(stem, j);
      if j + 6 <= |stem + "XData "| {
        assert u[j..j + 6] == (stem + "XData ")[j..j + 6];
      }
    }
    SplitAt(stem, "XData ", rest);
    WordLacksSpace(stem);
    SplitWhole(stem, " ");
    StripWord(stem);
  }

  /** The corrected reading keeps the whole name of such a block. */
  lemma XDataSignatureKeepsName(stem: string, rest: string)
    requires Word(stem)
    ensures XDataSignature("XData " + stem + "XData " + rest) == Ok("XData " + stem + "XData;")
  {
    var name := stem + "XData";
    assert Word(name) by {
      forall j | 0 <= j < |name|
        ensures !IsSpace(name[j])
      {
        if j >= |stem| {
          assert name[j] == "XData"[j - |stem|];
        }
      }
    }
    WordLacksSpace(name);
    StripWord(name);
    var line := "XData " + stem + "XData " + rest;
    assert line == "XData " + (name + " " + rest);
    assert line[|"XData "|..] == name + " " + rest;
    BeforeSpace(name, rest);
    assert StartsWith(line, "XData ");
    assert "XData " + name + ";" == "XData " + stem + "XData;";
  }

  /** The corrected reading names the block by the first word after the
      `XData ` prefix, whatever that word is. */
  lemma XDataSignatureRoundTrip(name: string, rest: string)
    requires Word(name)
    requires rest == "" || rest[0] == ' '
    ensures XDataSignature("XData " + name + rest) == Ok("XData " + name + ";")
  {
    var line := "XData " + name + rest;
    assert line[|"XData "|..] == name + rest;
    WordLacksSpace(name);
    StripWord(name);
    if rest == "" {
      assert name + rest == name;
      SplitWhole(name, " ");
    } else {
      assert name + rest == name + " " + rest[1..];
      BeforeSpace(name, rest[1..]);
    }
  }

  // ---------------------------------------------------------------------------
  // handle_xdata_mimetype
  // ---------------------------------------------------------------------------

  /** `m + " "` strips back to the word `m`. */
  lemma StripWordSpace(m: string)
    requires Word(m)
    ensures Strip(m + " ") == m
  {
    var s := m + " ";
    if |m| == 0 {
      assert s == " ";
      LeadUnique(s, IsSpace, 1);
    } else {
      LeadUnique(s, IsSpace, 0);
      assert s[0..] == s;
      assert s[..|s| - 1] == m;
      assert Trail(m, IsSpace) == 0;
      assert Trail(s, IsSpace) == 1;
    }
  }

  /** A word holds no `MimeType = `: that text has a space inside. */
  lemma NoMimeTypeKeyInWord(m: string, j: nat)
    requires Word(m)
    ensures !MatchAt(m + " ]", "MimeType = ", j)
  {
    var u := m + " ]";
    if j + 11 <= |u| {
      assert u[j..j + 11][8] == m[j + 8];
    }
  }

  /** The value `handle_xdata_mimetype` reads once a `MimeType = ` follows the first `[`. */
  lemma MimetypeValue(line: string)
    requires Contains(line, "[") && Contains(SplitSecond(line, "["), "MimeType = ")
    ensures XDataMimetype(line) == Ok(Strip(Before(SplitSecond(SplitSecond(line, "["), "MimeType = "), "]")))
  {
    var seg := SplitSecond(line, "[");
    assert Contains(seg, "MimeType") by {
      var i := Find(seg, "MimeType = ").value;
      assert seg[i..i + 8] == seg[i..i + 11][..8];
      ContainsWitness(seg, "MimeType", i);
    }
  }

  /** The segment after the only `[` of the header. */
  lemma MimetypeSegment(head: string, m: string)
    requires '[' !in head && '[' !in m
    ensures Contains(head + "[ MimeType = " + m + " ]", "[")
    ensures SplitSecond(head + "[ MimeType = " + m + " ]", "[") == " MimeType = " + m + " ]"
  {
    var seg := " MimeType = " + m + " ]";
    var line := head + "[ MimeType = " + m + " ]";
    assert line == head + ['['] + seg;
    assert '[' !in seg;
    ContainsChar(seg, '[');
    SplitWhole(seg, "[");
    SplitAtChar(head, '[', seg);
    ContainsChar(line, '[');
  }

  /** The text after `MimeType = ` in that segment. */
  lemma MimetypeAfterKey(m: string)
    requires Word(m)
    ensures Contains(" MimeType = " + m + " ]", "MimeType = ")
    ensures SplitSecond(" MimeType = " + m + " ]", "MimeType = ") == m + " ]"
  {
    var seg := " MimeType = " + m + " ]";
    assert seg == " " + "MimeType = " + (m + " ]");
    assert seg[0..11] != "MimeType = " by {
      assert seg[0..11][0] == ' ';
    }
    SplitAt(" ", "MimeType = ", m + " ]");
    assert MatchAt(seg, "MimeType = ", 1);
    ContainsWitness(seg, "MimeType = ", 1);
    forall j | 0 <= j
      ensures !MatchAt(m + " ]", "MimeType = ", j)
    {
      NoMimeTypeKeyInWord(m, j);
    }
    SplitWhole(m + " ]", "MimeType = ");
  }

  /** The mimetype written in the keyword list of an XData header is the one
      read back. */
  lemma MimetypeRoundTrip(head: string, m: string)
    requires '[' !in head
    requires Word(m) && '[' !in m && ']' !in m
    ensures XDataMimetype(head + "[ MimeType = " + m + " ]") == Ok(m)
  {
    var line := head + "[ MimeType = " + m + " ]";
    MimetypeSegment(head, m);
    MimetypeAfterKey(m);
    MimetypeValue(line);
    assert m + " ]" == (m + " ") + [']'] + "";
    assert ']' !in m + " ";
    SplitAtChar(m + " ", ']', "");
    assert Before(m + " ]", "]") == m + " ";
    StripWordSpace(m);
  }

  // ---------------------------------------------------------------------------
  // format_method_signature: `static <T> <name>)`
  // ---------------------------------------------------------------------------

  /** A text that starts with a space holds `As` only inside its tail. */
  lemma AsAfterSpace(x: string)
    ensures Contains(" " + x, "As") ==> Contains(x, "As")
  {
    var u := " " + x;
    if Contains(u, "As") {
      var i := Find(u, "As").value;
      assert u[i] == u[i..i + 2][0];
      assert i >= 1;
      assert x[i - 1..i + 1] == u[i..i + 2];
      ContainsWitness(x, "As", i - 1);
    }
  }

  /** `s.lstrip()` of a text with exactly one leading space. */
  lemma LStripOneSpace(x: string)
    requires |x| > 0 && !IsSpace(x[0])
    ensures LStrip(" " + x) == x
  {
    assert (" " + x)[1..] == x;
  }

  /** What `ReturnType` reads when both `)` and, after it, `As` are present. */
  lemma ReturnTypeValue(l: string)
    requires Contains(l, ")") && Contains(LStrip(SplitSecond(l, ")")), "As")
    ensures ReturnType(l) == StripChars(Before(LStrip(SplitSecond(LStrip(SplitSecond(l, ")")), "As")), " "), ";")
  {
    SplitHasSecond(l, ")");
    SplitHasSecond(LStrip(SplitSecond(l, ")")), "As");
  }

  /** The text after the first `)` when no other `)` follows. */
  lemma AfterOnlyParen(head: string, b: string)
    requires ')' !in head && ')' !in b
    ensures Contains(head + ")" + b, ")") && SplitSecond(head + ")" + b, ")") == b
  {
    var l := head + ")" + b;
    assert ")" == [')'];
    assert l == head + [')'] + b;
    SplitAtChar(head, ')', b);
    ContainsChar(b, ')');
    SplitWhole(b, ")");
    SplitHasSecond(l, ")");
  }

  /** The text after a leading `sep`, when no other `sep` follows. */
  lemma AfterLeading(sep: string, u: string)
    requires |sep| > 0 && !Contains(u, sep)
    ensures Contains(sep + u, sep) && SplitSecond(sep + u, sep) == u
  {
    assert sep + u == "" + sep + u;
    SplitAt("", sep, u);
    SplitWhole(u, sep);
    SplitHasSecond(sep + u, sep);
  }

  /** The text before the first `)` when there is one. */
  lemma BeforeParen(head: string, b: string)
    requires ')' !in head
    ensures Before(head + ")" + b, ")") == head
  {
    assert ")" == [')'];
    assert head + ")" + b == head + [')'] + b;
    SplitAtChar(head, ')', b);
  }

  /** The first word of a word followed by nothing or by a space. */
  lemma WordBeforeSpace(typ: string, tail: string)
    requires Word(typ)
    requires tail == "" || tail[0] == ' '
    ensures Before(typ + tail, " ") == typ
  {
    WordLacksSpace(typ);
    if tail == "" {
      assert typ + tail == typ;
      SplitWhole(typ, " ");
    } else {
      assert typ + tail == typ + " " + tail[1..];
      BeforeSpace(typ, tail[1..]);
    }
  }

  /** The word after a leading ` As `: what `ReturnType` reads from the text
      after the first `)`. */
  lemma TypeAfterAs(typ: string, tail: string)
    requires Word(typ) && |typ| > 0 && ';' !in typ
    requires tail == "" || tail[0] == ' '
    requires !Contains(typ + tail, "As")
    ensures Contains(LStrip(" As " + typ + tail), "As")
    ensures StripChars(Before(LStrip(SplitSecond(LStrip(" As " + typ + tail), "As")), " "), ";") == typ
  {
    var x := typ + tail;
    var u := " " + x;
    assert " As " + typ + tail == " " + ("As" + u);
    LStripOneSpace("As" + u);
    AsAfterSpace(x);
    AfterLeading("As", u);
    LStripOneSpace(x);
    WordBeforeSpace(typ, tail);
    TrimByIdentity(typ, c => c in ";");
  }

  /** The return type is the word after ` As ` that follows the first `)`,
      as long as nothing before it closes another parenthesis or says `As`. */
  lemma ReturnTypeNamed(head: string, typ: string, tail: string)
    requires ')' !in head && ')' !in typ && ')' !in tail
    requires Word(typ) && |typ| > 0 && ';' !in typ
    requires tail == "" || tail[0] == ' '
    requires !Contains(typ + tail, "As")
    ensures ReturnType(head + ") As " + typ + tail) == typ
  {
    var b := " As " + typ + tail;
    assert head + ") As " + typ + tail == head + ")" + b;
    assert ')' !in b;
    AfterOnlyParen(head, b);
    TypeAfterAs(typ, tail);
    ReturnTypeValue(head + ")" + b);
  }

  /** What `MethodDeclarator` builds when the keyword occurs before the first `)`. */
  lemma DeclaratorValue(l: string, keyword: string)
    requires |keyword| > 0 && Contains(Before(l, ")"), keyword)
    ensures MethodDeclarator(l, keyword) == Ok(ReturnType(l) + " " + Strip(SplitSecond(Before(l, ")"), keyword)) + ")")
  {
  }

  /** The signature of a ClassMethod line in terms of its parts. */
  lemma StaticDeclaration(l: string, decl: string, typ: string)
    requires StartsWith(l, "ClassMethod")
    requires Contains(Before(l, ")"), "ClassMethod") && SplitSecond(Before(l, ")"), "ClassMethod") == decl
    requires ReturnType(l) == typ
    ensures MethodSignature(l) == Ok("static " + typ + " " + Strip(decl) + ")")
  {
    var d := MethodDeclarator(l, "ClassMethod").value;
    assert MethodSignature(l) == Ok("static " + d);
    DeclaratorValue(l, "ClassMethod");
    assert d == typ + " " + Strip(decl) + ")";
    assert "static " + d == "static " + typ + " " + Strip(decl) + ")";
  }

  /** A ClassMethod line `ClassMethod <decl>) As <T> ...` becomes the static
      declaration `static <T> <decl>)`, `decl` being the name and the
      parameter list up to the first `)`. */
  lemma ClassMethodSignatureShape(decl: string, typ: string, tail: string)
    requires ')' !in decl && !Contains(decl, "ClassMethod")
    requires ')' !in typ && ')' !in tail
    requires Word(typ) && |typ| > 0 && ';' !in typ
    requires tail == "" || tail[0] == ' '
    requires !Contains(typ + tail, "As")
    ensures MethodSignature("ClassMethod" + decl + ") As " + typ + tail) == Ok("static " + typ + " " + Strip(decl) + ")")
  {
    var head := "ClassMethod" + decl;
    var b := " As " + typ + tail;
    var l := head + ")" + b;
    assert l == "ClassMethod" + decl + ") As " + typ + tail;
    assert l == head + ") As " + typ + tail;
    assert l[..11] == "ClassMethod";
    ReturnTypeNamed(head, typ, tail);
    BeforeParen(head, b);
    AfterLeading("ClassMethod", decl);
    StaticDeclaration(l, decl, typ);
  }

  // ---------------------------------------------------------------------------
  // check_keyword: the keyword list comes from the brackets
  // ---------------------------------------------------------------------------

  /** The text after the first `)`, when there is one, lacks `[`. */
  lemma AfterParenLacksBracket(data: seq<string>)
    requires AllLack(data, '[')
    ensures var rest := Split(Join(data, " "), ")")[1..];
      |rest| == 0 || !Contains(Strip(rest[0]), "[")
  {
    CharNotInJoin(data, " ", '[');
    CharNotInSplit(Join(data, " "), ")", '[');
    var rest := Split(Join(data, " "), ")")[1..];
    if |rest| > 0 {
      assert rest[0] == Split(Join(data, " "), ")")[1];
      CharNotInTrim(rest[0], IsSpace, '[');
      ContainsChar(Strip(rest[0]), '[');
      assert "[" == ['['];
    }
  }

  lemma PropertyKeywordsNeedBracket(data: seq<string>)
    requires AllLack(data, '[')
    ensures PropertyKeywords(data).Error? || PropertyKeywords(data) == Ok(None)
  {
    assert "[" == ['['];
    if |data| >= 2 {
      ContainsChar(data[1], '[');
      if |data| >= 3 {
        AfterParenLacksBracket(data[3..]);
      }
    }
  }

  lemma MethodKeywordsNeedBracket(data: seq<string>)
    requires AllLack(data, '[')
    ensures MethodKeywords(data) == None
  {
    AfterParenLacksBracket(data);
    var rest := Split(Join(data, " "), ")")[1..];
    if |rest| > 0 {
      StripIdempotent(rest[0]);
    }
  }

  lemma ClassKeywordsNeedBracket(data: seq<string>)
    requires AllLack(data, '[')
    ensures ClassKeywords(data) == None
  {
  }

  /** A declaration without `[` has no keyword list: `check_keyword` answers
      `False` (or raises), never `True`. */
  lemma NoBracketNoList(line: string, keyword: string)
    requires '[' !in line
    ensures CheckKeyword(line, keyword).Error? || CheckKeyword(line, keyword) == Ok(NoList)
  {
    CharNotInReplace(line, " as ", " As ", '[');
    CharNotInTrim(Replace(line, " as ", " As "), IsSpace, '[');
    CharNotInSplitWs(Strip(Replace(line, " as ", " As ")), '[');
    var data := KeywordTokens(line);
    if |data| > 0 {
      assert AllLack(data[1..], '[');
      PropertyKeywordsNeedBracket(data[1..]);
      MethodKeywordsNeedBracket(data[1..]);
      ClassKeywordsNeedBracket(data[1..]);
    }
  }

  /** A Property typed `As T` without `(` in `T` has no keyword list, even
      when brackets follow: its keywords, `Private` included, are not seen. */
  lemma TypedPropertyHasNoList(line: string, keyword: string)
    requires var t := KeywordTokens(line);
      |t| >= 4 && t[0] == "Property" && Contains(t[2], "As") && '(' !in t[3]
    ensures CheckKeyword(line, keyword) == Ok(NoList)
  {
    var t := KeywordTokens(line);
    CharNotInTrim(t[3], IsSpace, '(');
    CharNotInTrim(Strip(t[3]), c => c in ";", '(');
    ContainsChar(StripChars(Strip(t[3]), ";"), '(');
    assert "(" == ['('];
  }

  /** A Property or Parameter typed `As T`, `T` without `(`, has no metadata:
      neither the type arguments nor the keywords after it are read. */
  lemma TypedPropertyHasNoData(line: string)
    requires var t := Tokens(line);
      |t| >= 4 && (t[0] == "Property" || t[0] == "Parameter") && Contains(t[2], "As") && '(' !in t[3]
    ensures AdditionalDataLines(line) == Ok([])
  {
    var t := Tokens(line);
    CharNotInTrim(t[3], IsSpace, '(');
    CharNotInTrim(Strip(t[3]), c => c in ";", '(');
    ContainsChar(StripChars(Strip(t[3]), ";"), '(');
    assert "(" == ['('];
    assert t[1..][1] == t[2] && t[1..][2] == t[3];
  }

  /** A line of tokens splits back into them. */
  lemma TokensOfJoin(ws: seq<string>)
    requires |ws| > 0 && AllTokens(ws)
    ensures Tokens(Join(ws, " ")) == ws
  {
    JoinStripped(ws);
    SplitWsJoin(ws);
  }

  lemma TypedLineJoin(kind: string, n: string, typ: string)
    ensures Join([kind, n, "As", typ], " ") == kind + " " + n + " As " + typ
  {
    var ws := [kind, n, "As", typ];
    assert Join(ws[3..], " ") == typ;
    assert Join(ws[2..], " ") == "As" + " " + typ;
    assert Join(ws[1..], " ") == n + " " + ("As" + " " + typ);
  }

  /** The same for the line `Property <n> As <T>` itself. */
  lemma TypedPropertyLineHasNoData(kind: string, n: string, typ: string)
    requires kind == "Property" || kind == "Parameter"
    requires Token(n) && Token(typ) && '(' !in typ
    ensures AdditionalDataLines(kind + " " + n + " As " + typ) == Ok([])
  {
    var ws := [kind, n, "As", typ];
    TypedLineJoin(kind, n, typ);
    assert Token(kind) && Token("As");
    assert AllTokens(ws);
    TokensOfJoin(ws);
    assert MatchAt("As", "As", 0);
    TypedPropertyHasNoData(kind + " " + n + " As " + typ);
  }

  /** A line of tokens, none of them `as`, is its own declaration tokens. */
  lemma DeclTokensOfJoin(ws: seq<string>)
    requires |ws| > 0 && AllTokens(ws) && "as" !in ws
    ensures DeclTokens(Join(ws, " ")) == ws
  {
    JoinStripped(ws);
    JoinLacksAsAnywhere(ws);
    ReplaceAbsent(Join(ws, " "), " as ", " As ");
    SplitWsJoin(ws);
  }

  lemma ListTailJoin(k: string, v: string)
    ensures Join([k, "]", "=", v], " ") == (k + " ") + [']'] + (" = " + v)
  {
    var ws := [k, "]", "=", v];
    assert ws[1..][1..][1..] == [v];
    assert Join(ws[1..][1..], " ") == "=" + " " + v;
    assert Join(ws[1..], " ") == "]" + " " + ("=" + " " + v);
  }

  lemma ListTailSplit(k: string, v: string)
    requires ']' !in k && ']' !in v
    ensures Split((k + " ") + [']'] + (" = " + v), "]")[1..] == [" = " + v]
  {
    assert "]" == [']'];
    assert ']' !in k + " ";
    SplitAtChar(k + " ", ']', " = " + v);
    assert ']' !in " = " + v;
    ContainsChar(" = " + v, ']');
    SplitWhole(" = " + v, "]");
  }

  lemma EqualsSeen(v: string)
    requires |v| > 0 && !IsSpace(v[|v| - 1])
    ensures Contains(Strip(" = " + v), "=")
  {
    var eq := "= " + v;
    assert Strip(" = " + v) == eq by {
      assert " = " + v == " " + eq + "";
      assert eq[0] == '=' && eq[|eq| - 1] == v[|v| - 1];
      assert Blank(" ") && Blank("");
      StripPadded(" ", eq, "");
    }
    assert MatchAt(eq, "=", 0) by {
      assert eq[0..1] == "=";
    }
    ContainsWitness(eq, "=", 0);
  }


  /** After a keyword list, `= V` is looked for in the field after the `]`,
      and `V` has already been joined into that field. */
  lemma ValueAfterListEmpty(k: string, v: string)
    requires Token(k) && Token(v) && ']' !in k && ']' !in v
    ensures ValueAfterKeywords([k, "]", "=", v]) == ""
  {
    ListTailJoin(k, v);
    ListTailSplit(k, v);
    assert Token(v);
    EqualsSeen(v);
    assert [" = " + v][1..] == [];
  }

  /** A keyword list right after the type: the value is read past the `]`. */
  lemma BracketAfterType(k: string, v: string)
    ensures ValueAfterType(["[", k, "]", "=", v]) == ValueAfterKeywords([k, "]", "=", v])
  {
    TrimByIdentity("[", IsSpace);
    assert MatchAt("[", "[", 0);
    assert ["[", k, "]", "=", v][1..] == [k, "]", "=", v];
  }

  /** `Kind N As T <rest>` with `T` free of `(`: the value is what follows `T`. */
  lemma TypedDeclValue(line: string, kind: string, n: string, typ: string, rest: seq<string>)
    requires kind == "Property" || kind == "Parameter"
    requires DeclTokens(line) == [kind, n, "As", typ] + rest
    requires '(' !in typ
    ensures ParseMemberDecl(line).Ok? && ParseMemberDecl(line).value.value == ValueAfterType(rest)
  {
    var data := [kind, n, "As", typ] + rest;
    assert data[2..][0] == "As" && data[2..][1..][0] == typ && data[2..][1..][1..] == rest;
    assert !Contains("As", "=") by {
      LacksChar("As", "=", 0);
    }
    assert MatchAt("As", "As", 0);
    var t := StripChars(Strip(typ), ";");
    CharNotInTrim(typ, IsSpace, '(');
    StripCharsKeeps(Strip(typ), ";", '(');
    ContainsChar(t, '(');
    assert "(" == ['('];
  }

  /** `Property N As T [ K ] = V;`: once a keyword list follows the type, the
      default value is lost and the declaration gets the empty value, not
      `V` and not the `""` placeholder. */
  lemma DefaultAfterKeywordsLost(kind: string, n: string, typ: string, k: string, v: string)
    requires kind == "Property" || kind == "Parameter"
    requires Token(n) && Token(typ) && Token(k) && Token(v)
    requires n != "as" && typ != "as" && k != "as" && v != "as"
    requires '(' !in typ && ']' !in k && ']' !in v
    ensures var d := ParseMemberDecl(Join([kind, n, "As", typ, "[", k, "]", "=", v], " "));
      d.Ok? && d.value.value == ""
  {
    var rest := ["[", k, "]", "=", v];
    var ws := [kind, n, "As", typ] + rest;
    assert ws == [kind, n, "As", typ, "[", k, "]", "=", v];
    assert Token(kind) && Token("As") && Token("[") && Token("]") && Token("=");
    assert AllTokens(ws);
    DeclTokensOfJoin(ws);
    TypedDeclValue(Join(ws, " "), kind, n, typ, rest);
    BracketAfterType(k, v);
    ValueAfterListEmpty(k, v);
  }

  /** `Kind N As T = V ...` with `T` free of `(`: the default value is the
      rest of the line after the `=`, stripped of whitespace and `;`. */
  lemma TypedDefaultValue(line: string, kind: string, n: string, typ: string, v: string, more: seq<string>)
    requires kind == "Property" || kind == "Parameter"
    requires DeclTokens(line) == [kind, n, "As", typ, "=", v] + more
    requires '(' !in typ
    ensures ParseMemberDecl(line).Ok?
    ensures ParseMemberDecl(line).value.value == StripChars(Strip(Join([v] + more, " ")), ";")
  {
    var rest := ["=", v] + more;
    assert [kind, n, "As", typ, "=", v] + more == [kind, n, "As", typ] + rest;
    TypedDeclValue(line, kind, n, typ, rest);
    EqualsAfterType(v, more);
  }

  /** An `=` field right after the type: the value is everything after it. */
  lemma EqualsAfterType(v: string, more: seq<string>)
    ensures ValueAfterType(["=", v] + more) == StripChars(Strip(Join([v] + more, " ")), ";")
  {
    TrimByIdentity("=", IsSpace);
    LacksChar("=", "[", 0);
    assert MatchAt("=", "=", 0);
    assert (["=", v] + more)[1..] == [v] + more;
  }

  /** `Property N As T = V;` has the default `V` without its `;`. */
  lemma TypedDefaultLine(kind: string, n: string, typ: string, v: string)
    requires kind == "Property" || kind == "Parameter"
    requires Token(n) && Token(typ) && Token(v)
    requires n != "as" && typ != "as" && v != "as"
    requires '(' !in typ
    ensures var d := ParseMemberDecl(Join([kind, n, "As", typ, "=", v], " "));
      d.Ok? && d.value.value == StripChars(v, ";")
  {
    var ws := [kind, n, "As", typ, "=", v];
    assert Token(kind) && Token("As") && Token("=");
    assert AllTokens(ws);
    DeclTokensOfJoin(ws);
    assert ws == [kind, n, "As", typ, "=", v] + [];
    TypedDefaultValue(Join(ws, " "), kind, n, typ, v, []);
    assert Join([v] + [], " ") == v;
    TrimByIdentity(v, IsSpace);
  }

  /** `Property N [ K ] = V;` without a type: as after a typed keyword list,
      the default is lost, the value is empty and the type stays `%String`. */
  lemma UntypedDefaultAfterKeywordsLost(kind: string, n: string, k: string, v: string)
    requires kind == "Property" || kind == "Parameter"
    requires Token(n) && Token(k) && Token(v)
    requires n != "as" && k != "as" && v != "as"
    requires ']' !in k && ']' !in v
    ensures var d := ParseMemberDecl(Join([kind, n, "[", k, "]", "=", v], " "));
      d.Ok? && d.value.value == "" && d.value.typ == "%String"
  {
    UntypedListTokens(kind, n, k, v);
    assert [kind, n, "[", k, "]", "=", v] == [kind, n, "["] + [k, "]", "=", v];
    UntypedKeywordsValue(Join([kind, n, "[", k, "]", "=", v], " "), kind, n, [k, "]", "=", v]);
    ValueAfterListEmpty(k, v);
  }

  lemma UntypedListTokens(kind: string, n: string, k: string, v: string)
    requires kind == "Property" || kind == "Parameter"
    requires Token(n) && Token(k) && Token(v)
    requires n != "as" && k != "as" && v != "as"
    ensures DeclTokens(Join([kind, n, "[", k, "]", "=", v], " ")) == [kind, n, "[", k, "]", "=", v]
  {
    var ws := [kind, n, "[", k, "]", "=", v];
    assert AllTokens(ws) && "as" !in ws by {
      assert Token(kind) && Token("[") && Token("]") && Token("=");
    }
    DeclTokensOfJoin(ws);
  }

  /** `Kind N [ ...` without a type: the value is read past the `]` and the
      type stays `%String`. */
  lemma UntypedKeywordsValue(line: string, kind: string, n: string, rest: seq<string>)
    requires kind == "Property" || kind == "Parameter"
    requires DeclTokens(line) == [kind, n, "["] + rest
    ensures ParseMemberDecl(line).Ok?
    ensures ParseMemberDecl(line).value.value == ValueAfterKeywords(rest)
    ensures ParseMemberDecl(line).value.typ == "%String"
  {
    LacksChar("[", "=", 0);
    LacksChar("[", "As", 0);
    assert MatchAt("[", "[", 0);
    assert ([kind, n, "["] + rest)[2..][1..] == rest;
  }

  // ---------------------------------------------------------------------------
  // handle_param_type
  // ---------------------------------------------------------------------------

  /** The placeholder type of a Parameter is `%Boolean` for the two literals
      `0` and `1`, `%Integer` for any other text `int()` accepts, and
      `%String` for everything else. */
  lemma ParamTypeMeaning(value: string)
    ensures HandleParamType(value) == "%Boolean" <==> value == "0" || value == "1"
    ensures HandleParamType(value) == "%Integer" <==> ParsesAsInt(value) && value != "0" && value != "1"
    ensures HandleParamType(value) == "%String" <==> !ParsesAsInt(value)
  {
    if value == "0" || value == "1" {
      StripWord(value);
      assert DigitGroup(value);
    }
  }
}

=== FILE: members.dfy ===
/** The per-declaration helpers shared, line for line, by both scripts:
    `extract_additional_data`, `check_keyword`, `format_method_signature`,
    `format_xdata_signature`, `handle_xdata_mimetype`, `handle_param_type`, and
    the declaration parsing at the top of `handle_param_or_property`.

    Each Python `list.pop(0)` on an empty list, and each `split(sep)[1]` whose
    separator is missing, raises; both become `Error`. */
module Members {
  import opened Results
  import opened PyStr
  import opened StrFacts

  /** `line.strip().split()` */
  function Tokens(line: string): seq<string> {
    SplitWs(Strip(line))
  }

  /** `s.split(sep)[0]`: the text before the first `sep`. */
  function Before(s: string, sep: string): string
    requires |sep| > 0
  {
    Split(s, sep)[0]
  }

  /** A documentation line of the generated output. */
  predicate DocLine(l: string) {
    StartsWith(l, "///") && '\n' !in l
  }

  predicate AllDocLines(ls: seq<string>) {
    forall k :: 0 <= k < |ls| ==> DocLine(ls[k])
  }

  lemma DocLinesAppend(a: seq<string>, b: seq<string>)
    requires AllDocLines(a) && AllDocLines(b)
    ensures AllDocLines(a + b)
  {
  }

  /** A heading line followed by bullets is documentation when the items are. */
  lemma HeadedBullets(head: string, items: seq<string>, suffix: string)
    requires DocLine(head) && '\n' !in suffix
    ensures AllLack(items, '\n') ==> AllDocLines([head] + Bullets(items, suffix))
  {
    if AllLack(items, '\n') {
      DocLinesAppend([head], Bullets(items, suffix));
    }
  }

  /** `"".join([f"/// > {d.strip()}{suffix}\n" for d in items])`, as lines. */
  function Bullets(items: seq<string>, suffix: string): (r: seq<string>)
    requires '\n' !in suffix
    ensures |r| == |items|
    // one bullet per item, in order, the item stripped
    ensures forall k :: 0 <= k < |items| ==> r[k] == "/// > " + Strip(items[k]) + suffix
    ensures AllLack(items, '\n') ==> AllDocLines(r)
  {
    var r := seq(|items|, k requires 0 <= k < |items| => "/// > " + Strip(items[k]) + suffix);
    assert AllLack(items, '\n') ==> AllDocLines(r) by {
      if AllLack(items, '\n') {
        forall k | 0 <= k < |r|
          ensures DocLine(r[k])
        {
          TrimKeeps(items[k], IsSpace, '\n');
          assert r[k][..3] == "///";
        }
      }
    }
    r
  }

  /** `s.split(open)[1].split(close)[0]`, the text inside the first bracket
      pair, followed by `.strip()` when `strip` holds, then `.split(", ")`. */
  function ListInside(s: string, open: string, close: string, strip: bool): (r: seq<string>)
    requires |open| > 0 && |close| > 0 && Contains(s, open)
    ensures '\n' !in s ==> AllLack(r, '\n')
  {
    var inner := Before(SplitSecond(s, open), close);
    FieldKeeps(s, open, '\n');
    FieldKeeps(SplitSecond(s, open), close, '\n');
    TrimKeeps(inner, IsSpace, '\n');
    var text := if strip then Strip(inner) else inner;
    SplitKeeps(text, ", ", '\n');
    Split(text, ", ")
  }

  /** `s.split(close)[0].strip()` (when `strip`) `.split(", ")`: a keyword list
      read up to the first closing bracket. */
  function ListBefore(s: string, close: string, strip: bool): (r: seq<string>)
    requires |close| > 0
    ensures '\n' !in s ==> AllLack(r, '\n')
  {
    var inner := Before(s, close);
    FieldKeeps(s, close, '\n');
    TrimKeeps(inner, IsSpace, '\n');
    var text := if strip then Strip(inner) else inner;
    SplitKeeps(text, ", ", '\n');
    Split(text, ", ")
  }

  lemma ContainsLeftOf3(a: string, b: string, c: string, t: string)
    ensures Contains(a, t) ==> Contains(a + b + c, t)
  {
    ContainsConcat(a, b, t);
    ContainsConcat(a + b, c, t);
  }

  lemma TokensLackNewline(line: string)
    ensures AllLack(Tokens(line), '\n')
  {
    SpaceNotInTokens(Strip(line), '\n');
  }

  // ---------------------------------------------------------------------------
  // extract_additional_data (doxyfilter_cache.py:138-213, cachefilter.py:72-135)
  // ---------------------------------------------------------------------------

  /** The keyword bullets read from the fields that follow the first `)`:
      `fields` is `" ".join(data).split(")")[1:]`; when the first of them
      holds a `[`, the list inside the brackets follows `header`. */
  function KeywordsAfterParen(fields: seq<string>, header: string, suffix: string): (r: seq<string>)
    requires DocLine(header) && '\n' !in suffix
    ensures AllLack(fields, '\n') ==> AllDocLines(r)
  {
    if |fields| == 0 then []
    else
      var part := Strip(fields[0]);
      TrimKeeps(fields[0], IsSpace, '\n');
      if Contains(part, "[") then
        var text := part + " " + Join(fields[1..], " ");
        ContainsLeftOf3(part, " ", Join(fields[1..], " "), "[");
        JoinKeeps(fields[1..], " ", '\n');
        var kws := ListInside(text, "[", "]", true);
        [header] + Bullets(kws, suffix)
      else []
  }

  /** `" ".join(data).split(")")[1:]` */
  function FieldsAfterParen(data: seq<string>): (r: seq<string>)
    ensures AllLack(data, '\n') ==> AllLack(r, '\n')
  {
    JoinKeeps(data, " ", '\n');
    SplitKeeps(Join(data, " "), ")", '\n');
    Split(Join(data, " "), ")")[1..]
  }

  /** The Property/Parameter branch once `As <type>` has been read and the
      type holds a `(`; `data` holds the tokens after the type. */
  function TypeArgumentData(typ: string, data: seq<string>): (r: seq<string>)
    requires Contains(typ, "(")
    ensures '\n' !in typ && AllLack(data, '\n') ==> AllDocLines(r)
  {
    var joined := typ + " " + Join(data, " ");
    ContainsLeftOf3(typ, " ", Join(data, " "), "(");
    JoinKeeps(data, " ", '\n');
    var args := ListInside(joined, "(", ")", true);
    var lines := ["/// Member Additional Data:<br>"] + Bullets(args, "<br>");
    lines + KeywordsAfterParen(FieldsAfterParen(data), "/// Member Keyword Data:<br>", "<br>")
  }

  /** The Property/Parameter branch; `data` holds the tokens after the keyword. */
  function PropertyData(data: seq<string>): (r: Result<seq<string>>)
    ensures r.Ok? && AllLack(data, '\n') ==> AllDocLines(r.value)
    ensures r.Error? <==> |data| == 0 || (|data| == 2 && Contains(data[1], "As"))
  {
    if |data| == 0 then Error
    else if |data| == 1 then Ok([])
    else
      var part := data[1];
      if Contains(part, "As") then
        if |data| == 2 then Error
        else
          var typ := StripChars(Strip(data[2]), ";");
          if Contains(typ, "(") then
            TrimKeeps(data[2], IsSpace, '\n');
            StripCharsKeeps(Strip(data[2]), ";", '\n');
            Ok(TypeArgumentData(typ, data[3..]))
          else Ok([])
      else if Contains(part, "[") then Ok(MemberKeywordData(part, data[2..]))
      else Ok([])
  }

  /** The keyword list of a Property or Parameter, read from its second token
      on: one bullet per keyword between the first `[` and the next `]`. */
  function MemberKeywordData(part: string, rest: seq<string>): (r: seq<string>)
    requires Contains(part, "[")
    ensures '\n' !in part && AllLack(rest, '\n') ==> AllDocLines(r)
  {
    ContainsLeftOf3(part, " ", Join(rest, " "), "[");
    JoinKeeps(rest, " ", '\n');
    var kws := ListInside(part + " " + Join(rest, " "), "[", "]", true);
    assert '\n' !in part && AllLack(rest, '\n') ==> AllDocLines(["/// Member Keyword Data:"] + Bullets(kws, "")) by {
      if '\n' !in part && AllLack(rest, '\n') {
        assert '\n' !in part + " " + Join(rest, " ");
        DocLinesAppend(["/// Member Keyword Data:"], Bullets(kws, ""));
      }
    }
    ["/// Member Keyword Data:"] + Bullets(kws, "")
  }

  /** The Method branch; `data` holds the tokens after the keyword. */
  function MethodData(data: seq<string>): (r: Result<seq<string>>)
    ensures r.Ok? && AllLack(data, '\n') ==> AllDocLines(r.value)
    ensures r.Error? <==> |data| == 0
  {
    if |data| == 0 then Error
    else if Contains(data[0], "(") then
      Ok(KeywordsAfterParen(FieldsAfterParen(data[1..]), "/// Member Keyword Data:<br>", "<br>"))
    else Ok([])
  }

  /** The Method branch as evidently intended: the name token stays in the
      text that is cut at the first `)`, so a name token that closes its own
      argument list (`Foo()`) keeps the keyword list after it. */
  function MethodDataIntended(data: seq<string>): (r: Result<seq<string>>)
    ensures r.Ok? && AllLack(data, '\n') ==> AllDocLines(r.value)
    ensures r.Error? <==> |data| == 0
  {
    if |data| == 0 then Error
    else if Contains(data[0], "(") then
      Ok(KeywordsAfterParen(FieldsAfterParen(data), "/// Member Keyword Data:<br>", "<br>"))
    else Ok([])
  }

  /** The Index branch's free-form part: the text before the first `[`. */
  function IndexAdditional(rest: string): (r: seq<string>)
    ensures '\n' !in rest ==> AllDocLines(r)
  {
    var additional := Strip(Before(rest, "["));
    FieldKeeps(rest, "[", '\n');
    TrimKeeps(Before(rest, "["), IsSpace, '\n');
    ItemLine(additional, "<br>");
    if additional != "" then ["/// Member additional data:<br>", "/// > " + additional + "<br>"]
    else []
  }

  /** One `/// > item` line is a documentation line when the item is. */
  lemma ItemLine(item: string, suffix: string)
    requires '\n' !in suffix
    ensures '\n' !in item ==> DocLine("/// > " + item + suffix)
  {
    assert ("/// > " + item + suffix)[..3] == "///";
  }

  /** The Index branch's keyword list: between the first `[` and the next `]`. */
  function IndexKeywords(rest: string): (r: seq<string>)
    ensures '\n' !in rest ==> AllDocLines(r)
  {
    SplitHasSecond(rest, "[");
    if |Split(rest, "[")| > 1 then
      ["/// Member keyword data:<br>"] + Bullets(ListInside(rest, "[", "]", true), "<br>")
    else []
  }

  /** The Index branch; `data` holds the tokens after the keyword. */
  function IndexData(data: seq<string>): (r: Result<seq<string>>)
    ensures r.Ok? && AllLack(data, '\n') ==> AllDocLines(r.value)
    ensures r.Error? <==> |data| == 0
  {
    if |data| == 0 then Error
    else
      var rest := Strip(Join(data[1..], " "));
      JoinKeeps(data[1..], " ", '\n');
      TrimKeeps(Join(data[1..], " "), IsSpace, '\n');
      Ok(IndexAdditional(rest) + IndexKeywords(rest))
  }

  /** The XData branch; `data` holds the tokens after the keyword. */
  function XDataData(data: seq<string>): (r: seq<string>)
    ensures AllLack(data, '\n') ==> AllDocLines(r)
  {
    var rest := Strip(Join(data, " "));
    if Contains(rest, "[") then
      var kws := ListInside(rest, "[", "]", false);
      JoinKeeps(data, " ", '\n');
      TrimKeeps(Join(data, " "), IsSpace, '\n');
      HeadedBullets("/// Member keyword data:<br>", kws, "<br>");
      ["/// Member keyword data:<br>"] + Bullets(kws, "<br>")
    else []
  }

  /** The leading token `extract_additional_data` accepts. */
  predicate KnownMemberKind(kind: string) {
    kind == "Property" || kind == "Parameter"
    || Contains(kind, "Method") || Contains(kind, "Index") || Contains(kind, "XData")
  }

  /** The metadata lines `extract_additional_data` emits for a declaration. */
  function AdditionalDataLines(line: string): (r: Result<seq<string>>)
    // an unknown leading token raises `Unknown type`; a missing name, or a
    // missing type after `As`, makes a `pop` raise
    ensures var t := Tokens(line);
      r.Error? <==>
        || |t| == 0
        || !KnownMemberKind(t[0])
        || (|t| == 1 && (t[0] == "Property" || t[0] == "Parameter"
                         || Contains(t[0], "Method") || Contains(t[0], "Index")))
        || ((t[0] == "Property" || t[0] == "Parameter") && |t| == 3 && Contains(t[2], "As"))
    // every emitted line is a single `///` documentation line
    ensures r.Ok? ==> AllDocLines(r.value)
  {
    var data := Tokens(line);
    TokensLackNewline(line);
    if |data| == 0 then Error
    else
      var kind := data[0];
      if kind == "Property" || kind == "Parameter" then PropertyData(data[1..])
      else if Contains(kind, "Method") then MethodData(data[1..])
      else if Contains(kind, "Index") then IndexData(data[1..])
      else if Contains(kind, "XData") then Ok(XDataData(data[1..]))
      else Error
  }

  /** `extract_additional_data(line)`: the metadata lines, each ending in a newline. */
  function ExtractAdditionalData(line: string): Result<string> {
    var ls :- AdditionalDataLines(line);
    Ok(Lines(ls))
  }

  // ---------------------------------------------------------------------------
  // check_keyword (doxyfilter_cache.py:215-266, cachefilter.py:137-175)
  // ---------------------------------------------------------------------------

  /** `check_keyword`'s three possible results: `True` when the keyword is
      listed, `None` when a keyword list exists but lacks it (the function
      falls off its end), `False` when no keyword list was found.  Only
      `Found` is truthy. */
  datatype KeywordCheck = Found | Absent | NoList {
    predicate Truthy() {
      Found?
    }
  }

  /** The Property/Parameter branch; `data` holds the tokens after the keyword. */
  function PropertyKeywords(data: seq<string>): (r: Result<Option<seq<string>>>)
    ensures r.Error? <==> |data| == 0 || (|data| == 2 && Contains(data[1], "As"))
  {
    if |data| == 0 then Error
    else
      var data := data[1..];
      if |data| == 0 then Ok(None)
      else
        var part := data[0];
        var data := data[1..];
        if Contains(part, "As") then
          if |data| == 0 then Error
          else
            var typ := StripChars(Strip(data[0]), ";");
            if Contains(typ, "(") then
              var rest := Split(Join(data[1..], " "), ")")[1..];
              if |rest| == 0 then Ok(None)
              else if Contains(Strip(rest[0]), "[") then Ok(Some(ListBefore(Join(rest[1..], " "), "]", true)))
              else Ok(None)
            else Ok(None)
        else if Contains(part, "[") then Ok(Some(ListBefore(Join(data, " "), "]", false)))
        else Ok(None)
  }

  /** The Method branch; `data` holds the tokens after the keyword. */
  function MethodKeywords(data: seq<string>): Option<seq<string>> {
    var rest := Split(Join(data, " "), ")")[1..];
    if |rest| == 0 then None
    else
      var part := Strip(rest[0]);
      if Contains(part, "[") then
        StripIdempotent(rest[0]);
        Some(ListInside(Strip(part), "[", "]", false))
      else None
  }

  /** The Class branch; `"[" in data` is list membership: a bare `[` token. */
  function ClassKeywords(data: seq<string>): Option<seq<string>> {
    if "[" in data then
      var k :| 0 <= k < |data| && data[k] == "[";
      JoinContainsPart(data, " ", k);
      Some(ListInside(Join(data, " "), "[", "]", true))
    else None
  }

  /** The leading token `check_keyword` accepts; note `type in "Class"` is a
      substring test against the literal `"Class"`. */
  predicate KnownKeywordKind(kind: string) {
    kind == "Property" || kind == "Parameter" || Contains(kind, "Method") || Contains("Class", kind)
  }

  /** `line.replace(" as ", " As ").strip().split()` */
  function KeywordTokens(line: string): seq<string> {
    SplitWs(Strip(Replace(line, " as ", " As ")))
  }

  /** The keyword list `check_keyword` finds, or `None` where it leaves `keywords = ""`. */
  function KeywordList(line: string): (r: Result<Option<seq<string>>>)
    ensures var t := KeywordTokens(line);
      r.Error? <==>
        || |t| == 0
        || !KnownKeywordKind(t[0])
        || ((t[0] == "Property" || t[0] == "Parameter") && (|t| == 1 || (|t| == 3 && Contains(t[2], "As"))))
  {
    var data := KeywordTokens(line);
    if |data| == 0 then Error
    else
      var kind := data[0];
      if kind == "Property" || kind == "Parameter" then PropertyKeywords(data[1..])
      else if Contains(kind, "Method") then Ok(MethodKeywords(data[1..]))
      else if Contains("Class", kind) then Ok(ClassKeywords(data[1..]))
      else Error
  }

  /** Some entry of `list`, once stripped, equals `keyword`. */
  predicate Lists(list: seq<string>, keyword: string) {
    exists k :: 0 <= k < |list| && Strip(list[k]) == keyword
  }

  /** `check_keyword(line, keyword)` */
  function CheckKeyword(line: string, keyword: string): (r: Result<KeywordCheck>)
    ensures r.Error? <==> KeywordList(line).Error?
    ensures r.Ok? ==> (r.value.NoList? <==> KeywordList(line).value.None?)
    ensures r.Ok? && KeywordList(line).value.Some? ==>
              (r.value.Truthy() <==> Lists(KeywordList(line).value.value, keyword))
  {
    var ks :- KeywordList(line);
    match ks
    case None => Ok(NoList)
    case Some(list) =>
      var stripped := StripEach(list);
      assert keyword in stripped <==> Lists(list, keyword);
      Ok(if keyword in stripped then Found else Absent)
  }

  // ---------------------------------------------------------------------------
  // format_method_signature (doxyfilter_cache.py:268-322, cachefilter.py:177-219)
  // ---------------------------------------------------------------------------

  /** `line.strip().replace(" as ", " As ")` */
  function SignatureLine(line: string): string {
    Replace(Strip(line), " as ", " As ")
  }

  /** The return type: the first space-separated word after the first `As`
      that follows the first `)`, with `;` stripped, or `void` when there is
      no `As` there.  With no `)` at all the Python variable still holds the
      one-element list `line.split(")")`, which the f-string renders as
      `['<line>']`. */
  function ReturnType(l: string): (t: string)
    ensures Contains(l, ")") ==> ' ' !in t
    ensures Contains(l, ")") && !Contains(SplitSecond(l, ")"), "As") ==> t == "void"
    ensures !Contains(l, ")") ==> t == "[" + Repr(l) + "]"
  {
    var parts := Split(l, ")");
    SplitHasSecond(l, ")");
    if |parts| > 1 then
      var t := Split(LStrip(parts[1]), "As");
      SplitHasSecond(LStrip(parts[1]), "As");
      assert parts[1] == SplitSecond(l, ")");
      assert Contains(LStrip(parts[1]), "As") ==> Contains(parts[1], "As") by {
        var n := Lead(parts[1], IsSpace);
        assert parts[1] == parts[1][..n] + LStrip(parts[1]);
        ContainsConcat(parts[1][..n], LStrip(parts[1]), "As");
      }
      if |t| > 1 then
        var word := Before(LStrip(t[1]), " ");
        SplitPartsLackSep(LStrip(t[1]), " ");
        ContainsChar(word, ' ');
        assert " " == [' '];
        StripCharsKeeps(word, ";", ' ');
        StripChars(word, ";")
      else "void"
    else "[" + Repr(l) + "]"
  }

  /** `<return type> <name>)`, where the name is the text between the method
      keyword and the first `)`, stripped. */
  function MethodDeclarator(l: string, keyword: string): (r: Result<string>)
    requires |keyword| > 0
    ensures StartsWith(l, keyword) && ')' !in keyword ==> r.Ok?
    ensures r.Ok? ==> |r.value| > 0 && r.value[|r.value| - 1] == ')'
  {
    var head := Before(l, ")");
    FirstFieldPrefix(l, ")", keyword);
    PrefixContained(head, keyword);
    if Contains(head, keyword) then
      Ok(ReturnType(l) + " " + Strip(SplitSecond(head, keyword)) + ")")
    else Error
  }

  lemma MethodKeywordsAreParenFree()
    ensures ')' !in "ClassMethod" && ')' !in "Method" && ')' !in "ClientMethod"
  {
  }

  /** A line starts with at most one of the three method keywords. */
  lemma MethodPrefixesExclusive(l: string)
    ensures StartsWith(l, "ClassMethod") ==> !StartsWith(l, "Method") && !StartsWith(l, "ClientMethod")
    ensures StartsWith(l, "Method") ==> !StartsWith(l, "ClientMethod")
  {
    if StartsWith(l, "ClassMethod") {
      assert l[0] == 'C' && l[2] == 'a';
    }
    if StartsWith(l, "Method") {
      assert l[0] == 'M';
    }
  }

  /** The signature of an already normalised method line `l`. */
  function MethodSignature(l: string): (r: Result<string>)
    ensures StartsWith(l, "ClassMethod") ==> r == Ok("static " + MethodDeclarator(l, "ClassMethod").value)
    ensures StartsWith(l, "Method") && CheckKeyword(l, "Abstract").Ok? ==>
              r == Ok((if CheckKeyword(l, "Abstract").value.Truthy() then "virtual " else "")
                      + MethodDeclarator(l, "Method").value)
    ensures StartsWith(l, "ClientMethod") ==> r.Ok? && r == MethodDeclarator(l, "ClientMethod")
    ensures r.Error? <==>
              || (!StartsWith(l, "ClassMethod") && !StartsWith(l, "Method") && !StartsWith(l, "ClientMethod"))
              || (StartsWith(l, "Method") && CheckKeyword(l, "Abstract").Error?)
  {
    MethodKeywordsAreParenFree();
    MethodPrefixesExclusive(l);
    if StartsWith(l, "ClassMethod") then
      Ok("static " + MethodDeclarator(l, "ClassMethod").value)
    else if StartsWith(l, "Method") then
      var isAbstract :- CheckKeyword(l, "Abstract");
      Ok((if isAbstract.Truthy() then "virtual " else "") + MethodDeclarator(l, "Method").value)
    else if StartsWith(l, "ClientMethod") then
      MethodDeclarator(l, "ClientMethod")
    else Error
  }

  /** `format_method_signature(line)` */
  function FormatMethodSignature(line: string): Result<string> {
    MethodSignature(SignatureLine(line))
  }

  // ---------------------------------------------------------------------------
  // format_xdata_signature, handle_xdata_mimetype, handle_param_type
  // ---------------------------------------------------------------------------

  /** `format_xdata_signature(line)`: `XData <name>;`, the name being the first
      space-separated word after `XData `. */
  function FormatXDataSignature(line: string): (r: Result<string>)
    ensures r.Ok? <==> StartsWith(line, "XData ")
    ensures r.Ok? ==> exists name :: r.value == "XData " + name + ";" && ' ' !in name
  {
    if StartsWith(line, "XData ") then
      PrefixContained(line, "XData ");
      var word := Before(SplitSecond(line, "XData "), " ");
      SplitPartsLackSep(SplitSecond(line, "XData "), " ");
      ContainsChar(word, ' ');
      TrimKeeps(word, IsSpace, ' ');
      Ok("XData " + Strip(word) + ";")
    else Error
  }

  /** The XData signature the filter evidently means to produce: `XData
      <name>;`, the name being the first word after the `XData ` prefix.
      Unlike `FormatXDataSignature` it does not split the rest of the line on
      `XData `, so a block whose name ends in `XData` keeps its whole name. */
  function XDataSignature(line: string): (r: Result<string>)
    ensures r.Ok? <==> StartsWith(line, "XData ")
    ensures r.Ok? ==> exists name :: r.value == "XData " + name + ";" && ' ' !in name
  {
    if StartsWith(line, "XData ") then
      var word := Before(line[|"XData "|..], " ");
      SplitPartsLackSep(line[|"XData "|..], " ");
      ContainsChar(word, ' ');
      TrimKeeps(word, IsSpace, ' ');
      Ok("XData " + Strip(word) + ";")
    else Error
  }

  /** `handle_xdata_mimetype(line)` */
  function XDataMimetype(line: string): (r: Result<string>)
    // no `[`, or no `MimeType` between the first and the second `[`: the default
    ensures !Contains(line, "[") ==> r == Ok("application/xml")
    ensures Contains(line, "[") && !Contains(SplitSecond(line, "["), "MimeType") ==> r == Ok("application/xml")
    // `MimeType` without `MimeType = ` after it makes `split(...)[1]` raise
    ensures r.Error? <==> Contains(line, "[") && Contains(SplitSecond(line, "["), "MimeType")
                           && !Contains(SplitSecond(line, "["), "MimeType = ")
    // otherwise the stripped text after `MimeType = `, up to the next `]`
    ensures r.Ok? && Contains(line, "[") && Contains(SplitSecond(line, "["), "MimeType") ==>
              && !Contains(r.value, "]") && !Contains(r.value, "[")
              && Strip(r.value) == r.value
  {
    var parts := Split(line, "[");
    SplitHasSecond(line, "[");
    if |parts| > 1 then
      var segment := parts[1];
      assert segment == SplitSecond(line, "[");
      if Contains(segment, "MimeType") then
        if Contains(segment, "MimeType = ") then
          var inner := Before(SplitSecond(segment, "MimeType = "), "]");
          SplitPartsLackSep(SplitSecond(segment, "MimeType = "), "]");
          SplitPartsLackSep(line, "[");
          ContainsChar(inner, ']');
          ContainsChar(segment, '[');
          FieldKeeps(segment, "MimeType = ", '[');
          FieldKeeps(SplitSecond(segment, "MimeType = "), "]", '[');
          TrimKeeps(inner, IsSpace, ']');
          TrimKeeps(inner, IsSpace, '[');
          ContainsChar(Strip(inner), ']');
          ContainsChar(Strip(inner), '[');
          StripIdempotent(inner);
          Ok(Strip(inner))
        else Error
      else Ok("application/xml")
    else Ok("application/xml")
  }

  /** `handle_param_type(value)`: the placeholder type of a Parameter's default. */
  function HandleParamType(value: string): string {
    if value == "0" || value == "1" then "%Boolean"
    else if ParsesAsInt(value) then "%Integer"
    else "%String"
  }

  // ---------------------------------------------------------------------------
  // the declaration parse of handle_param_or_property
  // (doxyfilter_cache.py:440-486, cachefilter.py:291-337)
  // ---------------------------------------------------------------------------

  /** What `handle_param_or_property` reads off a declaration line. */
  datatype MemberDecl = MemberDecl(kind: string, name: string, typ: string, value: string)

  /** The default-value tail after `As T` or a bracket: a value only when an
      `=` starts the next field. */
  function ValueAfterKeywords(data: seq<string>): string {
    var rest := Split(Join(data, " "), "]")[1..];
    if |rest| == 0 then "\"\""
    else if Contains(Strip(rest[0]), "=") then StripChars(Strip(Join(rest[1..], " ")), ";")
    else "\"\""
  }

  function ValueAfterType(data: seq<string>): string {
    if |data| == 0 then "\"\""
    else
      var part := Strip(data[0]);
      if Contains(part, "[") then ValueAfterKeywords(data[1..])
      else if Contains(part, "=") then StripChars(Strip(Join(data[1..], " ")), ";")
      else "\"\""
  }

  /** `line.strip().replace(" as ", " As ").split()` */
  function DeclTokens(line: string): seq<string> {
    SplitWs(Replace(Strip(line), " as ", " As "))
  }

  /** Name, type and value of a Parameter/Property line; `%String` and `""`
      unless the line says otherwise. */
  function ParseMemberDecl(line: string): (r: Result<MemberDecl>)
    ensures var t := DeclTokens(line);
      r.Error? <==>
        || |t| < 2
        || (t[0] != "Parameter" && t[0] != "Property")
        || (|t| == 3 && !Contains(t[2], "=") && Contains(t[2], "As"))
    ensures r.Ok? ==> r.value.kind == DeclTokens(line)[0]
    ensures r.Ok? ==> r.value.kind == "Parameter" || r.value.kind == "Property"
    ensures r.Ok? ==> r.value.name == StripChars(DeclTokens(line)[1], ";")
    ensures r.Ok? && |DeclTokens(line)| == 2 ==> r.value.typ == "%String" && r.value.value == "\"\""
    // `= value`: the value is the rest of the line, stripped of whitespace and `;`
    ensures r.Ok? && |DeclTokens(line)| > 2 && Contains(DeclTokens(line)[2], "=") ==>
              && r.value.value == StripChars(Strip(Join(DeclTokens(line)[3..], " ")), ";")
              && r.value.typ == HandleParamType(r.value.value)
    // `As T`: the type is the next token up to its first `(`, `;` stripped
    ensures r.Ok? && |DeclTokens(line)| > 2 && !Contains(DeclTokens(line)[2], "=") && Contains(DeclTokens(line)[2], "As") ==>
              |DeclTokens(line)| > 3 && r.value.typ == Before(StripChars(Strip(DeclTokens(line)[3]), ";"), "(")
    // otherwise (a keyword list or anything else) the type stays `%String`
    ensures r.Ok? && |DeclTokens(line)| > 2 && !Contains(DeclTokens(line)[2], "=") && !Contains(DeclTokens(line)[2], "As") ==>
              r.value.typ == "%String"
  {
    var data := DeclTokens(line);
    if |data| == 0 || (data[0] != "Parameter" && data[0] != "Property") then Error
    else if |data| == 1 then Error
    else
      var kind := data[0];
      var name := StripChars(data[1], ";");
      var data := data[2..];
      if |data| == 0 then Ok(MemberDecl(kind, name, "%String", "\"\""))
      else
        var part := data[0];
        var data := data[1..];
        if Contains(part, "=") then
          var value := StripChars(Strip(Join(data, " ")), ";");
          Ok(MemberDecl(kind, name, HandleParamType(value), value))
        else if Contains(part, "As") then
          if |data| == 0 then Error
          else
            var typ := StripChars(Strip(data[0]), ";");
            var data := data[1..];
            if Contains(typ, "(") then
              Ok(MemberDecl(kind, name, Before(typ, "("), ValueAfterType(Split(Join(data, " "), ")")[1..])))
            else
              SplitWhole(typ, "(");
              Ok(MemberDecl(kind, name, typ, ValueAfterType(data)))
        else if Contains(part, "[") then
          Ok(MemberDecl(kind, name, "%String", ValueAfterKeywords(data)))
        else Ok(MemberDecl(kind, name, "%String", "\"\""))
  }
}

=== FILE: methodrun.dfy ===
/** A Private ClassMethod read by cachefilter.py from its header to its
    closing brace: `check_keyword(line, "Private")` raises the module-level
    `private_method`, so the block is emitted to the private section. */
module MethodRun {
  import opened Results
  import opened PyStr
  import opened StrFacts
  import opened TokenFacts
  import opened Members
  import opened Handlers
  import opened Filter
  import opened FilterFacts
  import opened KeywordFacts
  import opened LineFacts

  /** `<kw> <hs> [ k1, k2, ... ]` as a join of its tokens. */
  lemma KindLineJoin(kw: string, hs: seq<string>, ks: seq<string>, semi: string)
    requires |hs| > 0 && |ks| > 0
    ensures Join([kw] + (hs + BracketTokens(ks, semi)), " ")
              == kw + " " + Join(hs, " ") + " [ " + Join(ks, ", ") + " ]" + semi
  {
    BracketLine(hs, ks, semi);
    JoinAppend([kw], hs + BracketTokens(ks, semi), " ");
  }

  /** A method header, as a join of tokens, has the metadata the method
      branch of `extract_additional_data` computes. */
  lemma MethodHeaderMetadata(line: string, kw: string, rest: seq<string>, tail: string)
    requires kw == "Method" || kw == "ClassMethod" || kw == "ClientMethod"
    requires |rest| > 0 && AllTokens([kw] + rest) && Blank(tail) && line == Join([kw] + rest, " ") + tail
    ensures ExtractAdditionalData(line).Ok?
  {
    MethodKinds(kw);
    SplitWsTail([kw] + rest, tail);
    assert Tokens(line) == [kw] + rest;
    assert kw != "Property" && kw != "Parameter";
  }

  /** The header of a Private ClassMethod: `ClassMethod <ds> [ <ks> ]`, then
      `semi` (nothing or `;`) and `nl` (nothing or the newline), the header
      tokens `ds` holding the first `)` (`a)b`, the parameters before it and
      the return clause after it), `Private` among the keywords, and no tab
      and no other `;` to normalise. */
  predicate PrivateClassMethodLine(line: string, ds: seq<string>, a: string, b: string, ks: seq<string>,
                                   semi: string, nl: string) {
    var head := "ClassMethod " + Join(ds, " ") + " [ " + Join(ks, ", ") + " ]";
    && line == head + semi + nl && Semi(semi) && (nl == "" || nl == "\n")
    && |ds| > 0 && AllTokens(ds) && "as" !in ds
    && Join(ds, " ") == a + ")" + b && ')' !in a && ')' !in b && '[' !in b
    && KeywordEntries(ks) && "Private" in ks
    && '\t' !in head && ';' !in head
  }

  /** A line that is neither a class header nor an include, met in the
      class body with no block open, is read by the class body. */
  lemma ClassBodyBranch(s: State, line: string, scope: Scope)
    requires s.inClass && !s.inXData && !s.inStorage && !s.inClassMethod && !s.inMethod
    requires Normalize(line) == line && !StartsWith(line, "Class ") && !StartsWith(line, "Include ")
    ensures Step(s, line, scope) == ClassBody(s, line, scope)
  {
  }

  /** A normalised `ClassMethod ` line met in the class body goes to the
      ClassMethod branch. */
  lemma ClassMethodBranch(s: State, line: string, scope: Scope)
    requires s.inClass && !s.inXData && !s.inStorage && !s.inClassMethod && !s.inMethod
    requires Normalize(line) == line && StartsWith(line, "ClassMethod ")
    ensures Step(s, line, scope) == Lift(OpenClassMethod(s, line, scope))
  {
    PrefixesDiffer(line, "ClassMethod ", "Class ", 5);
    PrefixesDiffer(line, "ClassMethod ", "Include ", 0);
    ClassBodyBranch(s, line, scope);
    PrefixesDiffer(line, "ClassMethod ", "Property ", 0);
    PrefixesDiffer(line, "ClassMethod ", "Parameter ", 0);
    PrefixesDiffer(line, "ClassMethod ", "Index ", 0);
  }

  /** A line cannot start with two prefixes that differ at a common index. */
  lemma PrefixesDiffer(line: string, p: string, q: string, i: nat)
    requires StartsWith(line, p) && i < |p| && i < |q| && p[i] != q[i]
    ensures !StartsWith(line, q)
  {
    assert line[i] == p[i];
    if |q| <= |line| {
      assert line[..|q|][i] == line[i];
    }
  }

  /** The opening brace of a ClassMethod block, and its newline, are kept in
      the block. */
  lemma OpenBraceStep(s: State, nl: string, scope: Scope)
    requires s.inClassMethod && !s.inXData && !s.inStorage && (nl == "" || nl == "\n")
    ensures Step(s, "{" + nl, scope) == Next(s.(methodContent := s.methodContent + ("{" + nl)))
  {
    NormalizeUnchanged("{" + nl);
    assert ("{" + nl)[..1] == "{";
  }

  /** The closing brace of a ClassMethod block closes it. */
  lemma CloseBraceStep(s: State, nl: string, scope: Scope)
    requires s.inClassMethod && !s.inXData && !s.inStorage && (nl == "" || nl == "\n")
    ensures Step(s, "}" + nl, scope) == Next(CloseMethod(s, "}" + nl))
  {
    NormalizeUnchanged("}" + nl);
    assert ("}" + nl)[..1] == "}";
    assert !StartsWith("}" + nl, "{");
  }

  /** The flags once the Private header has been read. */
  lemma EnteredPrivate(s: State, meta: string, sig: string)
    requires s.inClass && !s.inXData && !s.inStorage && !s.inMethod
    ensures var u := EnterMethod(s, InClassMethod, ModuleGlobals, map[PrivateMethod := Found], "", meta, sig);
      && u.inClassMethod && u.privateMethod && u.inClass && !u.inXData && !u.inStorage && !u.inMethod
      && u.abstractMethod == s.abstractMethod && u.methodSignature == sig
  {
    var u := EnterMethod(s, InClassMethod, ModuleGlobals, map[PrivateMethod := Found], "", meta, sig);
    assert PrivateMethod in map[PrivateMethod := Found];
    assert InClass !in {InClassMethod} + {PrivateMethod};
    assert InXData !in {InClassMethod} + {PrivateMethod};
    assert InStorage !in {InClassMethod} + {PrivateMethod};
    assert AbstractMethod !in {InClassMethod} + {PrivateMethod};
    assert InMethod !in {InClassMethod} + {PrivateMethod};
  }

  /** Closing a static signature's block leaves the class open and no block
      pending. */
  lemma ClosedStatic(v: State, line: string)
    requires Contains(v.methodSignature, "static") && v.inClass && !v.inMethod
    ensures var w := CloseMethod(v, line);
      w.inClass && !w.inClassMethod && !w.inMethod
  {
    var w := CloseMethod(v, line);
    assert InClass !in {PrivateMethod, AbstractMethod, InClassMethod, InMethod};
    assert InClass in v.flags - {PrivateMethod, AbstractMethod, InClassMethod, InMethod};
  }

  /** The header is `ClassMethod` followed by its tokens. */
  lemma PrivateHeaderTokens(line: string, ds: seq<string>, a: string, b: string, ks: seq<string>,
                            semi: string, nl: string)
    requires PrivateClassMethodLine(line, ds, a, b, ks, semi, nl)
    ensures line == Join(["ClassMethod"] + (ds + BracketTokens(ks, semi)), " ") + nl
    ensures AllTokens(["ClassMethod"] + (ds + BracketTokens(ks, semi)))
    ensures "as" !in ["ClassMethod"] + (ds + BracketTokens(ks, semi))
    ensures EndsClear(["ClassMethod"] + (ds + BracketTokens(ks, semi)))
    ensures Blank(nl)
  {
    var rest := ds + BracketTokens(ks, semi);
    assert "ClassMethod" + " " == "ClassMethod ";
    KindLineJoin("ClassMethod", ds, ks, semi);
    MethodKinds("ClassMethod");
    BracketTokensOk(ks, semi);
    assert AllTokens(rest);
    var ws := ["ClassMethod"] + rest;
    assert ws[|ws| - 1] == BracketTokens(ks, semi)[|BracketTokens(ks, semi)| - 1];
  }

  /** The signature is read from the line as it stands, its newline stripped. */
  lemma PrivateHeaderSignature(line: string, ds: seq<string>, a: string, b: string, ks: seq<string>,
                               semi: string, nl: string)
    requires PrivateClassMethodLine(line, ds, a, b, ks, semi, nl)
    ensures FormatMethodSignature(line).Ok?
    ensures StartsWith(FormatMethodSignature(line).value, "static ")
  {
    var ws := ["ClassMethod"] + (ds + BracketTokens(ks, semi));
    PrivateHeaderTokens(line, ds, a, b, ks, semi, nl);
    // the stripped line is free of ` as `, so the signature sees it whole
    StripTail(ws, nl);
    JoinLacksAsAnywhere(ws);
    var j := Join(ws, " ");
    ReplaceAbsent(j, " as ", " As ");
    assert SignatureLine(line) == j;
    assert j[..11] == "ClassMethod";
  }

  /** The header's keyword list, metadata and signature. */
  lemma PrivateHeaderParts(line: string, ds: seq<string>, a: string, b: string, ks: seq<string>,
                           semi: string, nl: string)
    requires PrivateClassMethodLine(line, ds, a, b, ks, semi, nl)
    ensures CheckKeyword(line, "Private") == Ok(Found)
    ensures ExtractAdditionalData(line).Ok? && FormatMethodSignature(line).Ok?
    ensures StartsWith(FormatMethodSignature(line).value, "static ")
    ensures Normalize(line) == line && StartsWith(line, "ClassMethod ")
  {
    PrivateHeaderKeyword(line, ds, a, b, ks, semi, nl);
    PrivateHeaderTokens(line, ds, a, b, ks, semi, nl);
    MethodHeaderMetadata(line, "ClassMethod", ds + BracketTokens(ks, semi), nl);
    PrivateHeaderNormal(line, ds, a, b, ks, semi, nl);
    PrivateHeaderSignature(line, ds, a, b, ks, semi, nl);
  }

  lemma PrivateHeaderKeyword(line: string, ds: seq<string>, a: string, b: string, ks: seq<string>,
                             semi: string, nl: string)
    requires PrivateClassMethodLine(line, ds, a, b, ks, semi, nl)
    ensures CheckKeyword(line, "Private") == Ok(Found)
  {
    assert "ClassMethod" + " " == "ClassMethod ";
    MethodKeywordsListed("ClassMethod", ds, a, b, ks, semi, nl, "Private");
  }

  lemma PrivateHeaderNormal(line: string, ds: seq<string>, a: string, b: string, ks: seq<string>,
                            semi: string, nl: string)
    requires PrivateClassMethodLine(line, ds, a, b, ks, semi, nl)
    ensures Normalize(line) == line && StartsWith(line, "ClassMethod ")
  {
    var head := "ClassMethod " + Join(ds, " ") + " [ " + Join(ks, ", ") + " ]";
    assert head[|head| - 1] == ']';
    NormalizeClosedSemi(head, semi, nl);
    assert line[..12] == "ClassMethod ";
  }

  /** The header line opens a ClassMethod block with `private_method` raised. */
  lemma PrivateHeaderStep(s: State, line: string, ds: seq<string>, a: string, b: string, ks: seq<string>,
                          semi: string, nl: string)
    requires s.inClass && !s.inXData && !s.inStorage && !s.inClassMethod && !s.inMethod
    requires PrivateClassMethodLine(line, ds, a, b, ks, semi, nl)
    ensures ExtractAdditionalData(line).Ok? && FormatMethodSignature(line).Ok?
    ensures StartsWith(FormatMethodSignature(line).value, "static ")
    ensures Step(s, line, ModuleGlobals)
              == Next(EnterMethod(s, InClassMethod, ModuleGlobals, map[PrivateMethod := Found], "",
                                  ExtractAdditionalData(line).value, FormatMethodSignature(line).value))
  {
    PrivateHeaderParts(line, ds, a, b, ks, semi, nl);
    ClassMethodBranch(s, line, ModuleGlobals);
  }

  /** An empty body `{`, `}` of an open static block: the braces join the
      block, which goes to the section `private_method` selects. */
  lemma EmptyBodyRun(u: State, nl: string)
    requires u.inClassMethod && !u.inXData && !u.inStorage && u.inClass && !u.inMethod
    requires Contains(u.methodSignature, "static") && (nl == "" || nl == "\n")
    ensures Run(u, ["{" + nl, "}" + nl], ModuleGlobals)
              == Next(CloseMethod(u.(methodContent := u.methodContent + ("{" + nl)), "}" + nl))
  {
    OpenBraceStep(u, nl, ModuleGlobals);
    var v := u.(methodContent := u.methodContent + ("{" + nl));
    RunCons(u, v, ["{" + nl, "}" + nl], ModuleGlobals);
    CloseBraceStep(v, nl, ModuleGlobals);
    assert ["{" + nl, "}" + nl][1..] == ["}" + nl];
    RunCons(v, CloseMethod(v, "}" + nl), ["}" + nl], ModuleGlobals);
    assert ["}" + nl][1..] == [];
  }

  /** A Private ClassMethod at module level, followed by its empty body `{`
      and `}` (every line with or without its newline `nl`): the pending
      comments, the metadata, the static signature and the braces form one
      entry of the private section; the public section does not change and
      the class stays open with no block pending. */
  lemma PrivateClassMethodRun(s: State, line: string, ds: seq<string>, a: string, b: string, ks: seq<string>,
                              semi: string, nl: string)
    requires s.inClass && !s.inXData && !s.inStorage && !s.inClassMethod && !s.inMethod
    requires PrivateClassMethodLine(line, ds, a, b, ks, semi, nl)
    ensures ExtractAdditionalData(line).Ok? && FormatMethodSignature(line).Ok?
    ensures StartsWith(FormatMethodSignature(line).value, "static ")
    ensures Run(s, [line, "{" + nl, "}" + nl], ModuleGlobals).Next?
    ensures var t := Run(s, [line, "{" + nl, "}" + nl], ModuleGlobals).state;
      var (mc, cs) := TakeComments(s.methodContent, s.comments);
      && t.privateContent
           == s.privateContent
              + MethodEntry(s.abstractMethod,
                            WithMetadata(mc, ExtractAdditionalData(line).value)
                            + FormatMethodSignature(line).value + "\n" + ("{" + nl) + ("}" + nl))
      && t.publicContent == s.publicContent
      && t.comments == cs
      && t.inClass && !t.inClassMethod && !t.inMethod && !t.privateMethod && t.methodContent == ""
  {
    PrivateRunCloses(s, line, ds, a, b, ks, semi, nl);
    var sig := FormatMethodSignature(line).value;
    var meta := ExtractAdditionalData(line).value;
    PrivateBlockClosed(s, meta, sig, nl);
  }

  lemma StaticContained(sig: string)
    requires StartsWith(sig, "static ")
    ensures Contains(sig, "static")
  {
    PrefixContained(sig, "static");
    assert sig[..6] == sig[..7][..6];
  }

  /** The three lines run to the state that closing the block gives. */
  lemma PrivateRunCloses(s: State, line: string, ds: seq<string>, a: string, b: string, ks: seq<string>,
                         semi: string, nl: string)
    requires s.inClass && !s.inXData && !s.inStorage && !s.inClassMethod && !s.inMethod
    requires PrivateClassMethodLine(line, ds, a, b, ks, semi, nl)
    ensures ExtractAdditionalData(line).Ok? && FormatMethodSignature(line).Ok?
    ensures StartsWith(FormatMethodSignature(line).value, "static ")
    ensures Contains(FormatMethodSignature(line).value, "static")
    ensures var u := EnterMethod(s, InClassMethod, ModuleGlobals, map[PrivateMethod := Found], "",
                                 ExtractAdditionalData(line).value, FormatMethodSignature(line).value);
      Run(s, [line, "{" + nl, "}" + nl], ModuleGlobals)
        == Next(CloseMethod(u.(methodContent := u.methodContent + ("{" + nl)), "}" + nl))
  {
    PrivateHeaderStep(s, line, ds, a, b, ks, semi, nl);
    var sig := FormatMethodSignature(line).value;
    var meta := ExtractAdditionalData(line).value;
    StaticContained(sig);
    var u := EnterMethod(s, InClassMethod, ModuleGlobals, map[PrivateMethod := Found], "", meta, sig);
    EnteredPrivate(s, meta, sig);
    RunCons(s, u, [line, "{" + nl, "}" + nl], ModuleGlobals);
    assert [line, "{" + nl, "}" + nl][1..] == ["{" + nl, "}" + nl];
    EmptyBodyRun(u, nl);
  }

  /** A private static block entered from `s` and closed right after its `{`:
      one entry goes to the private section and the class stays open. */
  lemma PrivateBlockClosed(s: State, meta: string, sig: string, nl: string)
    requires s.inClass && !s.inXData && !s.inStorage && !s.inMethod && Contains(sig, "static")
    ensures var u := EnterMethod(s, InClassMethod, ModuleGlobals, map[PrivateMethod := Found], "", meta, sig);
      var w := CloseMethod(u.(methodContent := u.methodContent + ("{" + nl)), "}" + nl);
      var (mc, cs) := TakeComments(s.methodContent, s.comments);
      && w.privateContent == s.privateContent + MethodEntry(s.abstractMethod, WithMetadata(mc, meta) + sig + "\n" + ("{" + nl) + ("}" + nl))
      && w.publicContent == s.publicContent
      && w.comments == cs
      && w.inClass && !w.inClassMethod && !w.inMethod && !w.privateMethod && w.methodContent == ""
  {
    var u := EnterMethod(s, InClassMethod, ModuleGlobals, map[PrivateMethod := Found], "", meta, sig);
    var v := u.(methodContent := u.methodContent + ("{" + nl));
    EnteredPrivate(s, meta, sig);
    var (mc, cs) := TakeComments(s.methodContent, s.comments);
    assert mc + "" == mc;
    assert v.methodContent == WithMetadata(mc, meta) + sig + "\n" + ("{" + nl);
    ClosedStatic(v, "}" + nl);
  }

}

=== FILE: patterns.dfy ===
// The filter's two regular expressions, written as leftmost scanners.
//
// `comment_pattern` (compiled with DOTALL) has two alternatives: a `//`
// comment running to the end of the line, or the shortest span that opens
// with slash-star and closes with star-slash.  `comment_chars_pattern`
// matches a run of two or more slashes.  The filter only ever uses them
// through `search(...).group(0)`.
module CommentPatterns {
  import opened Results
  import opened PyStr
  import opened StrFacts
  import opened TokenFacts

  /** End of the match of `comment_pattern` that starts at `i`, if any. */
  function CommentMatchAt(s: string, i: nat): (r: Option<nat>)
    requires i <= |s|
    ensures r.Some? ==> i + 2 <= r.value <= |s|
    // first alternative: `//` and then everything up to, not including, the next newline
    ensures MatchAt(s, "//", i) ==> r.Some?
    ensures MatchAt(s, "//", i) ==> forall j :: i <= j < r.value ==> s[j] != '\n'
    ensures MatchAt(s, "//", i) ==> r.value == |s| || s[r.value] == '\n'
    // second alternative: `/*`, then the shortest run of any characters, then `*/`
    ensures !MatchAt(s, "//", i) && MatchAt(s, "/*", i) ==>
              (r.Some? <==> exists k :: i + 2 <= k && MatchAt(s, "*/", k))
    ensures !MatchAt(s, "//", i) && r.Some? ==>
              && MatchAt(s, "/*", i)
              && i + 4 <= r.value
              && MatchAt(s, "*/", r.value - 2)
              && forall k :: i + 2 <= k < r.value - 2 ==> !MatchAt(s, "*/", k)
    // neither alternative can start here
    ensures !MatchAt(s, "//", i) && !MatchAt(s, "/*", i) ==> r.None?
  {
    if MatchAt(s, "//", i) then
      var e := match FindFrom(s, "\n", i + 2) case Some(e) => e case None => |s|;
      assert forall j :: i + 2 <= j < e ==> !MatchAt(s, "\n", j);
      assert forall j :: i <= j < e ==> s[j] != '\n' by {
        forall j | i <= j < e
          ensures s[j] != '\n'
        {
          if i + 2 <= j {
            assert !MatchAt(s, "\n", j);
            assert s[j..j + 1] == [s[j]];
            assert "\n" == ['\n'];
          } else {
            assert s[i..i + 2] == "//";
            assert s[j] == s[i..i + 2][j - i];
          }
        }
      }
      assert e < |s| ==> MatchAt(s, "\n", e);
      assert e < |s| ==> s[e] == s[e..e + 1][0];
      Some(e)
    else if MatchAt(s, "/*", i) then
      match FindFrom(s, "*/", i + 2)
      case Some(k) => Some(k + 2)
      case None => None
    else None
  }

  /** Leftmost match of `comment_pattern` at or after `from`, as a span. */
  function CommentSearchFrom(s: string, from: nat): (r: Option<(nat, nat)>)
    requires from <= |s|
    ensures r.Some? ==> from <= r.value.0 <= |s| && CommentMatchAt(s, r.value.0) == Some(r.value.1)
    ensures r.Some? ==> forall j :: from <= j < r.value.0 ==> CommentMatchAt(s, j).None?
    ensures r.None? ==> forall j :: from <= j <= |s| ==> CommentMatchAt(s, j).None?
    decreases |s| - from
  {
    match CommentMatchAt(s, from)
    case Some(e) => Some((from, e))
    case None => if from == |s| then None else CommentSearchFrom(s, from + 1)
  }

  /** `comment_pattern.search(s)`: the leftmost match, as a span. */
  function CommentSearch(s: string): (r: Option<(nat, nat)>)
    ensures r.Some? ==> r.value.0 <= |s| && CommentMatchAt(s, r.value.0) == Some(r.value.1)
    ensures r.Some? ==> forall j :: 0 <= j < r.value.0 ==> CommentMatchAt(s, j).None?
    ensures r.None? ==> forall j :: 0 <= j <= |s| ==> CommentMatchAt(s, j).None?
  {
    CommentSearchFrom(s, 0)
  }

  /** `comment_pattern.search(s).group(0)`, or `None` when nothing matches. */
  function CommentText(s: string): (r: Option<string>)
    ensures r.Some? <==> CommentSearch(s).Some?
    ensures r.Some? ==> var span := CommentSearch(s).value;
      span.0 <= span.1 <= |s| && r.value == s[span.0..span.1]
    ensures r.Some? ==> StartsWith(r.value, "//") || StartsWith(r.value, "/*")
  {
    match CommentSearch(s)
    case None => None
    case Some(span) =>
      var c := s[span.0..span.1];
      assert MatchAt(s, "//", span.0) || MatchAt(s, "/*", span.0);
      assert c[..2] == s[span.0..span.0 + 2];
      Some(c)
  }

  predicate IsSlash(c: char) {
    c == '/'
  }

  /** `comment_chars_pattern.search(s).group(0)`: the first run of two or more
      slashes, taken whole. */
  function SlashRun(s: string): (r: Option<string>)
    ensures r.None? <==> !Contains(s, "//")
    ensures r.Some? ==> |r.value| >= 2 && forall j :: 0 <= j < |r.value| ==> r.value[j] == '/'
    ensures r.Some? ==> MatchAt(s, r.value, Find(s, "//").value)
    ensures r.Some? ==> var end := Find(s, "//").value + |r.value|; end == |s| || s[end] != '/'
  {
    match Find(s, "//")
    case None => None
    case Some(i) =>
      var n := Lead(s[i + 2..], IsSlash);
      var run := s[i..i + 2 + n];
      assert s[i..i + 2] == "//";
      assert forall j :: 0 <= j < |run| ==> run[j] == '/' by {
        forall j | 0 <= j < |run|
          ensures run[j] == '/'
        {
          if j < 2 {
            assert run[j] == s[i..i + 2][j];
          } else {
            assert run[j] == s[i + 2..][j - 2];
          }
        }
      }
      assert i + 2 + n < |s| ==> s[i + 2 + n] == s[i + 2..][n];
      Some(run)
  }

  /** What one non-brace line of a method body contributes: its first comment,
      re-marked as `/// ` plus the stripped text that follows the first run of
      slashes (up to the run's next occurrence); a `/* ... */` comment without
      `//` inside is kept as it is. */
  function MethodBodyComment(line: string): (r: Option<string>)
    ensures r.Some? <==> CommentText(line).Some?
    ensures r.Some? ==> StartsWith(r.value, "/// ") || StartsWith(r.value, "/*")
  {
    match CommentText(line)
    case None => None
    case Some(c) =>
      match SlashRun(c)
      case None =>
        PrefixContained(c, "//");
        Some(c)
      case Some(run) =>
        ContainsWitness(c, run, Find(c, "//").value);
        var rest := SplitSecond(c, run);
        assert ("/// " + Strip(rest))[..4] == "/// ";
        Some("/// " + Strip(rest))
  }

  /** A `//` comment after code that has no slash: the leftmost match is the
      comment itself, running to the end of the line. */
  lemma TrailingCommentSearch(code: string, text: string)
    requires '/' !in code && '\n' !in text
    ensures CommentText(code + "// " + text) == Some("// " + text)
  {
    var line := code + "// " + text;
    var c := "// " + text;
    assert line[|code|..] == c;
    forall j | 0 <= j < |code|
      ensures CommentMatchAt(line, j).None?
    {
      assert line[j] == code[j];
      if j + 2 <= |line| {
        assert line[j..j + 2][0] == line[j];
      }
    }
    assert line[|code|..|code| + 2] == "//";
    assert MatchAt(line, "//", |code|);
    var e := CommentMatchAt(line, |code|).value;
    assert forall j :: |code| + 3 <= j < |line| ==> line[j] == text[j - |code| - 3];
    assert e == |line|;
    assert CommentMatchAt(line, |code|).Some?;
    assert CommentSearch(line).Some?;
    var span := CommentSearch(line).value;
    assert !(span.0 < |code|);
    assert !(span.0 > |code|);
    assert span == (|code|, |line|);
    assert CommentText(line).Some?;
    assert line[|code|..|line|] == c;
  }

  /** The stripped text after a single `//` is what a method-body line's
      comment becomes, behind `/// `. */
  lemma SlashCommentBody(text: string)
    requires '/' !in text
    ensures var c := "// " + text;
      SlashRun(c) == Some("//") && Contains(c, "//") && SplitSecond(c, "//") == " " + text
  {
    var c := "// " + text;
    assert c[0..2] == "//";
    assert MatchAt(c, "//", 0);
    assert Find(c, "//") == Some(0);
    var run := SlashRun(c).value;
    assert MatchAt(c, run, 0);
    assert |run| == 2;
    assert run == c[0..2] == "//";
    assert c == "" + "//" + (" " + text);
    SplitAt("", "//", " " + text);
    assert '/' !in " " + text;
    LacksChar(" " + text, "//", 0);
    SplitWhole(" " + text, "//");
    ContainsWitness(c, "//", 0);
  }

  /** Code without a slash followed by `// text`, the text free of slashes
      and newlines: the method body contributes `/// ` and the stripped text. */
  lemma MethodLineComment(code: string, text: string)
    requires '/' !in code && '/' !in text && '\n' !in text
    ensures MethodBodyComment(code + "// " + text) == Some("/// " + Strip(text))
  {
    TrailingCommentSearch(code, text);
    SlashCommentBody(text);
    StripLeadingSpace(text);
  }
}

=== FILE: pystr.dfy ===
/** The Python `str` operations the filter relies on, over `seq<char>`.

    Each function follows the CPython semantics of the method it is named
    after, for the argument shapes the filter uses: `split()` drops empty
    fields, `split(sep)` keeps them, `strip(chars)` removes a character set
    from both ends, `in` on two strings is a substring test, and
    `replace(old, new)` rewrites leftmost non-overlapping occurrences. */
module PyStr {
  import opened Results

  /** `c.isspace()`: the characters Python treats as whitespace. */
  predicate IsSpace(c: char) {
    || c == ' '
    || ('\t' <= c <= '\r')
    || ('\U{1C}' <= c <= '\U{1F}')
    || c == '\U{85}' || c == '\U{A0}' || c == '\U{1680}'
    || ('\U{2000}' <= c <= '\U{200A}')
    || c == '\U{2028}' || c == '\U{2029}' || c == '\U{202F}' || c == '\U{205F}' || c == '\U{3000}'
  }

  predicate NotSpace(c: char) {
    !IsSpace(c)
  }

  /** `s.startswith(prefix)` */
  predicate StartsWith(s: string, prefix: string) {
    |prefix| <= |s| && s[..|prefix|] == prefix
  }

  /** `t` occurs in `s` at index `i`. */
  predicate MatchAt(s: string, t: string, i: int) {
    0 <= i && i + |t| <= |s| && s[i..i + |t|] == t
  }

  /** Leftmost occurrence of `t` in `s` at or after `from`. */
  function FindFrom(s: string, t: string, from: nat): (r: Option<nat>)
    requires from <= |s|
    ensures r.Some? ==> from <= r.value && MatchAt(s, t, r.value)
    ensures r.Some? ==> forall j :: from <= j < r.value ==> !MatchAt(s, t, j)
    ensures r.None? ==> forall j :: from <= j ==> !MatchAt(s, t, j)
    decreases |s| - from
  {
    if from + |t| > |s| then None
    else if s[from..from + |t|] == t then Some(from)
    else FindFrom(s, t, from + 1)
  }

  /** `s.find(t)`, with `None` for -1: the leftmost occurrence. */
  function Find(s: string, t: string): (r: Option<nat>)
    ensures r.Some? ==> MatchAt(s, t, r.value)
    ensures r.Some? ==> forall j :: 0 <= j < r.value ==> !MatchAt(s, t, j)
    ensures r.None? ==> forall j :: !MatchAt(s, t, j)
  {
    FindFrom(s, t, 0)
  }

  /** Python's `t in s` for two strings: a substring test. */
  predicate Contains(s: string, t: string) {
    Find(s, t).Some?
  }

  /** `s.split(sep)`: the fields between leftmost non-overlapping occurrences
      of `sep`, empty fields kept. */
  function Split(s: string, sep: string): (r: seq<string>)
    requires |sep| > 0
    ensures |r| >= 1
    decreases |s|
  {
    match Find(s, sep)
    case None => [s]
    case Some(i) => [s[..i]] + Split(s[i + |sep|..], sep)
  }

  /** `s.split(sep)[1]`, defined only when Python would not raise. */
  function SplitSecond(s: string, sep: string): string
    requires |sep| > 0 && Contains(s, sep)
  {
    var parts := Split(s, sep);
    parts[1]
  }

  /** `sep.join(parts)` */
  function Join(parts: seq<string>, sep: string): string {
    if |parts| == 0 then ""
    else if |parts| == 1 then parts[0]
    else parts[0] + sep + Join(parts[1..], sep)
  }

  /** `s.replace(pat, rep)` for a non-empty `pat`. */
  function Replace(s: string, pat: string, rep: string): string
    requires |pat| > 0
    decreases |s|
  {
    match Find(s, pat)
    case None => s
    case Some(i) => s[..i] + rep + Replace(s[i + |pat|..], pat, rep)
  }

  /** Number of leading characters satisfying `p`. */
  function Lead(s: string, p: char -> bool): (n: nat)
    ensures n <= |s|
    ensures forall j :: 0 <= j < n ==> p(s[j])
    ensures n == |s| || !p(s[n])
    decreases |s|
  {
    if |s| > 0 && p(s[0]) then 1 + Lead(s[1..], p) else 0
  }

  /** Number of trailing characters satisfying `p`. */
  function Trail(s: string, p: char -> bool): (n: nat)
    ensures n <= |s|
    ensures forall j :: |s| - n <= j < |s| ==> p(s[j])
    ensures n == |s| || !p(s[|s| - n - 1])
    decreases |s|
  {
    if |s| > 0 && p(s[|s| - 1]) then 1 + Trail(s[..|s| - 1], p) else 0
  }

  /** Removes the characters satisfying `p` from both ends. */
  function TrimBy(s: string, p: char -> bool): (r: string)
    ensures |r| == 0 || (!p(r[0]) && !p(r[|r| - 1]))
  {
    var t := s[Lead(s, p)..];
    t[..|t| - Trail(t, p)]
  }

  /** `s.strip()` */
  function Strip(s: string): string {
    TrimBy(s, IsSpace)
  }

  /** `s.strip(chars)` */
  function StripChars(s: string, chars: string): string {
    TrimBy(s, c => c in chars)
  }

  /** `s.lstrip()` */
  function LStrip(s: string): string {
    s[Lead(s, IsSpace)..]
  }

  predicate Token(w: string) {
    |w| > 0 && forall j :: 0 <= j < |w| ==> !IsSpace(w[j])
  }

  /** `s.split()`: the maximal runs of non-whitespace characters. */
  function SplitWs(s: string): (r: seq<string>)
    ensures forall k :: 0 <= k < |r| ==> Token(r[k])
    decreases |s|
  {
    var t := s[Lead(s, IsSpace)..];
    if |t| == 0 then []
    else
      var n := Lead(t, NotSpace);
      [t[..n]] + SplitWs(t[n..])
  }

  /** `[x.strip() for x in xs]` */
  function StripEach(xs: seq<string>): (r: seq<string>)
    ensures |r| == |xs|
    ensures forall k :: 0 <= k < |xs| ==> r[k] == Strip(xs[k])
  {
    seq(|xs|, k requires 0 <= k < |xs| => Strip(xs[k]))
  }

  /** The concatenation of `l + "\n"` over the lines `ls`. */
  function Lines(ls: seq<string>): string {
    if |ls| == 0 then "" else ls[0] + "\n" + Lines(ls[1..])
  }

  /** The filter's indentation width (`intendation = 4`). */
  const Indentation := "    "

  /** `"\n".join([" " * 4 + l for l in s.strip().split("\n")])`: the
      re-indentation every handler applies to a finished block. */
  function IndentBlock(s: string): string {
    var lines := Split(Strip(s), "\n");
    Join(seq(|lines|, k requires 0 <= k < |lines| => Indentation + lines[k]), "\n")
  }

  predicate IsDigit(c: char) {
    '0' <= c <= '9'
  }

  /** Decimal digits, with single underscores allowed between two digits. */
  predicate DigitGroup(s: string) {
    && |s| > 0
    && IsDigit(s[0])
    && IsDigit(s[|s| - 1])
    && forall j :: 0 <= j < |s| ==>
         (IsDigit(s[j]) || (s[j] == '_' && 0 < j < |s| - 1 && IsDigit(s[j - 1]) && IsDigit(s[j + 1])))
  }

  /** `int(s)` succeeds (base 10, ASCII digits): optional surrounding
      whitespace, an optional sign, then a digit group. */
  predicate ParsesAsInt(s: string) {
    var t := Strip(s);
    var body := if |t| > 0 && (t[0] == '+' || t[0] == '-') then t[1..] else t;
    DigitGroup(body)
  }

  function HexDigit(d: nat): char
    requires d < 16
  {
    if d < 10 then ('0' as int + d) as char else ('a' as int + d - 10) as char
  }

  /** One character inside `repr(s)`, given the quote `repr` chose. */
  function ReprChar(c: char, quote: char): string {
    if c == quote || c == '\\' then ['\\', c]
    else if c == '\t' then "\\t"
    else if c == '\n' then "\\n"
    else if c == '\r' then "\\r"
    else if c < ' ' || c == '\U{7F}' then "\\x" + [HexDigit(c as int / 16), HexDigit(c as int % 16)]
    else [c]
  }

  function ReprBody(s: string, quote: char): string {
    if |s| == 0 then "" else ReprChar(s[0], quote) + ReprBody(s[1..], quote)
  }

  /** `repr(s)` for text whose only non-printable characters are ASCII: single
      quotes unless `s` holds a single quote and no double quote.  Only the
      quote, the backslash, the ASCII control characters and DEL are escaped;
      other characters Python does not print, such as U+00A0, are kept as they
      are. */
  function Repr(s: string): string {
    var quote := if '\'' in s && '"' !in s then '"' else '\'';
    [quote] + ReprBody(s, quote) + [quote]
  }
}

=== FILE: results.dfy ===
/** Failure-compatible wrappers used throughout the filter model.

    The filter signals every problem by raising a Python exception (an explicit
    `raise Exception(...)`, an `IndexError` from `list.pop(0)` or from indexing a
    `split` result).  Every exception aborts the whole run, and its message text
    is irrelevant to the output, so the model has a single failure value. */
module Results {

  datatype Option<+T> = None | Some(value: T)

  /** `Ok(v)`: the Python code returned `v`; `Error`: it raised. */
  datatype Result<+T> = Ok(value: T) | Error {

    predicate IsFailure() {
      Error?
    }

    function PropagateFailure<U>(): Result<U>
      requires Error?
    {
      Error
    }

    function Extract(): T
      requires Ok?
    {
      value
    }
  }
}

=== FILE: strfacts.dfy ===
/** Facts about the Python string operations of `PyStr`: the round trips
    between `split` and `join`, what `strip` leaves behind, and which
    characters each operation can introduce. */
module StrFacts {
  import opened Results
  import opened PyStr

  lemma MatchAtLeft(a: string, b: string, t: string, i: int)
    requires MatchAt(a, t, i)
    ensures MatchAt(a + b, t, i)
  {
    assert (a + b)[i..i + |t|] == a[i..i + |t|];
  }

  lemma MatchAtRight(a: string, b: string, t: string, i: int)
    requires MatchAt(b, t, i)
    ensures MatchAt(a + b, t, |a| + i)
  {
    assert (a + b)[|a| + i..|a| + i + |t|] == b[i..i + |t|];
  }

  lemma ContainsWitness(s: string, t: string, i: int)
    requires MatchAt(s, t, i)
    ensures Contains(s, t)
  {
  }

  lemma PrefixContained(s: string, t: string)
    ensures StartsWith(s, t) ==> Contains(s, t)
  {
    if StartsWith(s, t) {
      assert MatchAt(s, t, 0);
      ContainsWitness(s, t, 0);
    }
  }

  /** A substring of either operand is a substring of the concatenation. */
  lemma ContainsConcat(a: string, b: string, t: string)
    ensures Contains(a, t) ==> Contains(a + b, t)
    ensures Contains(b, t) ==> Contains(a + b, t)
  {
    if Contains(a, t) {
      MatchAtLeft(a, b, t, Find(a, t).value);
      ContainsWitness(a + b, t, Find(a, t).value);
    }
    if Contains(b, t) {
      MatchAtRight(a, b, t, Find(b, t).value);
      ContainsWitness(a + b, t, |a| + Find(b, t).value);
    }
  }

  /** A text lacking one of the characters of `t` does not contain `t`. */
  lemma LacksChar(s: string, t: string, j: int)
    requires 0 <= j < |t| && t[j] !in s
    ensures !Contains(s, t)
  {
    forall i | 0 <= i
      ensures !MatchAt(s, t, i)
    {
      if i + |t| <= |s| {
        assert s[i..i + |t|][j] == s[i + j];
      }
    }
  }

  /** For a one-character needle, `in` is plain membership. */
  lemma ContainsChar(s: string, c: char)
    ensures Contains(s, [c]) <==> c in s
  {
    if c in s {
      var i :| 0 <= i < |s| && s[i] == c;
      assert s[i..i + 1] == [c];
      ContainsWitness(s, [c], i);
    }
    if Contains(s, [c]) {
      var i := Find(s, [c]).value;
      assert s[i] == s[i..i + 1][0];
    }
  }

  /** `s.split(sep)[1]` exists exactly when `sep in s`. */
  lemma SplitHasSecond(s: string, sep: string)
    requires |sep| > 0
    ensures |Split(s, sep)| >= 2 <==> Contains(s, sep)
  {
  }

  /** Splitting a text without `sep` leaves it whole. */
  lemma SplitWhole(s: string, sep: string)
    requires |sep| > 0 && !Contains(s, sep)
    ensures Split(s, sep) == [s]
  {
  }

  /** The first field of `a + sep + b` is `a` when no occurrence of `sep`
      starts inside `a`. */
  lemma SplitAt(a: string, sep: string, b: string)
    requires |sep| > 0
    requires forall j :: 0 <= j < |a| ==> !MatchAt(a + sep + b, sep, j)
    ensures Split(a + sep + b, sep) == [a] + Split(b, sep)
  {
    var s := a + sep + b;
    assert s[|a|..|a| + |sep|] == sep;
    assert MatchAt(s, sep, |a|);
    assert Find(s, sep) == Some(|a|);
    assert s[..|a|] == a;
    assert s[|a| + |sep|..] == b;
  }

  /** The same for a one-character separator that `a` lacks. */
  lemma SplitAtChar(a: string, c: char, b: string)
    requires c !in a
    ensures Split(a + [c] + b, [c]) == [a] + Split(b, [c])
  {
    forall j | 0 <= j < |a|
      ensures !MatchAt(a + [c] + b, [c], j)
    {
      assert (a + [c] + b)[j..j + 1] == [a[j]];
    }
    SplitAt(a, [c], b);
  }

  /** `sep.join(s.split(sep)) == s` */
  lemma {:induction false} JoinSplit(s: string, sep: string)
    requires |sep| > 0
    ensures Join(Split(s, sep), sep) == s
    decreases |s|
  {
    match Find(s, sep)
    case None =>
    case Some(i) =>
      var rest := s[i + |sep|..];
      var tail := Split(rest, sep);
      JoinSplit(rest, sep);
      var parts := Split(s, sep);
      assert parts == [s[..i]] + tail;
      assert parts[1..] == tail;
      assert Join(parts, sep) == s[..i] + sep + Join(tail, sep);
      assert s[i..i + |sep|] == sep;
      assert s == s[..i] + s[i..i + |sep|] + rest;
  }

  /** `p` ends `s`, and is either all of it or preceded by `sep`. */
  predicate EndField(s: string, p: string, sep: string) {
    && |p| <= |s| && s[|s| - |p|..] == p
    && (|p| == |s| || (|p| + |sep| <= |s| && s[|s| - |p| - |sep|..|s| - |p|] == sep))
  }

  /** An end field of a suffix of `s` shorter than it is an end field of `s`. */
  lemma EndFieldOfSuffix(s: string, k: int, p: string, sep: string)
    requires |sep| <= k <= |s| && s[k - |sep|..k] == sep
    requires EndField(s[k..], p, sep)
    ensures EndField(s, p, sep)
  {
    var rest := s[k..];
    var n := |s| - |p|;
    assert s[n..] == rest[|rest| - |p|..];
    if |p| == |rest| {
      assert s[n - |sep|..n] == s[k - |sep|..k];
    } else {
      assert s[n - |sep|..n] == rest[|rest| - |p| - |sep|..|rest| - |p|];
    }
  }

  /** The last field of `s.split(sep)` is the text after the last
      separator: a suffix of `s`, the whole of it or preceded by `sep`. */
  lemma {:induction false} SplitLastSuffix(s: string, sep: string)
    requires |sep| > 0
    ensures EndField(s, Split(s, sep)[|Split(s, sep)| - 1], sep)
    decreases |s|
  {
    match Find(s, sep)
    case None =>
    case Some(i) =>
      var k := i + |sep|;
      var rest := s[k..];
      SplitLastSuffix(rest, sep);
      var parts := Split(s, sep);
      assert parts == [s[..i]] + Split(rest, sep);
      assert parts[|parts| - 1] == Split(rest, sep)[|Split(rest, sep)| - 1];
      assert s[i..k] == sep;
      EndFieldOfSuffix(s, k, parts[|parts| - 1], sep);
  }

  /** No field of `s.split(sep)` contains `sep`. */
  lemma {:induction false} SplitPartsLackSep(s: string, sep: string)
    requires |sep| > 0
    ensures forall k :: 0 <= k < |Split(s, sep)| ==> !Contains(Split(s, sep)[k], sep)
    decreases |s|
  {
    match Find(s, sep)
    case None =>
    case Some(i) =>
      var rest := s[i + |sep|..];
      SplitPartsLackSep(rest, sep);
      assert s[..i] + s[i..] == s;
      if Contains(s[..i], sep) {
        MatchAtLeft(s[..i], s[i..], sep, Find(s[..i], sep).value);
        assert false;
      }
      var parts := Split(s, sep);
      assert parts == [s[..i]] + Split(rest, sep);
  }

  /** `s.split(c)` undoes `c.join(parts)` for a one-character separator
      that no part contains. */
  lemma {:induction false} SplitJoinChar(parts: seq<string>, c: char)
    requires |parts| >= 1
    requires forall k :: 0 <= k < |parts| ==> c !in parts[k]
    ensures Split(Join(parts, [c]), [c]) == parts
    decreases |parts|
  {
    var s := Join(parts, [c]);
    if |parts| == 1 {
      ContainsChar(s, c);
    } else {
      var p0 := parts[0];
      var rest := Join(parts[1..], [c]);
      assert s == p0 + [c] + rest;
      assert c !in p0;
      SplitAtChar(p0, c, rest);
      SplitJoinChar(parts[1..], c);
      assert parts == [p0] + parts[1..];
    }
  }

  /** `s.replace(pat, rep) == rep.join(s.split(pat))` */
  lemma {:induction false} ReplaceIsJoinSplit(s: string, pat: string, rep: string)
    requires |pat| > 0
    ensures Replace(s, pat, rep) == Join(Split(s, pat), rep)
    decreases |s|
  {
    match Find(s, pat)
    case None =>
    case Some(i) =>
      var rest := s[i + |pat|..];
      ReplaceIsJoinSplit(rest, pat, rep);
      var parts := Split(s, pat);
      assert parts[1..] == Split(rest, pat);
  }

  lemma ReplaceAbsent(s: string, pat: string, rep: string)
    requires |pat| > 0 && !Contains(s, pat)
    ensures Replace(s, pat, rep) == s
  {
  }

  // ---- characters an operation can introduce ----

  lemma CharNotInSlice(s: string, c: char, i: int, j: int)
    requires 0 <= i <= j <= |s| && c !in s
    ensures c !in s[i..j]
  {
  }

  lemma {:induction false} CharNotInSplit(s: string, sep: string, c: char)
    requires |sep| > 0 && c !in s
    ensures forall k :: 0 <= k < |Split(s, sep)| ==> c !in Split(s, sep)[k]
    decreases |s|
  {
    match Find(s, sep)
    case None =>
    case Some(i) =>
      var rest := s[i + |sep|..];
      CharNotInSlice(s, c, 0, i);
      CharNotInSlice(s, c, i + |sep|, |s|);
      CharNotInSplit(rest, sep, c);
      assert Split(s, sep) == [s[..i]] + Split(rest, sep);
  }

  lemma {:induction false} CharNotInJoin(parts: seq<string>, sep: string, c: char)
    requires c !in sep
    requires forall k :: 0 <= k < |parts| ==> c !in parts[k]
    ensures c !in Join(parts, sep)
    decreases |parts|
  {
    if |parts| > 1 {
      CharNotInJoin(parts[1..], sep, c);
    }
  }

  lemma CharNotInTrim(s: string, p: char -> bool, c: char)
    requires c !in s
    ensures c !in TrimBy(s, p)
  {
    var t := s[Lead(s, p)..];
    CharNotInSlice(s, c, Lead(s, p), |s|);
    CharNotInSlice(t, c, 0, |t| - Trail(t, p));
  }

  lemma {:induction false} CharNotInSplitWs(s: string, c: char)
    requires c !in s
    ensures forall k :: 0 <= k < |SplitWs(s)| ==> c !in SplitWs(s)[k]
    decreases |s|
  {
    var t := s[Lead(s, IsSpace)..];
    CharNotInSlice(s, c, Lead(s, IsSpace), |s|);
    if |t| > 0 {
      var n := Lead(t, NotSpace);
      CharNotInSlice(t, c, 0, n);
      CharNotInSlice(t, c, n, |t|);
      CharNotInSplitWs(t[n..], c);
    }
  }

  /** Whitespace characters never survive `split()`. */
  lemma SpaceNotInTokens(s: string, c: char)
    requires IsSpace(c)
    ensures forall k :: 0 <= k < |SplitWs(s)| ==> c !in SplitWs(s)[k]
  {
    forall k | 0 <= k < |SplitWs(s)|
      ensures c !in SplitWs(s)[k]
    {
      assert Token(SplitWs(s)[k]);
    }
  }

  lemma {:induction false} CharNotInReplace(s: string, pat: string, rep: string, c: char)
    requires |pat| > 0 && c !in s && c !in rep
    ensures c !in Replace(s, pat, rep)
    decreases |s|
  {
    match Find(s, pat)
    case None =>
    case Some(i) =>
      CharNotInSlice(s, c, 0, i);
      CharNotInSlice(s, c, i + |pat|, |s|);
      CharNotInReplace(s[i + |pat|..], pat, rep, c);
  }

  /** `c` occurs in none of the strings `ss`. */
  predicate AllLack(ss: seq<string>, c: char) {
    forall k :: 0 <= k < |ss| ==> c !in ss[k]
  }

  /** Replacing every occurrence of a character by a text without it
      leaves no occurrence behind. */
  lemma {:induction false} ReplaceRemovesChar(s: string, c: char, rep: string)
    requires c !in rep
    ensures c !in Replace(s, [c], rep)
    decreases |s|
  {
    match Find(s, [c])
    case None =>
      ContainsChar(s, c);
    case Some(i) =>
      forall j | 0 <= j < i
        ensures s[j] != c
      {
        assert !MatchAt(s, [c], j);
        assert s[j..j + 1] == [s[j]];
      }
      ReplaceRemovesChar(s[i + 1..], c, rep);
  }

  // The same facts in implication form, convenient inside function bodies.

  lemma SplitKeeps(s: string, sep: string, c: char)
    requires |sep| > 0
    ensures c !in s ==> AllLack(Split(s, sep), c)
  {
    if c !in s {
      CharNotInSplit(s, sep, c);
    }
  }

  lemma JoinKeeps(parts: seq<string>, sep: string, c: char)
    ensures AllLack(parts, c) && c !in sep ==> c !in Join(parts, sep)
  {
    if AllLack(parts, c) && c !in sep {
      CharNotInJoin(parts, sep, c);
    }
  }

  lemma TrimKeeps(s: string, p: char -> bool, c: char)
    ensures c !in s ==> c !in TrimBy(s, p)
  {
    if c !in s {
      CharNotInTrim(s, p, c);
    }
  }

  lemma StripCharsKeeps(s: string, chars: string, c: char)
    ensures c !in s ==> c !in StripChars(s, chars)
  {
    if c !in s {
      CharNotInTrim(s, x => x in chars, c);
    }
  }

  /** Splitting and taking the field before the first separator, or the one
      after it, never introduces a character. */
  lemma FieldKeeps(s: string, sep: string, c: char)
    requires |sep| > 0
    ensures c !in s ==> c !in Split(s, sep)[0]
    ensures c !in s && Contains(s, sep) ==> c !in SplitSecond(s, sep)
  {
    SplitKeeps(s, sep, c);
  }

  /** A whole part of `sep.join(parts)` is a substring of it. */
  lemma {:induction false} JoinContainsPart(parts: seq<string>, sep: string, k: nat)
    requires k < |parts|
    ensures Contains(Join(parts, sep), parts[k])
    decreases |parts|
  {
    if |parts| == 1 {
      ContainsWitness(parts[0], parts[0], 0);
    } else if k == 0 {
      ContainsWitness(parts[0], parts[0], 0);
      ContainsConcat(parts[0], sep + Join(parts[1..], sep), parts[0]);
      assert parts[0] + sep + Join(parts[1..], sep) == parts[0] + (sep + Join(parts[1..], sep));
    } else {
      JoinContainsPart(parts[1..], sep, k - 1);
      ContainsConcat(parts[0] + sep, Join(parts[1..], sep), parts[k]);
    }
  }

  /** The field before the first `sep` is a prefix of `s`; if `s` starts
      with a text free of `sep`'s first character, so does that field. */
  lemma FirstFieldPrefix(s: string, sep: string, head: string)
    requires |sep| > 0
    ensures StartsWith(s, head) && sep[0] !in head ==> StartsWith(Split(s, sep)[0], head)
  {
    if StartsWith(s, head) && sep[0] !in head {
      match Find(s, sep)
      case None =>
      case Some(i) =>
        assert s[..i][..|head|] == s[..|head|];
    }
  }

  // ---- strip ----

  /** `Lead` is the unique length of the maximal `p`-prefix. */
  lemma LeadUnique(s: string, p: char -> bool, n: nat)
    requires n <= |s|
    requires forall j :: 0 <= j < n ==> p(s[j])
    requires n == |s| || !p(s[n])
    ensures Lead(s, p) == n
  {
  }

  /** A string whose ends do not satisfy `p` is left alone by `TrimBy`. */
  lemma TrimByIdentity(s: string, p: char -> bool)
    requires |s| == 0 || (!p(s[0]) && !p(s[|s| - 1]))
    ensures TrimBy(s, p) == s
  {
  }

  /** Trimming keeps a prefix none of whose characters it removes. */
  /** Trimming removes one trailing character `p` accepts from a text that
      is already trimmed. */
  lemma TrimOneTrailing(x: string, c: char, p: char -> bool)
    requires p(c) && (|x| == 0 || (!p(x[0]) && !p(x[|x| - 1])))
    ensures TrimBy(x + [c], p) == x
  {
    var s := x + [c];
    if |x| == 0 {
      assert s[1..] == [];
      assert Lead(s, p) == 1;
    } else {
      assert s[0] == x[0];
      assert Lead(s, p) == 0;
      assert s[..|s| - 1] == x;
      assert Trail(x, p) == 0;
      assert Trail(s, p) == 1;
      assert s[..|s| - 1] == x;
    }
  }

  lemma TrimKeepsHead(s: string, p: char -> bool, head: string)
    requires |head| > 0
    ensures StartsWith(s, head) && (forall j :: 0 <= j < |head| ==> !p(head[j])) ==> StartsWith(TrimBy(s, p), head)
  {
    if StartsWith(s, head) && (forall j :: 0 <= j < |head| ==> !p(head[j])) {
      assert !p(s[0]) by {
        assert s[0] == head[0];
      }
      LeadUnique(s, p, 0);
      assert s[0..] == s;
      assert !p(s[|head| - 1]) by {
        assert s[|head| - 1] == head[|head| - 1];
      }
      assert |s| - Trail(s, p) >= |head|;
    }
  }

  /** A substring of a trimmed text is a substring of the text. */
  lemma TrimContained(s: string, p: char -> bool, t: string)
    ensures Contains(TrimBy(s, p), t) ==> Contains(s, t)
  {
    var a := Lead(s, p);
    var u := s[a..];
    var b := |u| - Trail(u, p);
    assert TrimBy(s, p) == u[..b];
    assert s == s[..a] + (u[..b] + u[b..]);
    ContainsConcat(u[..b], u[b..], t);
    ContainsConcat(s[..a], u[..b] + u[b..], t);
  }

  /** `s.strip().strip() == s.strip()` */
  lemma StripIdempotent(s: string)
    ensures Strip(Strip(s)) == Strip(s)
  {
    TrimByIdentity(Strip(s), IsSpace);
  }

  // ---- split() ----

  lemma SplitWsDropsLeadingSpace(s: string)
    ensures SplitWs(s) == SplitWs(s[Lead(s, IsSpace)..])
  {
    var t := s[Lead(s, IsSpace)..];
    LeadUnique(t, IsSpace, 0);
    assert t[0..] == t;
  }

  /** `" ".join(ws).split() == ws` for whitespace-free, non-empty words. */
  lemma {:induction false} SplitWsJoin(ws: seq<string>)
    requires forall k :: 0 <= k < |ws| ==> Token(ws[k])
    ensures SplitWs(Join(ws, " ")) == ws
    decreases |ws|
  {
    if |ws| == 1 {
      SplitWsWord(ws[0]);
    } else if |ws| > 1 {
      var rest := Join(ws[1..], " ");
      assert Token(ws[0]) && Token(ws[1]);
      assert Join(ws, " ") == ws[0] + " " + rest;
      JoinFirst(ws[1..], " ");
      SplitWsCons(ws[0], rest);
      SplitWsJoin(ws[1..]);
    }
  }

  lemma SplitWsWord(w: string)
    requires Token(w)
    ensures SplitWs(Join([w], " ")) == [w]
  {
    assert Join([w], " ") == w + "";
    SplitWsHead(w, "");
    assert SplitWs("") == [];
  }

  /** A token, a space and then a word: the token is the first word. */
  lemma SplitWsCons(w: string, rest: string)
    requires Token(w) && |rest| > 0 && !IsSpace(rest[0])
    ensures SplitWs(w + " " + rest) == [w] + SplitWs(rest)
  {
    assert w + " " + rest == w + (" " + rest);
    SplitWsHead(w, " " + rest);
    SplitWsSpace(rest);
  }

  /** A token followed by nothing or by a space is the first word. */
  lemma SplitWsHead(w: string, tail: string)
    requires Token(w) && (|tail| == 0 || tail[0] == ' ')
    ensures SplitWs(w + tail) == [w] + SplitWs(tail)
  {
    var s := w + tail;
    assert s[0] == w[0];
    LeadUnique(s, IsSpace, 0);
    assert s[0..] == s;
    forall j | 0 <= j < |w|
      ensures NotSpace(s[j])
    {
      assert s[j] == w[j];
    }
    if |tail| > 0 {
      assert s[|w|] == tail[0];
    }
    LeadUnique(s, NotSpace, |w|);
    assert s[..|w|] == w;
    assert s[|w|..] == tail;
  }

  /** One space before a word does not change the words. */
  lemma SplitWsSpace(rest: string)
    requires |rest| > 0 && !IsSpace(rest[0])
    ensures SplitWs(" " + rest) == SplitWs(rest)
  {
    var t := " " + rest;
    assert t[1..] == rest;
    LeadUnique(t, IsSpace, 1);
    LeadUnique(rest, IsSpace, 0);
    assert rest[0..] == rest;
  }

  /** The first character of a join is that of its first part. */
  lemma JoinFirst(ws: seq<string>, sep: string)
    requires |ws| > 0 && |ws[0]| > 0
    ensures |Join(ws, sep)| > 0 && Join(ws, sep)[0] == ws[0][0]
  {
  }

  // ---- indentation ----

  /** Every line of a re-indented block starts with the four-space indent. */
  lemma IndentBlockLines(s: string)
    ensures forall l | l in Split(IndentBlock(s), "\n") :: StartsWith(l, Indentation)
  {
    var lines := Split(Strip(s), "\n");
    var ind := seq(|lines|, k requires 0 <= k < |lines| => Indentation + lines[k]);
    SplitPartsLackSep(Strip(s), "\n");
    forall k | 0 <= k < |ind|
      ensures '\n' !in ind[k]
    {
      ContainsChar(lines[k], '\n');
      assert ind[k] == Indentation + lines[k];
    }
    assert "\n" == ['\n'];
    SplitJoinChar(ind, '\n');
    assert Split(IndentBlock(s), "\n") == ind;
    forall l | l in ind
      ensures StartsWith(l, Indentation)
    {
      var k :| 0 <= k < |ind| && ind[k] == l;
      assert l[..|Indentation|] == Indentation;
    }
  }
}

=== FILE: tokenfacts.dfy ===
/** Facts about lines made of whitespace-free tokens and about the
    `", "`-separated lists the filter reads between brackets: how `join`
    composes, what `strip` leaves of a padded text, and how a joined list
    splits back into its entries. */
module TokenFacts {
  import opened Results
  import opened PyStr
  import opened StrFacts

  /** Every character of `w` is whitespace. */
  predicate Blank(w: string) {
    forall j :: 0 <= j < |w| ==> IsSpace(w[j])
  }

  /** Every entry of `ws` is a token. */
  predicate AllTokens(ws: seq<string>) {
    forall k :: 0 <= k < |ws| ==> Token(ws[k])
  }

  // ---- join ----

  lemma {:induction false} JoinAppend(a: seq<string>, b: seq<string>, sep: string)
    requires |a| > 0 && |b| > 0
    ensures Join(a + b, sep) == Join(a, sep) + sep + Join(b, sep)
    decreases |a|
  {
    if |a| == 1 {
      assert (a + b)[1..] == b;
    } else {
      assert (a + b)[1..] == a[1..] + b;
      JoinAppend(a[1..], b, sep);
    }
  }

  /** The first and the last character of a join of non-empty parts. */
  lemma {:induction false} JoinEnds(ws: seq<string>, sep: string)
    requires |ws| > 0 && forall k :: 0 <= k < |ws| ==> |ws[k]| > 0
    ensures var j := Join(ws, sep);
      && |j| > 0 && j[0] == ws[0][0]
      && j[|j| - 1] == ws[|ws| - 1][|ws[|ws| - 1]| - 1]
    decreases |ws|
  {
    if |ws| > 1 {
      JoinEnds(ws[1..], sep);
    }
  }

  /** `ks` as `split()` sees `", ".join(ks)`: every entry but the last keeps
      its comma. */
  function Commaed(ks: seq<string>): (r: seq<string>)
    ensures |r| == |ks|
    decreases |ks|
  {
    if |ks| <= 1 then ks else [ks[0] + ","] + Commaed(ks[1..])
  }

  lemma {:induction false} JoinCommaed(ks: seq<string>)
    ensures Join(Commaed(ks), " ") == Join(ks, ", ")
    decreases |ks|
  {
    if |ks| > 1 {
      JoinCommaed(ks[1..]);
      assert Commaed(ks)[1..] == Commaed(ks[1..]);
    }
  }

  lemma {:induction false} CommaedTokens(ks: seq<string>)
    requires AllTokens(ks)
    ensures AllTokens(Commaed(ks))
    decreases |ks|
  {
    if |ks| > 1 {
      CommaedTokens(ks[1..]);
      var w := ks[0] + ",";
      assert Token(w) by {
        forall j | 0 <= j < |w|
          ensures !IsSpace(w[j])
        {
          if j < |ks[0]| {
            assert w[j] == ks[0][j];
          }
        }
      }
      forall k | 0 <= k < |Commaed(ks)|
        ensures Token(Commaed(ks)[k])
      {
        if k > 0 {
          assert Commaed(ks)[k] == Commaed(ks[1..])[k - 1];
        }
      }
    }
  }

  lemma {:induction false} CommaedLacksAs(ks: seq<string>)
    requires "as" !in ks && forall k :: 0 <= k < |ks| ==> ',' !in ks[k]
    ensures "as" !in Commaed(ks)
    decreases |ks|
  {
    if |ks| > 1 {
      CommaedLacksAs(ks[1..]);
      var w := ks[0] + ",";
      assert w[|w| - 1] == ',';
      assert w != "as";
      assert Commaed(ks) == [w] + Commaed(ks[1..]);
    }
  }

  /** A line of tokens holds ` as ` only where one of its tokens is `as`. */
  lemma {:induction false} JoinLacksAs(ws: seq<string>, i: int)
    requires AllTokens(ws) && "as" !in ws
    ensures !MatchAt(Join(ws, " "), " as ", i)
    decreases |ws|
  {
    var s := Join(ws, " ");
    if 0 <= i && i + 4 <= |s| && |ws| > 0 {
      var w := ws[0];
      assert Token(w);
      if |ws| == 1 {
        assert s[i..i + 4][0] == w[i];
      } else {
        var rest := Join(ws[1..], " ");
        assert s == w + " " + rest;
        if i < |w| {
          assert s[i] == w[i];
          assert s[i..i + 4][0] == s[i];
        } else if i == |w| {
          var v := ws[1];
          assert Token(v);
          assert |ws[1..]| == 1 ==> rest == v;
          assert |ws[1..]| > 1 ==> rest == v + " " + Join(ws[2..], " ");
          assert s[i..i + 4][1..] == rest[..3];
          if |v| >= 3 {
            assert rest[..3][2] == v[2];
          } else if |v| == 2 {
            assert rest[..3][..2] == v;
            assert v in ws && v != "as";
            assert s[i..i + 4][1..3] == v;
          } else {
            assert rest[..3][1] == ' ';
          }
        } else {
          assert s[i..i + 4] == rest[i - |w| - 1..i - |w| + 3];
          JoinLacksAs(ws[1..], i - |w| - 1);
        }
      }
    }
  }

  lemma JoinLacksAsAnywhere(ws: seq<string>)
    requires AllTokens(ws) && "as" !in ws
    ensures !Contains(Join(ws, " "), " as ")
  {
    forall i | 0 <= i
      ensures !MatchAt(Join(ws, " "), " as ", i)
    {
      JoinLacksAs(ws, i);
    }
  }

  /** A line of tokens is its own strip. */
  lemma JoinStripped(ws: seq<string>)
    requires |ws| > 0 && AllTokens(ws)
    ensures Strip(Join(ws, " ")) == Join(ws, " ")
  {
    JoinEnds(ws, " ");
    assert Token(ws[0]) && Token(ws[|ws| - 1]);
    TrimByIdentity(Join(ws, " "), IsSpace);
  }

  // ---- strip ----

  /** `Trail` is the unique length of the maximal `p`-suffix. */
  lemma TrailUnique(s: string, p: char -> bool, n: nat)
    requires n <= |s|
    requires forall j :: |s| - n <= j < |s| ==> p(s[j])
    requires n == |s| || !p(s[|s| - n - 1])
    ensures Trail(s, p) == n
    decreases n
  {
    if n > 0 {
      var t := s[..|s| - 1];
      assert p(s[|s| - 1]);
      forall j | |t| - (n - 1) <= j < |t|
        ensures p(t[j])
      {
        assert t[j] == s[j];
      }
      assert n - 1 == |t| || t[|t| - (n - 1) - 1] == s[|s| - n - 1];
      TrailUnique(t, p, n - 1);
    }
  }

  /** Stripping a text padded with whitespace gives back the text. */
  lemma StripPadded(pre: string, x: string, post: string)
    requires Blank(pre) && Blank(post)
    requires |x| > 0 && !IsSpace(x[0]) && !IsSpace(x[|x| - 1])
    ensures Strip(pre + x + post) == x
  {
    var s := pre + x + post;
    assert s[|pre|] == x[0];
    LeadUnique(s, IsSpace, |pre|);
    var t := s[|pre|..];
    assert t == x + post;
    assert t[|t| - |post| - 1] == x[|x| - 1];
    TrailUnique(t, IsSpace, |post|);
    assert t[..|t| - |post|] == x;
  }

  /** A single leading space is stripped like any other. */
  lemma StripLeadingSpace(x: string)
    ensures Strip(" " + x) == Strip(x)
  {
    var s := " " + x;
    assert s[1..] == x;
    assert Lead(s, IsSpace) == 1 + Lead(x, IsSpace);
    assert s[Lead(s, IsSpace)..] == x[Lead(x, IsSpace)..];
  }

  /** The leading run of `p` stops at the first character outside `p`. */
  lemma LeadBelow(x: string, p: char -> bool, k: int)
    requires 0 <= k < |x| && !p(x[k])
    ensures Lead(x, p) <= k
  {
  }

  /** Trimming a text whose last character is outside `p` trims the left only. */
  lemma TrimVisibleEnd(x: string, p: char -> bool)
    requires |x| > 0 && !p(x[|x| - 1])
    ensures Lead(x, p) < |x| && TrimBy(x, p) == x[Lead(x, p)..]
  {
    var n := Lead(x, p);
    assert n < |x| by {
      LeadBelow(x, p, |x| - 1);
    }
    var t := x[n..];
    assert Trail(t, p) == 0 by {
      assert t[|t| - 1] == x[|x| - 1];
    }
    assert t[..|t| - 0] == t;
  }

  /** A text that ends in a visible character is stripped on the left only. */
  lemma StripVisibleEnd(x: string)
    requires |x| > 0 && !IsSpace(x[|x| - 1])
    ensures Lead(x, IsSpace) < |x| && Strip(x) == x[Lead(x, IsSpace)..]
  {
    TrimVisibleEnd(x, IsSpace);
  }

  // ---- split(", ") ----

  lemma CommaNotMatched(s: string, j: int)
    requires 0 <= j < |s| && s[j] != ','
    ensures !MatchAt(s, ", ", j)
  {
    if j + 2 <= |s| {
      assert s[j..j + 2][0] == s[j];
    }
  }

  lemma ContainsFirstChar(s: string, t: string)
    requires |t| > 0 && Contains(s, t)
    ensures t[0] in s
  {
    var i := Find(s, t).value;
    assert s[i] == s[i..i + |t|][0];
  }

  lemma BlankLacksComma(w: string)
    requires Blank(w)
    ensures ',' !in w
  {
    forall j | 0 <= j < |w|
      ensures w[j] != ','
    {
      assert IsSpace(w[j]);
    }
  }

  /** Splitting on `", "` a text whose first field has no comma. */
  lemma SplitCommaHead(a: string, b: string)
    requires ',' !in a
    ensures Split(a + ", " + b, ", ") == [a] + Split(b, ", ")
  {
    forall j | 0 <= j < |a|
      ensures !MatchAt(a + ", " + b, ", ", j)
    {
      assert (a + ", " + b)[j] == a[j];
      CommaNotMatched(a + ", " + b, j);
    }
    SplitAt(a, ", ", b);
  }

  /** A single field without a comma is not split. */
  lemma SplitCommaWhole(s: string)
    requires ',' !in s
    ensures Split(s, ", ") == [s]
  {
    forall j | 0 <= j < |s|
      ensures !MatchAt(s, ", ", j)
    {
      CommaNotMatched(s, j);
    }
    SplitWhole(s, ", ");
  }

  lemma StripEachCons(a: string, b: seq<string>)
    ensures StripEach([a] + b) == [Strip(a)] + StripEach(b)
  {
  }

  /** The entries of a `", "`-joined list, padded with whitespace and split
      again, strip back to the list. */
  lemma {:induction false} StripSplitList(pre: string, ks: seq<string>, post: string)
    requires Blank(pre) && Blank(post)
    requires |ks| > 0 && AllTokens(ks) && forall k :: 0 <= k < |ks| ==> ',' !in ks[k]
    ensures StripEach(Split(pre + Join(ks, ", ") + post, ", ")) == ks
    decreases |ks|
  {
    var k0 := ks[0];
    assert Token(k0) && ',' !in k0;
    if |ks| == 1 {
      StripSplitOne(pre, k0, post);
    } else {
      var b := Join(ks[1..], ", ") + post;
      assert pre + Join(ks, ", ") + post == (pre + k0) + ", " + b;
      assert b == "" + Join(ks[1..], ", ") + post;
      assert Blank("");
      StripSplitList("", ks[1..], post);
      StripSplitHead(pre, k0, b);
      assert ks == [k0] + ks[1..];
    }
  }

  /** A padded entry without a comma splits into itself. */
  lemma StripSplitOne(pre: string, k0: string, post: string)
    requires Blank(pre) && Blank(post) && Token(k0) && ',' !in k0
    ensures StripEach(Split(pre + k0 + post, ", ")) == [k0]
  {
    var s := pre + k0 + post;
    assert ',' !in s by {
      BlankLacksComma(pre);
      BlankLacksComma(post);
    }
    SplitCommaWhole(s);
    StripPadded(pre, k0, post);
  }

  /** The first entry of a padded list splits off and strips back to itself. */
  lemma StripSplitHead(pre: string, k0: string, b: string)
    requires Blank(pre) && Token(k0) && ',' !in k0
    ensures StripEach(Split((pre + k0) + ", " + b, ", ")) == [k0] + StripEach(Split(b, ", "))
  {
    var a := pre + k0;
    assert ',' !in a by {
      BlankLacksComma(pre);
    }
    SplitCommaHead(a, b);
    assert Strip(a) == k0 by {
      assert a == pre + k0 + "";
      assert Blank("");
      StripPadded(pre, k0, "");
    }
    StripEachCons(a, Split(b, ", "));
  }

  // ---- the end of a line ----

  /** What a declaration may carry after its last bracket: nothing or a `;`. */
  predicate Semi(semi: string) {
    semi == "" || semi == ";"
  }

  /** A line of tokens followed by whitespace (its newline, say) strips back
      to the line. */
  lemma StripTail(ws: seq<string>, tail: string)
    requires |ws| > 0 && AllTokens(ws) && Blank(tail)
    ensures Strip(Join(ws, " ") + tail) == Join(ws, " ")
  {
    TokensJoinEnds(ws);
    StripTrailingBlank(Join(ws, " "), tail);
  }

  /** Whitespace after a text that does not start or end with it strips away. */
  lemma StripTrailingBlank(x: string, post: string)
    requires Blank(post)
    requires |x| > 0 && !IsSpace(x[0]) && !IsSpace(x[|x| - 1])
    ensures Strip(x + post) == x
  {
    NothingBefore(x);
    assert Blank("");
    StripPadded("", x, post);
  }

  lemma NothingBefore<T>(s: seq<T>)
    ensures [] + s == s
  {
  }

  /** A line of tokens neither starts nor ends with whitespace. */
  lemma TokensJoinEnds(ws: seq<string>)
    requires |ws| > 0 && AllTokens(ws)
    ensures var j := Join(ws, " "); |j| > 0 && !IsSpace(j[0]) && !IsSpace(j[|j| - 1])
  {
    JoinEnds(ws, " ");
    assert Token(ws[0]) && Token(ws[|ws| - 1]);
  }

  /** ... and splits back into its tokens. */
  lemma SplitWsTail(ws: seq<string>, tail: string)
    requires |ws| > 0 && AllTokens(ws) && Blank(tail)
    ensures SplitWs(Strip(Join(ws, " ") + tail)) == ws
  {
    StripTail(ws, tail);
    SplitWsJoin(ws);
  }

  /** No ` as ` straddles the end of a line of tokens whose last character is
      neither `a` nor `s`, and none lies in the whitespace after it. */
  /** The last token of `ws` does not end in a letter of `as`. */
  predicate EndsClear(ws: seq<string>) {
    |ws| > 0 && var w := ws[|ws| - 1]; |w| > 0 && w[|w| - 1] != 'a' && w[|w| - 1] != 's'
  }

  lemma JoinTailLacksAs(ws: seq<string>, tail: string)
    requires AllTokens(ws) && "as" !in ws && Blank(tail) && EndsClear(ws)
    ensures !Contains(Join(ws, " ") + tail, " as ")
  {
    var j := Join(ws, " ");
    var s := j + tail;
    JoinEnds(ws, " ");
    var last := j[|j| - 1];
    assert last != 'a' && last != 's';
    forall i | 0 <= i
      ensures !MatchAt(s, " as ", i)
    {
      if i + 4 <= |s| {
        if i + 4 <= |j| {
          JoinLacksAs(ws, i);
          assert s[i..i + 4] == j[i..i + 4];
        } else if i + 1 >= |j| {
          assert s[i..i + 4][1] == tail[i + 1 - |j|];
          assert IsSpace(tail[i + 1 - |j|]);
          assert s[i..i + 4][1] != " as "[1];
        } else if i + 2 == |j| {
          assert s[i..i + 4][1] == last;
          assert s[i..i + 4][1] != " as "[1];
        } else {
          assert s[i..i + 4][2] == last;
          assert s[i..i + 4][2] != " as "[2];
        }
      }
    }
  }

  /** Stripping characters neither end holds leaves a text alone. */
  lemma StripCharsIdentity(j: string, chars: string)
    requires |j| > 0 && j[0] !in chars && j[|j| - 1] !in chars
    ensures StripChars(j, chars) == j
  {
    TrimByIdentity(j, c => c in chars);
  }

  /** `line.strip("\n")` of a line holding no newline, or one only at its
      end, is the line's text without it. */
  lemma StripNewline(line: string)
    ensures '\n' !in line ==> StripChars(line, "\n") == line
    ensures |line| > 0 && line[|line| - 1] == '\n' && '\n' !in line[..|line| - 1] ==>
              StripChars(line, "\n") == line[..|line| - 1]
  {
    if '\n' !in line {
      TrimByIdentity(line, c => c in "\n");
    }
    if |line| > 0 && line[|line| - 1] == '\n' && '\n' !in line[..|line| - 1] {
      var x := line[..|line| - 1];
      assert line == x + ['\n'];
      assert |x| == 0 || (x[0] !in "\n" && x[|x| - 1] !in "\n");
      TrimOneTrailing(x, '\n', c => c in "\n");
    }
  }
}
